=== FILE: README.md ===
# Steel defect inspection desktop application — a verified model

This project models the core of a desktop application for inspecting steel
surfaces in Dafny. It has three parts.

- **The labelling tool (`label_widget`).** It keeps an ordered list of
  bounding boxes in image pixels, each with an id and a class label, and the
  index of the selected box. The user draws, resizes (by one of eight
  handles) and drags boxes with the mouse, and deletes them with the Delete
  key. A coordinates table shows each box in normalized centre/size form,
  and the user can edit the box through that table. Mouse positions are
  mapped from label pixels to image pixels by the display scale and offset.
- **The detection pages (`detect_page`).**
  - The live detection page (`detect.py`) lists each frame's detections
    sorted by horizontal centre. It takes a screenshot with a dwell-time
    policy: it waits for the leftmost detection to reach the middle of the
    view, then pauses for twice the time that took. It stores every
    detection of a known class ("dents" or "anomaly") in the matching
    database table.
  - The video page (`detect_box.py`) keeps playback in step with the clock.
    It takes a screenshot on a fixed interval (first at 4.96 s, then every
    4.9 s or more) and logs every frame's rate and capture status. Each
    screenshot appends its anomaly rows and its defect rows (class index
    shifted by one) to the run's annotation CSV file.
  - The folder annotator (`folder_annotator.py`) filters a folder by image
    extension, case-insensitively. It processes the images in sorted path
    order and skips unreadable files. Saving appends one CSV row per
    detection.
- **The login gate (`login_page.py`).** Usernames and passwords shorter
  than eight characters are refused before the credentials are checked.
  Only an authentication answer of exactly `True` opens the menu.

## How the model is organised

There is one Dafny module per source file, plus shared vocabulary.

- `Basics` holds the shared vocabulary.
- `Detections` holds the detection record, its normalization, the sorted
  detection table and annotation CSV files.
- `FreshIds` is a stand-in for the identifier generator.

Code that updates an object's fields in place is modelled as a `class` with
`modifies` clauses. This covers the annotator, the box store, the table
widget, the capture pages and the login window. Each method is specified by
a pure function, and the lemmas are proved about that function. For
example:

- `DwellCapturePage.Step` is tied to `DwellStep`.
- `ProcessFrame` is tied to `IntervalStep` and `AppendAnnotations`.
- `GetBoxContaining` is tied to `TopmostContaining`.

Some inputs are not modelled as state.

- Clock readings, the detector's outputs, file-dialog answers, directory
  listings and database answers are method parameters.
- The effects the application has on the outside world are recorded as
  model state:
  - warning pop-ups, database writes and login side effects are logged in
    ghost sequences;
  - CSV files are a map from path to lines;
  - inserted rows are a sequence.

Python's `int()` on a float truncates toward zero and is modelled by
`Trunc`. `//` by 2 of a non-negative number is Dafny's `/`. `min(key=...)`
picks the first minimum. Floating-point values are modelled as exact reals.

## Model

| member | source | states |
|---|---|---|
| BoundingBoxManager.BoxManager.constructor | label_widget/bounding_box_manager.py:9-11 | The store starts with no boxes and no selection (-1). |
| BoundingBoxManager.BoxManager.DeleteBox | label_widget/bounding_box_manager.py:97-110 | An out-of-range index is refused and changes nothing. Otherwise exactly that box is removed, the others keep their order, and the selection is re-targeted by `Retarget`. |
| BoundingBoxManager.Removed | label_widget/bounding_box_manager.py:109 | Deleting index `i` keeps the boxes before `i` and shifts the later ones down by one. |
| BoundingBoxManager.Retarget | label_widget/bounding_box_manager.py:104-107 | Deleting the selected box clears the selection, deleting an earlier box shifts it down by one, and a later delete keeps it; `RetargetFollowsBox` proves it follows the same box. |
| BoundingBoxManager.RetargetFollowsBox | label_widget/bounding_box_manager.py:104-107 | After a delete, the selection still designates the same box. It becomes -1 exactly when nothing was selected or the selected box was deleted, and it stays in range. |
| BoundingBoxManager.TopmostContaining | label_widget/bounding_box_manager.py:112-122 | The result is the last box whose open interior holds the point: no later box contains it. -1 means no box does. |
| BoundingBoxManager.BoxManager.GetBoxContaining | label_widget/bounding_box_manager.py:112-122 | The downward scan returns exactly `TopmostContaining`, with the same containment and maximality guarantees. |
| BoundingBoxManager.MoveEdges | label_widget/bounding_box_manager.py:139-159 | Each handle overwrites exactly the coordinates it controls with the mouse's, checked against the `ControlsX1/X2/Y1/Y2` table. No handle overwrites nothing. |
| BoundingBoxManager.Dispatch | label_widget/bounding_box_manager.py:139-159 | The handle dispatch moves exactly the edges `MoveEdges` says. |
| BoundingBoxManager.FitAxis | label_widget/bounding_box_manager.py:161-182 | On an axis of at least 2 pixels, the result is inside `[0, n-1]` with a positive extent. An end moved past the other swaps the pair. A collapsed pair becomes one pixel wide and keeps one of its ends. A pair already inside and ordered is unchanged. |
| BoundingBoxManager.FitPair | label_widget/bounding_box_manager.py:161-182 | Clamping, ordering and widening one axis gives exactly `FitAxis`. |
| BoundingBoxManager.ResizedCoords | label_widget/bounding_box_manager.py:124-185 | A resized box is always on the image with a positive size. A side handle leaves the other axis alone. Dragging a side past the opposite side swaps them rather than giving a negative size. |
| BoundingBoxManager.BoxManager.ResizeBox | label_widget/bounding_box_manager.py:124-185 | The resize succeeds exactly when there is a resize index naming a box. That box alone gets `ResizedCoords` and keeps its id and label. Otherwise nothing changes. |
| BoundingBoxManager.ToNormalized | label_widget/bounding_box_manager.py:187-194 | A box on the image has its centre in [0, 1] and its size in (0, 1] on both axes. |
| BoundingBoxManager.FromNormalized | label_widget/bounding_box_manager.py:196-203 | A non-negative size never yields a reversed corner pair. |
| BoundingBoxManager.AxisRoundTrip | label_widget/bounding_box_manager.py:187-203 | On one axis, converting pixels to normalized form and back gives the same two pixel coordinates. |
| BoundingBoxManager.AxisScaled | label_widget/bounding_box_manager.py:187-203 | The normalized centre times the side is the pixel midpoint, and the normalized size times the side is the pixel extent. |
| BoundingBoxManager.NormalizedRoundTrip | label_widget/bounding_box_manager.py:187-203 | `convert_from_normalized_center` inverts `convert_to_normalized_center` exactly, in exact arithmetic. |
| CursorHandler.CursorFor | label_widget/handlers/cursor_handler.py:6-17 | The cursor matches the direction the handle moves the box. Horizontal handles get the horizontal cursor, vertical handles the vertical one, each diagonal's corners its diagonal cursor, and no tag the arrow. It is never the pointing hand. |
| LabelAnnotator.Annotator.constructor | label_widget/annotator.py:26-74 | The annotator starts with no image, no gesture, scale 1, offset 0, an empty store and table, and the arrow cursor. The image label has the size the window layout gives it. |
| LabelAnnotator.Annotator.OpenImage | label_widget/annotator.py:88-117 | A cancelled dialog changes nothing: the image, the pixmap flag, the display, the label, the mapping, the store and the table are all kept. A failed read or pixmap load records the read result, warns, and keeps everything else the same way. A complete load clears the boxes and the selection, empties the table (no row selected, no current row, -1) and shows the new image. It lays the label out by `LabelSize` for the window, sets the scale to `FitScale` and centres the image with `FitOffset`. No gesture field changes. |
| LabelAnnotator.Annotator.ShowImage | label_widget/annotator.py:110-117 | After a complete load the image is displayed and the boxes and selection are cleared. The table is emptied with no row selected and no current row (-1), as `setRowCount(0)` leaves it. The label gets `LabelSize`, and the image is fitted into it with `FitScale` and centred with `FitOffset`. |
| LabelAnnotator.Annotator.AdjustLayout | label_widget/annotator.py:119-146 | The label gets exactly the size `LabelSize` computes for the image in the window, minimum included. |
| LabelAnnotator.LabelSize | label_widget/annotator.py:119-146 | The label keeps the image height unless the window (less 100 pixels) is lower, and has the width that keeps the aspect ratio. That width is cut to 70% of the window, with the height following, when it is wider. The requested size is then raised to the label's 600 x 400 minimum, so the result is never smaller than that. |
| LabelAnnotator.AspectWidthOfHeight | label_widget/annotator.py:130-135 | At the image's own height, the width that keeps the aspect ratio is the image's width. |
| LabelAnnotator.AspectHeightBelow | label_widget/annotator.py:138-141 | Cutting the width below the aspect-keeping width of height `h` gives a height between 0 and `h`. |
| LabelAnnotator.LabelFitsWindow | label_widget/annotator.py:119-146 | Unless the minimum holds it at 600, the label is no wider than 70% of the window. Unless the minimum holds it at 400, it is no taller than the image and leaves 100 pixels of the window height free. |
| LabelAnnotator.LabelOfSmallImage | label_widget/annotator.py:119-178 | An image that fits the window at its own size gets a label of its size raised to the 600 x 400 minimum, so it is never shrunk for display (scale at least 1). An image at least as large as the minimum is shown at scale 1 with offsets 0. |
| LabelAnnotator.Annotator.UpdateDisplay | label_widget/annotator.py:148-184 | With a displayed image and a non-empty label, the scale is the largest ratio that fits the image in the label and the image is centred. Both offsets are non-negative and one of them is 0. Otherwise the mapping is unchanged. Only the scale and offsets may change, and they depend only on the displayed shape and the label size, so a repeated call changes nothing. |
| LabelAnnotator.FitScale | label_widget/annotator.py:164-167 | The display scale is the smaller of the label-to-image ratios on the two axes; `FitCentres` proves it positive and fitting. |
| LabelAnnotator.FitOffset | label_widget/annotator.py:169-173 | The offset is half the label room left by the truncated scaled side, floored; `FitCentres` proves it non-negative. |
| LabelAnnotator.FitCentres | label_widget/annotator.py:160-178 | The fitting scale is positive, the scaled image fits inside the label on both axes, and it fills the label on one axis. |
| LabelAnnotator.SideFits | label_widget/annotator.py:160-178 | A side scaled by at most `room / side` leaves a non-negative offset. |
| LabelAnnotator.SideFilled | label_widget/annotator.py:160-178 | A side scaled by exactly `room / side` leaves offset 0. |
| LabelAnnotator.Annotator.DeleteBox | label_widget/annotator.py:201-212 | A valid index removes the box, re-targets the selection and resets the cursor. With an image, the table then shows the remaining boxes (`ShowsBoxes`) and the new selection (`ShowsSelection` on the shrunken row count, so a current row past the last box moves to the new last row, or to -1). An invalid index changes nothing, including the table, and without an image the table is untouched. |
| LabelAnnotator.Annotator.ResizeBox | label_widget/annotator.py:221-231 | The box under resize, and only that box, gets `ResizedCoords` against the image's size, and the table is rebuilt to show the boxes and the selection. Without a valid resize index nothing changes, including the table. |
| LabelAnnotator.TableRebuilt | label_widget/table_manager.py:22-88 | `update_table` ran: the table shows one `RowFor` row per box, with labels remembered from the rows before, and its selection follows the store's (`ShowsBoxes`, `ShowsSelection` over the new number of boxes). |
| LabelAnnotator.TableKept | label_widget/table_manager.py:22-88 | The table's rows, selected row and current row are as they were. |
| TableManager.LabelsOf | label_widget/table_manager.py:33-42 | The remembered-label map has exactly the ids of the rows it scanned as keys. |
| TableManager.LabelsOfDistinct | label_widget/table_manager.py:33-42 | With distinct ids, every scanned row contributes its own label. |
| TableManager.RowFor | label_widget/table_manager.py:51-76 | Row `k` shows number `k+1`, the box's id, the previously shown label for that id or else the stored one, and four numeric cells. Only number and id are locked. For a box on the image, the values are in range. |
| TableManager.RowShowsBox | label_widget/table_manager.py:51-76 | The cells of a rebuilt row convert back to exactly the stored box. |
| TableManager.ShowsBoxes | label_widget/table_manager.py:22-76 | The rebuilt table has one row per box, row `k` being `RowFor` box `k` with the labels the previous rows showed. |
| TableManager.ShowsSelection | label_widget/table_manager.py:49-88 | After a rebuild the selected box's row is selected and current. Without a selection nothing is selected and the current row is what `setRowCount` left of it (`CurrentAfterRowCount`): kept if it still exists, else the new last row, or -1 for an empty table. |
| TableManager.CurrentAfterRowCount | label_widget/table_manager.py:49 | Qt's current row after `setRowCount(count)` removes rows from the end: a surviving row is kept, a removed one moves to the new last row, none stays none, and an empty table has none (-1); the result is always below `count`. |
| TableManager.ShownTableGivesBoxes | label_widget/table_manager.py:22-76 | A table that shows the boxes numbers its rows from 1 and lists the box ids in store order. Each row's cells convert back to exactly that box's coordinates. |
| TableManager.UpdateTable | label_widget/table_manager.py:22-88 | Without an image nothing changes. Otherwise the rows are `ShowsBoxes` of the store over the image, with the labels the table showed before. The selection is `ShowsSelection`: the selected box's row becomes selected and current; with no selection nothing is selected and the current row is adjusted for the new row count as `setRowCount` does. The table geometry is kept. |
| TableManager.ShownLabels | label_widget/table_manager.py:33-42 | The first loop collects exactly `LabelsOf` the rows that still have a box. |
| TableManager.BuildRows | label_widget/table_manager.py:51-76 | The second loop builds one row per box, row `k` being exactly `RowFor` box `k`. |
| TableManager.RebuildKeepsTypedLabels | label_widget/table_manager.py:33-58 | A rebuild keeps a label the user typed into a box's row. A new box shows its stored label. |
| TableManager.ParsedNorm | label_widget/table_manager.py:110-114 | The four coordinate cells give a normalized box exactly when all four are numbers. |
| TableManager.ClampNorm | label_widget/table_manager.py:116-120 | Centres are clamped into [0, 1] and sizes into [0.01, 1]. A value already in range is kept. |
| TableManager.OnTableCellChanged | label_widget/table_manager.py:90-143 | A label edit renames the box. A coordinate edit stores the box the clamped values describe and shows the clamped values. Non-numeric text warns and rebuilds the table to show the unchanged boxes and the selection (`ShowsBoxes`, `ShowsSelection`). Other columns, a row out of range, or no image change nothing. Apart from that rebuild, the table's selected and current rows are kept, and the store's selection never changes. |
| TableManager.CellEditKeepsBox | label_widget/table_manager.py:116-127 | Re-committing the values a rebuilt row shows leaves a box of at least 1% of the image where it was. |
| TableManager.OnTableSelectionChanged | label_widget/table_manager.py:145-157 | A selected row that names a box becomes the selection. An empty selection clears it. A row past the boxes changes nothing. |
| TableManager.ItemBox | label_widget/table_manager.py:167-178 | A row yields a box exactly when its four coordinate cells are numbers. That box carries the row's id and label. |
| TableManager.ItemBoxOfRebuiltRow | label_widget/table_manager.py:167-181 | Pushing back a freshly rebuilt row gives the box it shows. |
| TableManager.HandleItemChanged | label_widget/table_manager.py:159-184 | An edit in column 2 or later of a parseable row replaces that box with the row's unclamped values and returns it for the database. Every other case changes nothing. |
| BoxOperations.Spanned | label_widget/handlers/box_operations.py:22-26 | The drawn box has sorted corners taken from the two points on each axis. |
| BoxOperations.TooSmall | label_widget/handlers/box_operations.py:28 | A drawn rectangle is refused exactly when it is less than 2 pixels on either axis. |
| BoxOperations.StartDrawing | label_widget/handlers/box_operations.py:10-14 | Drawing starts at the point and the selection is dropped. The boxes are unchanged. |
| BoxOperations.HandleDrawingMove | label_widget/handlers/box_operations.py:16-18 | Only the end point follows the mouse. |
| BoxOperations.FinishDrawing | label_widget/handlers/box_operations.py:20-51 | A rectangle at least 2 pixels on both axes is appended exactly as drawn, under a never-issued id, labelled "Anomaly" and selected. The table is rebuilt to show the boxes and that selection. A smaller one only warns, and then, as without a start point, the boxes, selection and table are unchanged. The drawing gesture always ends. |
| BoxOperations.FinishRectangle | label_widget/handlers/box_operations.py:28-46 | A small rectangle only warns and leaves the table alone. Otherwise the drawn rectangle comes back unchanged from normalized form and is appended under a new id with the label "Anomaly" and selected. The table is rebuilt to show the boxes (`ShowsBoxes`) and that selection (`ShowsSelection`). |
| BoxOperations.StartResizing | label_widget/handlers/box_operations.py:53-58 | Resizing starts on the given box and handle, and that box becomes selected. |
| BoxOperations.HandleResizingMove | label_widget/handlers/box_operations.py:60-62 | The boxes become `AfterResize` of the mouse, and a resize that happened rebuilds the table. The gesture and selection are unchanged. |
| BoxOperations.AfterResize | label_widget/bounding_box_manager.py:124-185 | Only the box under resize changes, and it stays on the image. All ids and labels are kept. |
| BoxOperations.PushSelected | label_widget/handlers/box_operations.py:68-73 | With an image the table is rebuilt to show the boxes and the selection; without one it is untouched. The selected box, if any, is written to the database. |
| BoxOperations.FinishResizing | label_widget/handlers/box_operations.py:64-73 | The resizing fields are cleared and the boxes are kept. The table is rebuilt to show them and the selection, and the selected box is written to the database. |
| BoxOperations.StartDragging | label_widget/handlers/box_operations.py:75-80 | Dragging of the given box starts from the point, and that box becomes selected. |
| BoxOperations.Dragged | label_widget/handlers/box_operations.py:95-101 | A drag never changes a box's size and never moves it left of or above 0. A box no larger than the image stays on it. A move that fits is taken exactly. |
| BoxOperations.DraggedStaysInside | label_widget/handlers/box_operations.py:95-101 | A box inside the image stays inside after any drag step. |
| BoxOperations.AfterDrag | label_widget/handlers/box_operations.py:86-103 | Only the dragged box moves. All ids and labels are kept. |
| BoxOperations.HandleDraggingMove | label_widget/handlers/box_operations.py:82-106 | The dragged box moves by the mouse's motion since the last step, clamped to the image, and the reference point advances. With an image the table is then rebuilt to show the boxes and the selection. An index outside the store changes nothing, including the table. |
| BoxOperations.FinishDragging | label_widget/handlers/box_operations.py:108-117 | The dragging fields are cleared and the boxes are kept. The table is rebuilt to show them and the selection, and the selected box is written to the database. |
| MouseHandler.AllTagsListed | label_widget/handlers/mouse_handler.py:52-61 | The hit test examines every one of the eight handles. |
| MouseHandler.EdgeHit | label_widget/handlers/mouse_handler.py:52-61 | A corner handle is hit within 10 pixels on both axes. A side handle is hit within 10 pixels across it and inside its closed span along it. |
| MouseHandler.FirstHit | label_widget/handlers/mouse_handler.py:52-65 | The result is the first tag hit in test order: none before it is hit, and none means no tag is hit. |
| MouseHandler.FirstTag | label_widget/handlers/mouse_handler.py:52-65 | The handle reported for one box is the first hit tag in test order; `FirstTagMeaning` proves it hit and present exactly when some handle is near. |
| MouseHandler.FirstTagMeaning | label_widget/handlers/mouse_handler.py:52-65 | A handle is reported exactly when some handle is within 10 pixels, and the reported handle is hit. |
| MouseHandler.HoverCursor | label_widget/handlers/mouse_handler.py:69-78 | The cursor over a handle is that handle's cursor, inside a box the pointing hand, elsewhere the arrow; `HoverCursorMeaning` characterises each case. |
| MouseHandler.CornerBeatsSide | label_widget/handlers/mouse_handler.py:52-61 | A side is reported only when no corner is hit, and a hit corner is always reported as a corner. |
| MouseHandler.CheckBoxEdge | label_widget/handlers/mouse_handler.py:48-67 | The result is the lowest-index box with a handle under the mouse, and its handle. None means no box has one. |
| MouseHandler.HandlesUnder | label_widget/handlers/mouse_handler.py:50-61 | Entry `j` is the handle of box `j` under the mouse, for every box in store order. |
| MouseHandler.CheckFrom | label_widget/handlers/mouse_handler.py:50-65 | Scanning the boxes' handles from index `from` on finds the first box with a handle under the mouse, and none before it. It finds nothing exactly when no box from `from` on has one. |
| MouseHandler.HoverCursorMeaning | label_widget/handlers/mouse_handler.py:69-78 | The arrow shows exactly when no handle is near and no box contains the mouse. The pointing hand shows exactly when no handle is near but some box contains it. |
| MouseHandler.UpdateCursorStyle | label_widget/handlers/mouse_handler.py:69-78 | The cursor becomes `HoverCursor`, and nothing else changes. |
| MouseHandler.Pressed | label_widget/handlers/mouse_handler.py:14-26 | The effect of a press: a handle under the mouse starts resizing that box, otherwise the topmost box under it starts dragging, otherwise drawing starts. The box the gesture is about becomes the selection (none for drawing). The boxes, table, view, cursor, warnings and database writes are unchanged. |
| MouseHandler.Moved | label_widget/handlers/mouse_handler.py:28-37 | The effect of a move: at most one gesture advances, in the order drawing, resizing, dragging. Drawing moves the end point. Resizing applies `AfterResize`, and dragging applies `AfterDrag` and makes the mouse the new reference. The table is rebuilt (`ShowsBoxes`, `ShowsSelection`) exactly when the resize or drag names a box, and is kept otherwise. The cursor then becomes `HoverCursor`. The view, selection, warnings and database writes are unchanged. |
| MouseHandler.Pushed | label_widget/handlers/box_operations.py:64-73 | The tail of a finished resize or drag: the table is rebuilt, and the selected box is written to the database exactly when there is one. |
| MouseHandler.Drawn | label_widget/handlers/box_operations.py:20-51 | The end of a drawing: a rectangle under 2 pixels on a side only warns, leaving the boxes, selection and table. Otherwise it is appended as drawn under a new id with the label "Anomaly", selected, and the table is rebuilt. |
| MouseHandler.Released | label_widget/handlers/mouse_handler.py:39-46 | The effect of a release: at most one gesture finishes, in the order resizing, dragging, drawing. A finished resize or drag clears its gesture fields and does `Pushed`. A finished drawing clears its fields and does `Drawn` on the rectangle spanned from the start point to the mouse. The view and cursor are unchanged. With no gesture, nothing changes. |
| MouseHandler.HandlePress | label_widget/handlers/mouse_handler.py:14-26 | The press has the effect `Pressed` and is consumed. |
| MouseHandler.HandleMove | label_widget/handlers/mouse_handler.py:28-37 | The move has the effect `Moved` and is consumed. |
| MouseHandler.HandleRelease | label_widget/handlers/mouse_handler.py:39-46 | The release has the effect `Released` and is consumed. A new box's id is new relative to every id issued before. |
| EventHandlers.ScaledPosition | label_widget/event_handlers.py:58-67 | With an image, the mapped position is always on it, and it is the exact unscaled position when that is on the image. Without an image it is the unclamped unscaled position. |
| EventHandlers.ScaledPositionOfDrawnPixel | label_widget/event_handlers.py:58-67 | The label position where an image pixel is drawn maps back to that pixel. |
| EventHandlers.DeleteTarget | label_widget/event_handlers.py:31-41 | The index to delete: the table's current row for the table, the selected box for the image or the window, and -1 for any other widget. |
| EventHandlers.DeleteKeyEffect | label_widget/event_handlers.py:31-45 | The key is consumed exactly when `DeleteTarget` is not -1. A target naming a box removes it (`Removed`) and retargets the selection (`Retarget`). It rebuilds the table when an image is loaded, keeping it otherwise, and resets the cursor. Any other target changes nothing. |
| EventHandlers.HandleDeleteKey | label_widget/event_handlers.py:31-45 | The key has the effect `DeleteKeyEffect`. When it is not consumed, the annotator, the store and the table are untouched. Deleting the selected box from the image or the window leaves nothing selected. |
| EventHandlers.TableDeleteKeepsTarget | label_widget/event_handlers.py:31-45 | A Delete from the table removes one box and leaves a current row that names a remaining box while any is left, and -1 once none is, so repeated Deletes from the table empty it one box at a time. |
| EventHandlers.HandleWindowResize | label_widget/event_handlers.py:69-76 | The table keeps its size and offset and ends 20 pixels from the window's right side. Its contents are untouched. |
| EventHandlers.EventFilter | label_widget/event_handlers.py:18-56 | Delete is handled first on any widget, with the effect `DeleteKeyEffect`. A move on the image label with an image loaded has the effect `Moved`, and a left press or release `Pressed` or `Released`. Each acts at the event's position mapped by `ScaledPosition` with the scale and offsets from before the event. Other buttons are not consumed. A resize on the main window moves only the table. Anything not consumed leaves the annotator, store, table and id generator untouched. |
| FreshIds.IdOracle.New | label_widget/handlers/box_operations.py:43 | Every new identifier differs from all identifiers issued before. |
| Detections.Normalize640 | detect_page/detect.py:296-300 | Centre ∓ half size gives back each corner over 640. A detection inside the 640 × 640 input is normalized into [0, 1]. |
| Detections.Normalize640RoundTrip | detect_page/detect.py:296-300 | The detection pages normalize as the annotator does for a 640 × 640 image, so converting back gives the corners. |
| Detections.Leftmost | detect_page/detect.py:252 | None exactly for no detection. Otherwise the result is an index with the least `x0`, and the first such index. |
| Detections.InsertByCenter | detect_page/detect.py:302 | Inserting into a centre-sorted list keeps it sorted and adds exactly that detection. |
| Detections.ConsSorted | detect_page/detect.py:302 | Prepending a key no larger than the head's keeps the list sorted. |
| Detections.SortByCenter | detect_page/detect.py:302 | The result is a permutation of the detections in non-decreasing centre order. |
| Detections.UpdateDetectionTable | detect_page/detect.py:290-322 | There is one row per detection. Row `k` shows number `k+1` and the `k`-th detection by centre, with its class, confidence and normalized box. Centres are non-decreasing down the table, and the ids are never issued before and pairwise distinct. |
| Detections.RowIdsFreshNext | detect_page/detect.py:306 | A row under a newly issued identifier keeps the table's identifiers fresh and distinct. |
| Detections.RowsFollowCentres | detect_page/detect.py:302-322 | Rows showing centre-sorted detections list the displayed centres in non-decreasing order. |
| Detections.CenterKeyAgrees | detect_page/detect.py:297-302 | The sort key is the displayed centre. |
| Detections.DataRows | detect_page/detect_box.py:539-557 | The data rows of a well-formed file are its lines after the header, in order. |
| Detections.DataLines | detect_page/detect_box.py:539-557 | Each annotation row becomes one data line, in order. |
| Detections.AppendAnnotations | detect_page/detect_box.py:539-557 | A new file gets the header and then the rows. An existing file keeps its contents as a prefix, followed by the rows in order. |
| Detections.AppendKeepsWellFormed | detect_page/detect_box.py:539-557 | Appending keeps a file well formed (one header at the top), and its data rows become the old ones followed by the new ones. |
| Detections.DataLinesKeepWellFormed | detect_page/detect_box.py:539-557 | Data lines after a well-formed file keep it well formed. |
| Detections.DataLinesAddRows | detect_page/detect_box.py:539-557 | The data rows after appending are the old ones followed by the new ones. |
| Detections.AnnotationOf | detect_page/detect_box.py:492-511 | The annotation row carries the image path, the class index shifted by the given amount, the class name, the confidence and the normalized box. |
| DwellCapture.DwellStep | detect_page/detect.py:247-276 | With nothing detected, the first sighting is forgotten. While waiting for the centre, the step captures exactly when the leftmost detection is centred, and then waits until `now + 2·(now − first seen)`. During the wait nothing happens. At its end the mode returns to waiting for the centre, capturing exactly when something is detected. A capture needs a detection. |
| DwellCapture.Centred | detect_page/detect.py:247-260 | A detection is centred when its horizontal centre, scaled from 640 pixels to the label and truncated, is less than 5% of the label width from the label's middle. |
| DwellCapture.Run | detect_page/detect.py:247-276 | Folds `DwellStep` over the frames. Its ensures only bound the count (at most one screenshot per frame, none over frames in which nothing was detected); what the fold promises about timing is stated in `DelayHoldsOff` and `PauseAfterCentring`. |
| DwellCapture.DelayHoldsOff | detect_page/detect.py:270-276 | While every frame comes before the end of the wait, no screenshot is taken and the state stays the same. |
| DwellCapture.PauseAfterCentring | detect_page/detect.py:257-266 | After a centring screenshot, the wait ends no earlier than the screenshot itself, and no screenshot is taken before the wait ends. |
| DwellCapture.Route | detect_page/detect.py:393-400 | "dents" goes to the defect table and "anomaly" to the anomaly table, compared in lower case. Any other class is skipped. Each direction is stated as an iff. |
| DwellCapture.RouteIgnoresCase | detect_page/detect.py:394-397 | Routing does not depend on letter case. |
| DwellCapture.Routed | detect_page/detect.py:384-400 | Every stored detection has a known class, and there are no more of them than detections. |
| DwellCapture.RoutedFromFrame | detect_page/detect.py:384-400 | Every stored detection is a detection of the frame with a known class. |
| DwellCapture.RoutedKeepsKnownClasses | detect_page/detect.py:384-400 | When every class is known, every detection is stored, in order. |
| DwellCapture.RowOf | detect_page/detect.py:385-421 | A routed detection's row stores its class index, the screenshot's database path, its normalized box and its confidence as a fraction, under the given id. |
| DwellCapture.DbImagePath | detect_page/detect.py:380 | The database path of a screenshot is `/steel-defect-pyside/screenshots/` followed by its file name. |
| DwellCapture.SaveScreenshot | detect_page/detect.py:380-421 | One row per detection of a known class, in order, each under an identifier never issued before, with no two rows sharing one. |
| DwellCapture.StoreNext | detect_page/detect.py:384-421 | One detection extends the stored rows by its row when its class is routed, keeping the identifiers fresh. |
| DwellCapture.IdsFreshNext | detect_page/detect.py:403 | A row under a newly issued identifier keeps the rows' identifiers fresh and distinct. |
| DwellCapture.StoresNext | detect_page/detect.py:384-421 | Going over one more detection adds exactly its row, or no row for an unknown class. |
| DwellCapture.DwellCapturePage.constructor | detect_page/detect.py:105-108 | The page starts waiting for a defect to reach the centre, with nothing seen and nothing stored. |
| DwellCapture.DwellCapturePage.Step | detect_page/detect.py:247-276 | The new capture state and the capture decision are exactly `DwellStep`'s. A capture appends the screenshot's rows to the database; otherwise nothing is stored. |
| DwellCapture.DwellCapturePage.Save | detect_page/detect.py:367-422 | The screenshot's rows are appended after the earlier ones, and the capture state is unchanged. |
| IntervalCapture.IntervalStep | detect_page/detect_box.py:295-316 | Before the first screenshot, it captures exactly from 4.96 s. Afterwards it captures exactly when 4.9 s have passed since the last one. A capture records its time, and no capture changes nothing. The two fields stay consistent. |
| IntervalCapture.RunIntervals | detect_page/detect_box.py:295-316 | A run takes at most one screenshot per frame, each at the time of one of the frames. |
| IntervalCapture.ScreenshotsSpaced | detect_page/detect_box.py:295-316 | Over any frames, the first screenshot comes no earlier than 4.96 s (or 4.9 s after the previous one), and consecutive screenshots are at least 4.9 s apart. |
| IntervalCapture.FrameDuration | detect_page/detect_box.py:159 | The frame duration is positive: the reciprocal of the frame rate, or 0.033 when none is reported. |
| IntervalCapture.SeekTarget | detect_page/detect_box.py:194-198 | Playback only ever seeks forward, to the frame due at the elapsed time. |
| IntervalCapture.Fps | detect_page/detect_box.py:282-293 | The rate is 1000 over a positive processing time in milliseconds, and 0 otherwise. |
| IntervalCapture.Status | detect_page/detect_box.py:327 | The status is "yes" exactly for a captured frame and "no" exactly for the others. |
| IntervalCapture.CombinedRows | detect_page/detect_box.py:488-537 | The anomaly rows come first, in order and unshifted. The defect rows follow with their class index shifted up by one. |
| IntervalCapture.ScreenshotRows | detect_page/detect_box.py:488-537 | The two loops assemble exactly `CombinedRows`. |
| IntervalCapture.IntervalCapturePage.constructor | detect_page/detect_box.py:121-131 | The page starts with no video, not playing, no screenshot taken, and no log or files. |
| IntervalCapture.IntervalCapturePage.StartDetection | detect_page/detect_box.py:152-186 | Without a selected video nothing happens. Otherwise playback starts at time `now` from frame 0, with the frame duration from the rate, an empty FPS log, the new annotation file and the capture state reset. |
| IntervalCapture.IntervalCapturePage.ProcessFrame | detect_page/detect_box.py:188-329 | When stopped, nothing happens. Playback never seeks backwards. A failed read stops playback without a capture. Otherwise the capture decision and new state are `IntervalStep`'s, one log row with the rate and status is appended, and a capture appends the frame's rows to the run's annotation file. |
| IntervalCapture.IntervalCapturePage.CaptureIfDue | detect_page/detect_box.py:295-316 | The capture fields and the decision are exactly `IntervalStep`. A capture appends `CombinedRows` to the annotation file, and no capture leaves the files alone. |
| IntervalCapture.IntervalCapturePage.SaveScreenshot | detect_page/detect_box.py:458-557 | `CombinedRows` is appended to the run's annotation file, under a header when the file is new. Nothing else changes. |
| FolderAnnotator.HasImageExt | detect_page/folder_annotator.py:57-62 | A name passes exactly when its lower-cased form ends in one of the six image extensions. |
| FolderAnnotator.HasImageExtIgnoresCase | detect_page/folder_annotator.py:61 | The filter does not depend on letter case. |
| FolderAnnotator.Join | detect_page/folder_annotator.py:58-62 | A folder entry's path is the folder, `/`, and the name, as `os.path.join` gives it for a folder path without a trailing separator. |
| FolderAnnotator.ImageNames | detect_page/folder_annotator.py:58-62 | The kept names are exactly the listing's names that pass the filter. |
| FolderAnnotator.ImageFiles | detect_page/folder_annotator.py:58-62 | Each kept name is joined to the folder, in listing order. |
| FolderAnnotator.LexTotal | detect_page/folder_annotator.py:68 | The string order is total. |
| FolderAnnotator.LexTrans | detect_page/folder_annotator.py:68 | The string order is transitive. |
| FolderAnnotator.ConsSortedPath | detect_page/folder_annotator.py:68 | Prepending a path no larger than the head keeps paths sorted. |
| FolderAnnotator.InsertPath | detect_page/folder_annotator.py:68 | Inserting into sorted paths keeps them sorted and adds exactly that path. |
| FolderAnnotator.SortPaths | detect_page/folder_annotator.py:68 | The result is a permutation of the paths in non-decreasing string order. |
| FolderAnnotator.Loaded | detect_page/folder_annotator.py:68-110 | Only readable images are loaded, each with the detector's output on it, and every readable image among the paths is loaded. |
| FolderAnnotator.LoadedNext | detect_page/folder_annotator.py:68-110 | Going over one more path adds its image exactly when it could be read. |
| FolderAnnotator.LoadImages | detect_page/folder_annotator.py:68-110 | The loop over the sorted paths loads exactly `Loaded`: each readable image with the detector's output on it, in order. |
| FolderAnnotator.LastIndexOf | detect_page/folder_annotator.py:155 | The result is the last position of the character, or -1 when it does not occur. |
| FolderAnnotator.BaseName | detect_page/folder_annotator.py:155 | The base name is a suffix of the path with no `/` in it. |
| FolderAnnotator.BaseNameLongest | detect_page/folder_annotator.py:155 | The base name is the longest such suffix: the whole path, or a `/` comes right before it. |
| FolderAnnotator.Stem | detect_page/folder_annotator.py:155 | The stem is a prefix of the name. |
| FolderAnnotator.StemDropsExtension | detect_page/folder_annotator.py:155 | An extension is dropped exactly when some dot has a non-dot before it, and then the name is cut at its last dot. |
| FolderAnnotator.SavedImagePath | detect_page/folder_annotator.py:155-158 | The saved copy of an image is `screenshots/`, its stem, `_`, the time stamp and `.png`. |
| FolderAnnotator.SavedImagePathCollides | detect_page/folder_annotator.py:155-158 | At one time stamp two images get the same saved copy exactly when their stems agree, so `a.jpg` and `a.png` share one. |
| FolderAnnotator.ImageRows | detect_page/folder_annotator.py:154-179 | An image contributes one row per detection, in order, each pointing to the image's saved copy. |
| FolderAnnotator.FolderRows | detect_page/folder_annotator.py:154-179 | The save's rows are each image's rows in turn; `FolderRowsCount` and `FolderRowsNext` give their number and their growth. |
| FolderAnnotator.FolderRowsCount | detect_page/folder_annotator.py:154-179 | A save writes exactly one row per detection of the loaded images. |
| FolderAnnotator.FolderRowsNext | detect_page/folder_annotator.py:154-179 | One more image adds exactly its own rows after the earlier ones. |
| FolderAnnotator.SavedRows | detect_page/folder_annotator.py:166-179 | The inner loop builds exactly the image's rows. |
| FolderAnnotator.FolderAnnotatorPage.constructor | detect_page/folder_annotator.py:29-48 | The window starts with no folder, no images and no files. |
| FolderAnnotator.FolderAnnotatorPage.LoadFolder | detect_page/folder_annotator.py:50-123 | A cancelled dialog changes nothing. A folder without matching files shows "no images found" and disables saving. Otherwise the loaded images are `Loaded` over the sorted image paths. Saving is enabled exactly when some image loaded, and "no valid images" is shown when none did. |
| FolderAnnotator.FolderAnnotatorPage.SaveAnnotations | detect_page/folder_annotator.py:125-180 | Nothing happens without loaded images. Otherwise every detection's row is appended to the file, under a header when the file is new. |
| LoginPage.LoginEffects | login_page/login_page.py:86-119 | A short username is refused first, then a short password, each with its own warning and without asking the service. The service is asked exactly when both are long enough. The menu opens exactly when it answers `True`, after the user id, role, session and operation id in that order. Every other attempt ends in exactly one warning. |
| LoginPage.LoginWindow.constructor | login_page/login_page.py:22-30 | The window starts with no session fields. |
| LoginPage.LoginWindow.HandleLogin | login_page/login_page.py:86-119 | The typed credentials are stored whatever happens. The attempt's effects are `LoginEffects`. It succeeds exactly when the menu opens, and then the user id, role and operation id are set. A failure leaves them as they were. |

## Left out

- Rendering is not modelled. This covers drawing boxes and handles
  (line widths and radii), text overlays, the folder annotator's preview
  of its first image, pixmap scaling, the image handler, and the duration
  and FPS labels. Apart from the `update_display` call at the end of
  every redraw, covered in the next line, none of it changes the modelled
  state.
- `LabelAnnotator.Annotator.UpdateDisplay` is called by `OpenImage` only.
  Every later redraw (`draw_boxes`) also calls `update_display`, and those
  calls are left out. The result depends only on the displayed image's
  shape and the label's size, and in the model only `OpenImage` changes
  either of them, so each such call would set the same scale and offsets
  again. In the program the layout manager can re-size the label between
  redraws (next line). The next redraw then refits the mapping to the new
  size, while the model keeps the mapping `OpenImage` set.
- `LabelAnnotator.Annotator.AdjustLayout` models the geometry
  `_adjust_ui_layout` asks for, raised to the label's 600 x 400 minimum
  (label_widget/ui_label.py:136). The label is also a stretch item of the
  window's vertical layout (label_widget/ui_label.py:59-69). Qt's layout
  manager re-sizes it when the window is resized or re-laid out, and
  those sizes are not modelled: `labelW` and `labelH` keep the values
  `OpenImage` gave them. The label's position (20, 70) in the window is
  not read by any modelled operation. The layout uses the pixmap's size,
  and the model takes it to be the shape OpenCV read from the same file.
  The guard against a zero image height cannot fire, because image sizes
  are positive here. The main window's size is a parameter of
  `OpenImage`.
- UI construction and signal wiring are not modelled. Widgets are created
  from the designer files, and buttons are connected to handlers.
- Detector inference is not modelled. The models' outputs on a frame are
  inputs to the operations, already truncated to integer corners, and the
  models themselves are out of scope.
- Databases and files are not modelled beyond the state described above.
  - The SQL engine is replaced by the list of inserted rows.
  - Login's database queries are parameters.
  - A CSV file is a sequence of a header and data lines. The FPS history
    file's header and path, and the annotation file's name, are
    parameters.
  - Image files written with `imwrite` are not modelled; only their paths
    appear in rows.
- IEEE floating point and the four- and five-decimal formatting of table
  cells are not modelled; values are exact reals. A cell is modelled as
  either a number or text that fails to parse.
- Clock readings, time stamps and `ulid.new()` are inputs. `FreshIds`
  stands in for `ulid` and guarantees only that identifiers are never
  reused.
- Qt event delivery order and re-entrancy are not modelled. Each handler
  runs to completion, and signals blocked during a table rebuild are not
  replayed.
- Exceptions that leave state half-updated are not modelled. A resize
  index past the end, or a cell edit on a row the table lacks, changes
  nothing in the model. In the video page, a screenshot when the detector
  reports no timing raises `NameError` on `total_time`; the model captures
  normally.
- `Basics.Lower` folds only ASCII letters; Python's `str.lower` folds all
  of Unicode.
- `Detections.SortByCenter` does not prove stability of Python's `sorted`
  for equal keys.
- The defect detections of a screenshot are one flat sequence, where the
  source walks them per result.
- `IntervalCapture.IntervalCapturePage.SaveScreenshot` always writes to
  the run's annotation path. The fallback file name used when no run is
  active is not modelled, and neither are the combined-FPS labels.
- The "Dent" rename in the live page's save has no effect on the stored
  row and is not modelled. The `defect_first_seen_x0` field is never read
  and is not modelled.
- Video selection, pause and stop on both detection pages are not
  modelled.
- The live page's own playback seek and frame-duration code are not
  modelled separately. They are the same as the video page's, which
  `SeekTarget` and `FrameDuration` model.
- `login_page/ui_login.py` is not part of this model.

=== FILE: annotator.dfy ===
/** The annotator window's state: the loaded image, the box store and the
    table, the gesture in progress (drawing, resizing or dragging) and the
    display scale that maps label pixels to image pixels. */
module LabelAnnotator {
  import opened Basics
  import opened BoundingBoxManager
  import opened CursorHandler
  import opened TableManager

  /** Pixel distance within which the mouse counts as on an edge or corner. */
  const EdgeThreshold := 10

  /** The gesture fields of the annotator, taken together. */
  datatype GestureState = GestureState(
    drawing: bool, startPoint: Option<Point>, endPoint: Option<Point>,
    resizing: bool, resizeIndex: Option<nat>, resizeEdge: Option<Edge>,
    dragging: bool, dragStart: Option<Point>, dragIndex: Option<int>)

  /** The loaded image, the image label's size and the label-to-image
      mapping, taken together. */
  datatype ViewState = ViewState(
    image: Option<Dims>, hasPixmap: bool, display: Option<Dims>,
    labelW: int, labelH: int, scaleRatio: real, offsetX: int, offsetY: int)

  /** Everything a mouse or key event can read or change, taken together:
      the gesture, the view, the store, the table's rows and selection, the
      cursor, and the warnings and database writes so far. */
  datatype Snapshot = Snapshot(
    gesture: GestureState, view: ViewState, boxes: seq<Box>, selected: int,
    rows: seq<Row>, selectedRow: Option<int>, currentRow: int,
    cursor: Cursor, warnings: seq<Warning>, dbUpdates: seq<Box>)

  /** `update_table` ran on the table of `s` and left that of `t`: one row
      per box of `t`, with the selection synced to `t`'s. */
  predicate TableRebuilt(s: Snapshot, t: Snapshot, d: Dims)
  {
    ShowsBoxes(t.rows, s.rows, t.boxes, d) &&
    ShowsSelection(t.selectedRow, t.currentRow, s.currentRow, t.selected, |t.boxes|)
  }

  /** The table's rows and selection are as they were. */
  predicate TableKept(s: Snapshot, t: Snapshot)
  {
    t.rows == s.rows && t.selectedRow == s.selectedRow && t.currentRow == s.currentRow
  }

  class Annotator {
    const store: BoxManager
    const table: TableWidget
    /** Shape of the image read from disk, if the last read succeeded. */
    var image: Option<Dims>
    /** Whether the original pixmap loaded. */
    var hasPixmap: bool
    /** Shape of the image being displayed, once an image opened completely. */
    var display: Option<Dims>

    var drawing: bool
    var startPoint: Option<Point>
    var endPoint: Option<Point>

    var resizing: bool
    var resizeIndex: Option<nat>
    var resizeEdge: Option<Edge>

    var dragging: bool
    var dragStart: Option<Point>
    var dragIndex: Option<int>

    /** Width and height of the image label inside the window. */
    var labelW: int
    var labelH: int

    /** Label pixels per image pixel, and the top-left of the image inside the label. */
    var scaleRatio: real
    var offsetX: int
    var offsetY: int

    /** The cursor shape set on the image label. */
    var cursor: Cursor
    /** Warning pop-ups shown so far. */
    ghost var warnings: seq<Warning>
    /** Boxes written back to the database so far. */
    ghost var dbUpdates: seq<Box>

    function Gesture(): GestureState
      reads `drawing, `startPoint, `endPoint, `resizing, `resizeIndex, `resizeEdge,
            `dragging, `dragStart, `dragIndex
    {
      GestureState(drawing, startPoint, endPoint, resizing, resizeIndex, resizeEdge,
                   dragging, dragStart, dragIndex)
    }

    function View(): ViewState
      reads this
    {
      ViewState(image, hasPixmap, display, labelW, labelH, scaleRatio, offsetX, offsetY)
    }

    ghost function State(): Snapshot
      reads this, store, table
    {
      Snapshot(Gesture(), View(), store.boxes, store.selected,
               table.rows, table.selectedRow, table.currentRow,
               cursor, warnings, dbUpdates)
    }

    ghost predicate Valid()
      reads this, store
    {
      store.Valid() && scaleRatio > 0.0 &&
      (drawing ==> startPoint.Some?) &&
      (dragging ==> dragStart.Some? && dragIndex.Some?)
    }

    /** The state after construction: no image, no gesture, identity scale.
        The label has the size `labelWidth` x `labelHeight` the window's
        designed layout gives it. */
    constructor (labelWidth: nat, labelHeight: nat)
      ensures Valid() && fresh(store) && fresh(table)
      ensures store.boxes == [] && store.selected == -1 && table.rows == []
      ensures image.None? && !hasPixmap && display.None?
      ensures labelW == labelWidth && labelH == labelHeight
      ensures !drawing && startPoint.None? && endPoint.None?
      ensures !resizing && resizeIndex.None? && resizeEdge.None?
      ensures !dragging && dragStart.None? && dragIndex.None?
      ensures scaleRatio == 1.0 && offsetX == 0 && offsetY == 0
      ensures cursor == Arrow && warnings == [] && dbUpdates == []
    {
      store := new BoxManager();
      table := new TableWidget();
      image := None;
      hasPixmap := false;
      display := None;
      drawing := false;
      startPoint := None;
      endPoint := None;
      resizing := false;
      resizeIndex := None;
      resizeEdge := None;
      dragging := false;
      dragStart := None;
      dragIndex := None;
      labelW := labelWidth;
      labelH := labelHeight;
      scaleRatio := 1.0;
      offsetX := 0;
      offsetY := 0;
      cursor := Arrow;
      warnings := [];
      dbUpdates := [];
    }

    /** `open_image`. `chosen` is whether the file dialog returned a path,
        `read` the shape OpenCV read (None when it could not), `pixmapOk`
        whether the pixmap loaded, `windowW` x `windowH` the main window's
        size. The boxes are cleared and the selection reset only when both
        loads succeed; a failed load warns first. A complete load lays the
        label out for the image and fits the image into it. */
    method OpenImage(chosen: bool, read: Option<Dims>, pixmapOk: bool, windowW: nat, windowH: nat)
      requires Valid()
      modifies `image, `hasPixmap, `display, `labelW, `labelH, `scaleRatio, `offsetX, `offsetY,
               `warnings, store, table
      ensures Valid()
      ensures !chosen ==> image == old(image) && hasPixmap == old(hasPixmap) && warnings == old(warnings)
      ensures chosen ==> image == read
      ensures chosen && read.None? ==> hasPixmap == old(hasPixmap)
      ensures chosen && read.Some? ==> hasPixmap == pixmapOk
      ensures chosen && (read.None? || !pixmapOk) ==> warnings == old(warnings) + [ImageLoadFailed]
      // a cancelled or failed load leaves the display, the label, the
      // mapping, the store and the table as they were
      ensures !(chosen && read.Some? && pixmapOk) ==>
                display == old(display) && labelW == old(labelW) && labelH == old(labelH) &&
                scaleRatio == old(scaleRatio) && offsetX == old(offsetX) && offsetY == old(offsetY) &&
                unchanged(store, table)
      // a complete load empties the store and the table, lays the label out
      // for the image and fits the image into it
      ensures chosen && read.Some? && pixmapOk ==>
                warnings == old(warnings) && display == read &&
                store.boxes == [] && store.selected == -1 &&
                table.rows == [] && table.selectedRow == None && table.currentRow == -1 &&
                (labelW, labelH) == LabelSize(read.value, windowW, windowH) &&
                scaleRatio == FitScale(read.value, labelW, labelH) &&
                offsetX == FitOffset(labelW, read.value.width, scaleRatio) &&
                offsetY == FitOffset(labelH, read.value.height, scaleRatio)
      // no gesture field is in the frame, so the gesture state is untouched
      ensures unchanged(`drawing, `startPoint, `endPoint, `resizing, `resizeIndex, `resizeEdge,
                        `dragging, `dragStart, `dragIndex)
      ensures cursor == old(cursor) && dbUpdates == old(dbUpdates)
    {
      if chosen {
        image := read;
        if read.None? {
          warnings := warnings + [ImageLoadFailed];
        } else {
          hasPixmap := pixmapOk;
          if !pixmapOk {
            warnings := warnings + [ImageLoadFailed];
          } else {
            ShowImage(read.value, windowW, windowH);
          }
        }
      }
    }

    /** The end of a complete `open_image`: the image of shape `d` is
        displayed, the boxes and the selection are cleared, the label is laid
        out for the image, the image is fitted into it and the table emptied. */
    method ShowImage(d: Dims, windowW: nat, windowH: nat)
      requires Valid() && image == Some(d) && hasPixmap
      modifies `display, `labelW, `labelH, `scaleRatio, `offsetX, `offsetY, store, table
      ensures Valid()
      ensures display == Some(d) && store.boxes == [] && store.selected == -1
      ensures table.rows == [] && table.selectedRow == None && table.currentRow == -1
      ensures (labelW, labelH) == LabelSize(d, windowW, windowH)
      ensures scaleRatio == FitScale(d, labelW, labelH) &&
              offsetX == FitOffset(labelW, d.width, scaleRatio) &&
              offsetY == FitOffset(labelH, d.height, scaleRatio)
    {
      display := Some(d);
      store.boxes := [];
      store.selected := -1;
      AdjustLayout(d, windowW, windowH);
      UpdateDisplay();
      UpdateTable(store, table, image);
    }

    /** `_adjust_ui_layout`: the label is resized for an image of shape `d`
        in a window of `windowW` x `windowH`. */
    method AdjustLayout(d: Dims, windowW: nat, windowH: nat)
      modifies `labelW, `labelH
      ensures (labelW, labelH) == LabelSize(d, windowW, windowH)
    {
      var size := LabelSize(d, windowW, windowH);
      labelW, labelH := size.0, size.1;
    }

    /** `update_display`: the image is scaled by the largest ratio that fits
        it in the label and centred. Nothing changes without a displayed
        image or with an empty label. The result depends only on the
        displayed shape and the label's size, so calling it again, as every
        redraw does, changes nothing. */
    method UpdateDisplay()
      requires Valid()
      modifies `scaleRatio, `offsetX, `offsetY
      ensures Valid()
      ensures display.None? || !hasPixmap || labelW <= 0 || labelH <= 0 ==>
                scaleRatio == old(scaleRatio) && offsetX == old(offsetX) && offsetY == old(offsetY)
      ensures display.Some? && hasPixmap && labelW > 0 && labelH > 0 ==>
                var d := display.value;
                scaleRatio == FitScale(d, labelW, labelH) &&
                offsetX == FitOffset(labelW, d.width, scaleRatio) &&
                offsetY == FitOffset(labelH, d.height, scaleRatio) &&
                // the scaled image fits inside the label, touching it on one axis
                0 <= offsetX && 0 <= offsetY &&
                (offsetX == 0 || offsetY == 0)
    {
      if display.None? || !hasPixmap {
        return;
      }
      if labelW > 0 && labelH > 0 {
        var d := display.value;
        scaleRatio := FitScale(d, labelW, labelH);
        offsetX := FitOffset(labelW, d.width, scaleRatio);
        offsetY := FitOffset(labelH, d.height, scaleRatio);
        FitCentres(d, labelW, labelH);
      }
    }

    /** `delete_box`: the table is rebuilt and the cursor reset only when
        the store deleted something. */
    method DeleteBox(index: int)
      requires Valid()
      modifies this, store, table
      ensures Valid()
      ensures 0 <= index < |old(store.boxes)| ==>
                store.boxes == Removed(old(store.boxes), index) &&
                store.selected == Retarget(old(store.selected), index) &&
                cursor == Arrow
      // the table is rebuilt for the remaining boxes
      ensures 0 <= index < |old(store.boxes)| && image.Some? ==>
                ShowsBoxes(table.rows, old(table.rows), store.boxes, image.value) &&
                ShowsSelection(table.selectedRow, table.currentRow, old(table.currentRow), store.selected, |store.boxes|)
      ensures image.None? ==>
                table.rows == old(table.rows) && table.selectedRow == old(table.selectedRow) &&
                table.currentRow == old(table.currentRow)
      ensures !(0 <= index < |old(store.boxes)|) ==>
                store.boxes == old(store.boxes) && store.selected == old(store.selected) &&
                cursor == old(cursor) && table.rows == old(table.rows) &&
                table.selectedRow == old(table.selectedRow) && table.currentRow == old(table.currentRow)
      ensures View() == old(View()) && warnings == old(warnings)
      ensures Gesture() == old(Gesture())
      ensures dbUpdates == old(dbUpdates)
    {
      var ok := store.DeleteBox(index);
      if ok {
        UpdateTable(store, table, image);
        cursor := Arrow;
      }
    }

    /** `resize_box`: the store resizes the box under resize against the
        image's `(height, width)`; the table is rebuilt only on success. */
    method ResizeBox(pos: Point)
      requires Valid() && image.Some?
      modifies this, store, table
      ensures Valid() && store.selected == old(store.selected)
      ensures image == old(image) && resizeIndex == old(resizeIndex) && resizeEdge == old(resizeEdge)
      ensures resizeIndex.Some? && resizeIndex.value < |old(store.boxes)| ==>
                var i := resizeIndex.value;
                store.boxes == old(store.boxes)[i := old(store.boxes)[i].(coords :=
                  ResizedCoords(old(store.boxes)[i].coords, resizeEdge, pos, image.value.width, image.value.height))]
      ensures resizeIndex.Some? && resizeIndex.value < |old(store.boxes)| ==>
                ShowsBoxes(table.rows, old(table.rows), store.boxes, image.value) &&
                ShowsSelection(table.selectedRow, table.currentRow, old(table.currentRow), store.selected, |store.boxes|)
      ensures !(resizeIndex.Some? && resizeIndex.value < |old(store.boxes)|) ==>
                store.boxes == old(store.boxes) && table.rows == old(table.rows) &&
                table.selectedRow == old(table.selectedRow) && table.currentRow == old(table.currentRow)
      ensures View() == old(View()) && warnings == old(warnings)
      ensures Gesture() == old(Gesture())
      ensures cursor == old(cursor) && dbUpdates == old(dbUpdates)
    {
      var ok := store.ResizeBox(pos, resizeIndex, resizeEdge, image.value.height, image.value.width);
      if ok {
        UpdateTable(store, table, image);
      }
    }
  }

  /** The image label's minimum size, set when the window is built; Qt
      never gives the label a smaller geometry. */
  const LabelMinWidth := 600
  const LabelMinHeight := 400

  /** The image label's size after `_adjust_ui_layout` for an image of shape
      `d` in a window of `windowW` x `windowH`: the image's height, but no
      more than the window's height less 100 for the controls, and the width
      that keeps the aspect ratio; when that width exceeds 70% of the window
      it is cut to that and the height follows it. The geometry asked for is
      then raised to the label's minimum size on each axis. */
  function LabelSize(d: Dims, windowW: nat, windowH: nat): (r: (int, int))
    ensures LabelMinWidth <= r.0 && LabelMinHeight <= r.1
  {
    var h := Min(d.height, windowH - 100);
    var w := AspectWidth(d, h);
    if w as real > 0.7 * windowW as real then
      var cut := Trunc(0.7 * windowW as real);
      (Max(LabelMinWidth, cut), Max(LabelMinHeight, AspectHeight(d, cut)))
    else
      (Max(LabelMinWidth, w), Max(LabelMinHeight, h))
  }

  /** `int(h * aspect)`: the width that keeps the image's aspect ratio at height `h`. */
  function AspectWidth(d: Dims, h: int): int
  {
    Trunc(h as real * (d.width as real / d.height as real))
  }

  /** `int(w / aspect)`: the height that keeps the image's aspect ratio at width `w`. */
  function AspectHeight(d: Dims, w: int): int
  {
    Trunc(w as real / (d.width as real / d.height as real))
  }

  /** At the image's own height the aspect-keeping width is the image's width. */
  lemma AspectWidthOfHeight(d: Dims)
    ensures AspectWidth(d, d.height) == d.width
  {
    DivMulCancel(d.width as real, d.height as real);
    assert d.height as real * (d.width as real / d.height as real) == d.width as real;
    TruncOfInt(d.width);
  }

  /** A width no larger than some positive aspect-keeping width `AspectWidth(d, h)`
      gives a height of at most `h`. */
  lemma AspectHeightBelow(d: Dims, h: int, cut: nat)
    requires cut < AspectWidth(d, h)
    ensures 0 <= AspectHeight(d, cut) <= h
  {
    var aspect := d.width as real / d.height as real;
    FractionPositive(d.width as real, d.height as real);
    assert cut as real < h as real * aspect;
    QuotientBelow(cut as real, h as real, aspect);
  }

  /** The label fits the window unless its minimum size holds it up: it
      is no wider than 70% of the window, and no taller than the image nor
      than the window's height less 100. */
  lemma LabelFitsWindow(d: Dims, windowW: nat, windowH: nat)
    ensures var r := LabelSize(d, windowW, windowH);
            (r.0 == LabelMinWidth || r.0 as real <= 0.7 * windowW as real) &&
            (r.1 == LabelMinHeight || (r.1 <= d.height && r.1 <= windowH - 100))
  {
    var h := Min(d.height, windowH - 100);
    if AspectWidth(d, h) as real > 0.7 * windowW as real {
      AspectHeightBelow(d, h, Trunc(0.7 * windowW as real));
    }
  }

  /** `a < h * b` with `b` positive gives `a / b < h`. */
  lemma QuotientBelow(a: real, h: real, b: real)
    requires 0.0 < b && a < h * b
    ensures a / b < h
  {
    DivMulCancel(a, b);
  }

  /** An image that fits the window at its own size gets a label of its
      size raised to the minimum, so it is never shrunk for display; one at
      least as large as the minimum is shown unscaled at offset 0. */
  lemma LabelOfSmallImage(d: Dims, windowW: nat, windowH: nat)
    requires d.height <= windowH - 100 && d.width as real <= 0.7 * windowW as real
    ensures LabelSize(d, windowW, windowH) == (Max(LabelMinWidth, d.width), Max(LabelMinHeight, d.height))
    ensures 1.0 <= FitScale(d, Max(LabelMinWidth, d.width), Max(LabelMinHeight, d.height))
    ensures LabelMinWidth <= d.width && LabelMinHeight <= d.height ==>
              FitScale(d, d.width, d.height) == 1.0 &&
              FitOffset(d.width, d.width, 1.0) == 0 && FitOffset(d.height, d.height, 1.0) == 0
  {
    AspectWidthOfHeight(d);
    TruncOfInt(d.width);
    TruncOfInt(d.height);
    FractionAtLeastOne(Max(LabelMinWidth, d.width) as real, d.width as real);
    FractionAtLeastOne(Max(LabelMinHeight, d.height) as real, d.height as real);
  }

  /** The display scale: the smaller of the two label/image ratios. */
  function FitScale(d: Dims, labelW: Pos, labelH: Pos): real
  {
    RMin(labelW as real / d.width as real, labelH as real / d.height as real)
  }

  /** The offset that centres a side of `side` image pixels scaled by `s`
      (and truncated) in `room` label pixels; `//` with divisor 2 floors. */
  function FitOffset(room: int, side: Pos, s: real): int
  {
    (room - Trunc(side as real * s)) / 2
  }

  /** The scaled image fits in the label on both axes and fills it on one. */
  lemma FitCentres(d: Dims, labelW: Pos, labelH: Pos)
    ensures FitScale(d, labelW, labelH) > 0.0
    ensures 0 <= FitOffset(labelW, d.width, FitScale(d, labelW, labelH))
    ensures 0 <= FitOffset(labelH, d.height, FitScale(d, labelW, labelH))
    ensures FitOffset(labelW, d.width, FitScale(d, labelW, labelH)) == 0 ||
            FitOffset(labelH, d.height, FitScale(d, labelW, labelH)) == 0
  {
    var s := FitScale(d, labelW, labelH);
    FractionPositive(labelW as real, d.width as real);
    FractionPositive(labelH as real, d.height as real);
    SideFits(d.width, labelW, s);
    SideFits(d.height, labelH, s);
    if s == labelW as real / d.width as real {
      SideFilled(d.width, labelW);
    } else {
      SideFilled(d.height, labelH);
    }
  }

  /** A side scaled by at most `room / side` fits in `room`. */
  lemma SideFits(side: Pos, room: Pos, s: real)
    requires 0.0 < s <= room as real / side as real
    ensures 0 <= FitOffset(room, side, s)
  {
    DivMulCancel(room as real, side as real);
    assert side as real * s <= side as real * (room as real / side as real);
    TruncMonotone(side as real * s, room as real);
    TruncOfInt(room);
  }

  /** A side scaled by exactly `room / side` fills `room`. */
  lemma SideFilled(side: Pos, room: Pos)
    ensures FitOffset(room, side, room as real / side as real) == 0
  {
    DivMulCancel(room as real, side as real);
    assert side as real * (room as real / side as real) == room as real;
    TruncOfInt(room);
  }
}

=== FILE: basics.dfy ===
/** Small shared vocabulary: optional values, positive sizes, image
    dimensions, warning pop-ups, and the integer helpers that stand for
    Python's `min`, `max`, `abs` and `int(float)`. */
module Basics {

  datatype Option<+T> = None | Some(value: T)

  /** A strictly positive integer, used for image and widget sizes. */
  type Pos = n: int | n > 0 witness 1

  /** The `(height, width)` shape of a loaded image. */
  datatype Dims = Dims(height: Pos, width: Pos)

  /** The messages the application shows in a modal warning pop-up. */
  datatype Warning =
    | BoxTooSmall          // "Bounding box is too small. ..."
    | ImageLoadFailed      // "Failed to load the selected image. ..."
    | InvalidCoordinates   // "Invalid input: Please enter valid numbers ..."

  function Min(a: int, b: int): int { if a <= b then a else b }

  function Max(a: int, b: int): int { if a >= b then a else b }

  function Abs(x: int): int { if x < 0 then -x else x }

  function RMin(a: real, b: real): real { if a <= b then a else b }

  function RMax(a: real, b: real): real { if a >= b then a else b }

  /** `max(lo, min(v, hi))`, the clamping idiom used throughout the source. */
  function Clamp(v: int, lo: int, hi: int): (r: int)
    ensures lo <= hi ==> lo <= r <= hi
    ensures lo <= v <= hi ==> r == v
    ensures v < lo ==> r == lo
    ensures lo <= hi < v ==> r == hi
  {
    Max(lo, Min(v, hi))
  }

  /** The same idiom on reals: `max(lo, min(hi, v))`. */
  function RClamp(v: real, lo: real, hi: real): (r: real)
    ensures lo <= hi ==> lo <= r <= hi
    ensures lo <= v <= hi ==> r == v
    ensures v < lo ==> r == lo
    ensures lo <= hi < v ==> r == hi
  {
    RMax(lo, RMin(hi, v))
  }

  /** Python's `int(x)` on a float: truncation toward zero. */
  function Trunc(x: real): (n: int)
    ensures 0.0 <= x ==> 0 <= n && n as real <= x < n as real + 1.0
    ensures x < 0.0 ==> n <= 0 && n as real - 1.0 < x <= n as real
  {
    if x >= 0.0 then x.Floor else -((-x).Floor)
  }

  /** Truncation is within one of its argument, whatever the sign. */
  lemma TruncClose(x: real)
    ensures x - 1.0 < Trunc(x) as real < x + 1.0
  {
  }

  lemma TruncOfInt(n: int)
    ensures Trunc(n as real) == n
  {
  }

  lemma TruncMonotone(a: real, b: real)
    requires a <= b
    ensures Trunc(a) <= Trunc(b)
  {
  }

  // Real-arithmetic facts the solver needs spelled out.

  lemma DivMulCancel(a: real, b: real)
    requires b != 0.0
    ensures a / b * b == a
  {
  }

  lemma ProductNonNegative(a: real, b: real)
    requires 0.0 <= a && 0.0 <= b
    ensures 0.0 <= a * b
  {
  }

  lemma FractionInUnit(a: real, b: real)
    requires 0.0 <= a <= b && 0.0 < b
    ensures 0.0 <= a / b <= 1.0
  {
    DivMulCancel(a, b);
  }

  lemma FractionPositive(a: real, b: real)
    requires 0.0 < a && 0.0 < b
    ensures 0.0 < a / b
  {
    DivMulCancel(a, b);
  }

  lemma FractionAtLeastOne(a: real, b: real)
    requires 0.0 < b <= a
    ensures 1.0 <= a / b
  {
    DivMulCancel(a, b);
  }
  /** Python's `str.lower()` on one character, for the ASCII letters the
      application's names and extensions use. */
  function LowerChar(c: char): (r: char)
    ensures 'A' <= c <= 'Z' ==> r as int == c as int + 32
    ensures !('A' <= c <= 'Z') ==> r == c
    ensures !('A' <= r <= 'Z')
  {
    if 'A' <= c <= 'Z' then (c as int + 32) as char else c
  }

  /** `str.lower()`: the same length, no upper-case letter left, and every
      other character kept. */
  function Lower(s: string): (r: string)
    ensures |r| == |s|
    ensures forall i :: 0 <= i < |s| ==> r[i] == LowerChar(s[i])
    ensures forall i :: 0 <= i < |r| ==> !('A' <= r[i] <= 'Z')
  {
    seq(|s|, i requires 0 <= i < |s| => LowerChar(s[i]))
  }

  /** Lower-casing twice is lower-casing once. */
  lemma LowerIdempotent(s: string)
    ensures Lower(Lower(s)) == Lower(s)
  {
    assert forall i :: 0 <= i < |s| ==> LowerChar(LowerChar(s[i])) == LowerChar(s[i]);
  }
}

=== FILE: bounding_box_manager.dfy ===
/** The box store of the annotation tool: an ordered list of
    `(coordinates, id, label)` boxes in image-pixel space plus the index of
    the selected box (-1 for none), and the pixel <-> normalized
    conversion used by the table and by box creation. */
module BoundingBoxManager {
  import opened Basics

  /** `(x1, y1, x2, y2)` in source-image pixels. */
  datatype Coords = Coords(x1: int, y1: int, x2: int, y2: int)

  /** One stored box; the id is the generated identifier, the label the class name. */
  datatype Box = Box(coords: Coords, id: string, classLabel: string)

  /** A mouse position already mapped to image pixels. */
  datatype Point = Point(x: int, y: int)

  /** The eight resize handles: four sides and four corners. */
  datatype Edge = Left | Right | Top | Bottom | TopLeft | TopRight | BottomLeft | BottomRight

  /** `(x_center, y_center, width, height)`, each a fraction of the image size. */
  datatype Norm = Norm(xCenter: real, yCenter: real, width: real, height: real)

  /** Open-interval containment on both axes, as the interior hit test uses it. */
  predicate Contains(c: Coords, p: Point)
  {
    c.x1 < p.x < c.x2 && c.y1 < p.y < c.y2
  }

  /** A box lying on pixels of a `w` x `h` image with positive extent on both axes. */
  predicate InImage(c: Coords, w: int, h: int)
  {
    0 <= c.x1 < c.x2 <= w - 1 && 0 <= c.y1 < c.y2 <= h - 1
  }

  // Which coordinates each handle controls: the reference table that the
  // resize operation is checked against.
  predicate ControlsX1(e: Edge) { e == Left || e == TopLeft || e == BottomLeft }
  predicate ControlsX2(e: Edge) { e == Right || e == TopRight || e == BottomRight }
  predicate ControlsY1(e: Edge) { e == Top || e == TopLeft || e == TopRight }
  predicate ControlsY2(e: Edge) { e == Bottom || e == BottomLeft || e == BottomRight }

  /** The edge-tag dispatch of `resize_box`, before clamping: each tag
      overwrites exactly the coordinates it controls with the mouse's;
      no tag (or an unknown one) overwrites nothing. */
  function MoveEdges(c: Coords, edge: Option<Edge>, p: Point): (r: Coords)
    ensures r.x1 == if edge.Some? && ControlsX1(edge.value) then p.x else c.x1
    ensures r.x2 == if edge.Some? && ControlsX2(edge.value) then p.x else c.x2
    ensures r.y1 == if edge.Some? && ControlsY1(edge.value) then p.y else c.y1
    ensures r.y2 == if edge.Some? && ControlsY2(edge.value) then p.y else c.y2
  {
    if edge == Some(Left) then c.(x1 := p.x)
    else if edge == Some(Right) then c.(x2 := p.x)
    else if edge == Some(Top) then c.(y1 := p.y)
    else if edge == Some(Bottom) then c.(y2 := p.y)
    else if edge == Some(TopLeft) then c.(x1 := p.x, y1 := p.y)
    else if edge == Some(TopRight) then c.(x2 := p.x, y1 := p.y)
    else if edge == Some(BottomLeft) then c.(x1 := p.x, y2 := p.y)
    else if edge == Some(BottomRight) then c.(x2 := p.x, y2 := p.y)
    else c
  }

  /** One axis of `resize_box` after the dispatch: clamp both ends into
      `[0, n - 1]`, sort them, and give a collapsed pair a one-pixel extent,
      pushed inward when it sits on the far border. */
  function FitAxis(a: int, b: int, n: int): (r: (int, int))
    // with at least two pixels the pair is inside the image and properly ordered
    ensures n >= 2 ==> 0 <= r.0 < r.1 <= n - 1
    // an end dragged past the other one swaps the pair
    ensures Clamp(a, 0, n - 1) != Clamp(b, 0, n - 1) ==>
              r == (Min(Clamp(a, 0, n - 1), Clamp(b, 0, n - 1)), Max(Clamp(a, 0, n - 1), Clamp(b, 0, n - 1)))
    // a collapsed pair becomes one pixel wide and keeps one of its ends
    ensures n >= 1 && Clamp(a, 0, n - 1) == Clamp(b, 0, n - 1) ==>
              r.1 == r.0 + 1 && (r.0 == Clamp(a, 0, n - 1) || r.1 == Clamp(a, 0, n - 1))
    // a pair that is already inside and ordered is left alone
    ensures 0 <= a < b <= n - 1 ==> r == (a, b)
  {
    var lo0 := Clamp(a, 0, n - 1);
    var hi0 := Clamp(b, 0, n - 1);
    var lo := Min(lo0, hi0);
    var hi := Max(lo0, hi0);
    if Abs(hi - lo) < 1 then
      if lo + 1 >= n then (n - 2, n - 1) else (lo, lo + 1)
    else
      (lo, hi)
  }

  /** The box `resize_box` stores: dispatch, then clamp, sort and
      minimum size on each axis of an image `w` pixels wide and `h` high. */
  function ResizedCoords(c: Coords, edge: Option<Edge>, p: Point, w: int, h: int): (r: Coords)
    ensures w >= 2 && h >= 2 ==> InImage(r, w, h)
    // a side handle leaves the other axis of an in-image box alone
    ensures InImage(c, w, h) && (edge == Some(Left) || edge == Some(Right)) ==>
              r.y1 == c.y1 && r.y2 == c.y2
    ensures InImage(c, w, h) && (edge == Some(Top) || edge == Some(Bottom)) ==>
              r.x1 == c.x1 && r.x2 == c.x2
    // dragging the left side past the right one swaps them instead of giving a negative width
    ensures InImage(c, w, h) && edge == Some(Left) && c.x2 < Clamp(p.x, 0, w - 1) ==>
              r.x1 == c.x2 && r.x2 == Clamp(p.x, 0, w - 1)
    ensures InImage(c, w, h) && edge == Some(Right) && Clamp(p.x, 0, w - 1) < c.x1 ==>
              r.x1 == Clamp(p.x, 0, w - 1) && r.x2 == c.x1
  {
    var m := MoveEdges(c, edge, p);
    var xs := FitAxis(m.x1, m.x2, w);
    var ys := FitAxis(m.y1, m.y2, h);
    Coords(xs.0, ys.0, xs.1, ys.1)
  }

  /** `s` without its element at `i`, the rest kept in order. */
  function Removed(s: seq<Box>, i: int): (r: seq<Box>)
    requires 0 <= i < |s|
    ensures |r| == |s| - 1
    ensures forall k :: 0 <= k < i ==> r[k] == s[k]
    ensures forall k :: i <= k < |r| ==> r[k] == s[k + 1]
  {
    s[..i] + s[i + 1..]
  }

  /** The selection after deleting index `i`: the three-way rule of `delete_box`. */
  function Retarget(sel: int, i: int): int
  {
    if sel == i then -1 else if sel > i then sel - 1 else sel
  }

  /** After a delete the selection still designates the same box, or none
      if that box was the one deleted. */
  lemma RetargetFollowsBox(s: seq<Box>, sel: int, i: int)
    requires 0 <= i < |s| && -1 <= sel < |s|
    ensures -1 <= Retarget(sel, i) < |s| - 1
    ensures Retarget(sel, i) == -1 <==> sel == -1 || sel == i
    ensures sel != -1 && sel != i ==> Removed(s, i)[Retarget(sel, i)] == s[sel]
  {
  }

  /** The index `get_box_containing` returns: the last box whose interior
      holds `p`, or -1. */
  function TopmostContaining(s: seq<Box>, p: Point): (r: int)
    ensures -1 <= r < |s|
    ensures r != -1 ==> Contains(s[r].coords, p)
    ensures forall j :: r < j < |s| ==> !Contains(s[j].coords, p)
    decreases |s|
  {
    if |s| == 0 then -1
    else if Contains(s[|s| - 1].coords, p) then |s| - 1
    else TopmostContaining(s[..|s| - 1], p)
  }

  // Conversions between pixel boxes and normalized boxes, one axis at a time.

  function AxisCenter(lo: int, hi: int, n: Pos): real
  {
    (lo + hi) as real / (2 * n) as real
  }

  function AxisSize(lo: int, hi: int, n: Pos): real
  {
    (hi - lo) as real / n as real
  }

  function AxisLo(center: real, size: real, n: int): int
  {
    Trunc((center - size / 2.0) * n as real)
  }

  function AxisHi(center: real, size: real, n: int): int
  {
    Trunc((center + size / 2.0) * n as real)
  }

  /** `convert_to_normalized_center`: a box inside the image has its centre
      in `[0, 1]` and a size in `(0, 1]` on both axes. */
  function ToNormalized(c: Coords, w: Pos, h: Pos): (r: Norm)
    ensures InImage(c, w, h) ==>
              0.0 <= r.xCenter <= 1.0 && 0.0 <= r.yCenter <= 1.0 &&
              0.0 < r.width <= 1.0 && 0.0 < r.height <= 1.0
  {
    AxisInUnit(c.x1, c.x2, w);
    AxisInUnit(c.y1, c.y2, h);
    Norm(AxisCenter(c.x1, c.x2, w), AxisCenter(c.y1, c.y2, h),
         AxisSize(c.x1, c.x2, w), AxisSize(c.y1, c.y2, h))
  }

  /** `convert_from_normalized_center`: a non-negative size never yields a
      reversed pair. */
  function FromNormalized(n: Norm, w: int, h: int): (r: Coords)
    ensures n.width >= 0.0 && w >= 0 ==> r.x1 <= r.x2
    ensures n.height >= 0.0 && h >= 0 ==> r.y1 <= r.y2
  {
    AxisOrdered(n.xCenter, n.width, w);
    AxisOrdered(n.yCenter, n.height, h);
    Coords(AxisLo(n.xCenter, n.width, w), AxisLo(n.yCenter, n.height, h),
           AxisHi(n.xCenter, n.width, w), AxisHi(n.yCenter, n.height, h))
  }

  lemma AxisInUnit(lo: int, hi: int, n: Pos)
    ensures 0 <= lo < hi <= n - 1 ==>
              0.0 <= AxisCenter(lo, hi, n) <= 1.0 && 0.0 < AxisSize(lo, hi, n) <= 1.0
  {
    if 0 <= lo < hi <= n - 1 {
      FractionInUnit((lo + hi) as real, (2 * n) as real);
      FractionInUnit((hi - lo) as real, n as real);
      FractionPositive((hi - lo) as real, n as real);
    }
  }

  lemma AxisOrdered(center: real, size: real, n: int)
    ensures size >= 0.0 && n >= 0 ==> AxisLo(center, size, n) <= AxisHi(center, size, n)
  {
    if size >= 0.0 && n >= 0 {
      var a := (center - size / 2.0) * n as real;
      var b := (center + size / 2.0) * n as real;
      assert b - a == size * n as real;
      ProductNonNegative(size, n as real);
      TruncMonotone(a, b);
    }
  }

  lemma AxisRoundTrip(lo: int, hi: int, n: Pos)
    ensures AxisLo(AxisCenter(lo, hi, n), AxisSize(lo, hi, n), n) == lo
    ensures AxisHi(AxisCenter(lo, hi, n), AxisSize(lo, hi, n), n) == hi
  {
    var N := n as real;
    var c := AxisCenter(lo, hi, n);
    var s := AxisSize(lo, hi, n);
    AxisScaled(lo, hi, n);
    HalfSpread(c, s, N);
    assert (c - s / 2.0) * N == lo as real;
    assert (c + s / 2.0) * N == hi as real;
    TruncOfInt(lo);
    TruncOfInt(hi);
  }

  /** Scaled back by the side, the centre is the pixels' midpoint and the
      size their distance. */
  lemma AxisScaled(lo: int, hi: int, n: Pos)
    ensures AxisCenter(lo, hi, n) * n as real == (lo + hi) as real / 2.0
    ensures AxisSize(lo, hi, n) * n as real == (hi - lo) as real
  {
    var N := n as real;
    var c := AxisCenter(lo, hi, n);
    DivMulCancel((lo + hi) as real, 2.0 * N);
    assert c * (2.0 * N) == (lo + hi) as real;
    assert c * (2.0 * N) == 2.0 * (c * N);
    DivMulCancel((hi - lo) as real, N);
  }

  lemma HalfSpread(c: real, s: real, N: real)
    ensures (c - s / 2.0) * N == c * N - (s * N) / 2.0
    ensures (c + s / 2.0) * N == c * N + (s * N) / 2.0
  {
  }

  /** In exact arithmetic, converting a pixel box to normalized form and
      back gives the same box. */
  lemma {:induction false} NormalizedRoundTrip(c: Coords, w: Pos, h: Pos)
    ensures FromNormalized(ToNormalized(c, w, h), w, h) == c
  {
    AxisRoundTrip(c.x1, c.x2, w);
    AxisRoundTrip(c.y1, c.y2, h);
  }

  class BoxManager {
    var boxes: seq<Box>
    /** Index of the selected box, -1 when none is selected. */
    var selected: int

    ghost predicate Valid()
      reads this
    {
      -1 <= selected < |boxes|
    }

    constructor ()
      ensures Valid() && boxes == [] && selected == -1
    {
      boxes := [];
      selected := -1;
    }

    /** `delete_box`: an out-of-range index changes nothing; otherwise the
        box is removed and the selection re-targeted. */
    method DeleteBox(index: int) returns (ok: bool)
      requires Valid()
      modifies this
      ensures Valid()
      ensures ok <==> 0 <= index < |old(boxes)|
      ensures !ok ==> boxes == old(boxes) && selected == old(selected)
      ensures ok ==> boxes == Removed(old(boxes), index)
      ensures ok ==> selected == Retarget(old(selected), index)
    {
      if !(0 <= index < |boxes|) {
        return false;
      }
      if selected == index {
        selected := -1;
      } else if selected > index {
        selected := selected - 1;
      }
      boxes := boxes[..index] + boxes[index + 1..];
      return true;
    }

    /** `get_box_containing`: scans from the last box down. */
    method GetBoxContaining(p: Point) returns (r: int)
      ensures -1 <= r < |boxes|
      ensures r != -1 ==> Contains(boxes[r].coords, p)
      ensures forall j :: r < j < |boxes| ==> !Contains(boxes[j].coords, p)
      ensures r == TopmostContaining(boxes, p)
    {
      var i := |boxes|;
      assert boxes[..i] == boxes;
      while i > 0
        invariant 0 <= i <= |boxes|
        invariant forall j :: i <= j < |boxes| ==> !Contains(boxes[j].coords, p)
        invariant TopmostContaining(boxes, p) == TopmostContaining(boxes[..i], p)
      {
        i := i - 1;
        assert boxes[..i + 1][..i] == boxes[..i];
        if Contains(boxes[i].coords, p) {
          return i;
        }
      }
      return -1;
    }

    /** `resize_box`, with the image given as `(height, width)`. Without a
        resize index nothing happens; an index past the end makes the source
        raise before any assignment, which here also changes nothing. */
    method ResizeBox(p: Point, index: Option<nat>, edge: Option<Edge>, imgH: int, imgW: int)
      returns (ok: bool)
      requires Valid()
      modifies this
      ensures Valid() && selected == old(selected)
      ensures ok <==> index.Some? && index.value < |old(boxes)|
      ensures !ok ==> boxes == old(boxes)
      ensures ok ==> |boxes| == |old(boxes)|
      ensures ok ==> boxes == old(boxes)[index.value := Box(
                ResizedCoords(old(boxes)[index.value].coords, edge, p, imgW, imgH),
                old(boxes)[index.value].id, old(boxes)[index.value].classLabel)]
    {
      if index.None? {
        return false;
      }
      var i := index.value;
      if i >= |boxes| {
        return false;
      }
      var b := boxes[i];
      var m := Dispatch(b.coords, edge, p);
      var x1, x2 := FitPair(m.x1, m.x2, imgW);
      var y1, y2 := FitPair(m.y1, m.y2, imgH);
      boxes := boxes[i := Box(Coords(x1, y1, x2, y2), b.id, b.classLabel)];
      return true;
    }
  }

  /** The edge-tag dispatch of `resize_box`. */
  method Dispatch(c: Coords, edge: Option<Edge>, p: Point) returns (m: Coords)
    ensures m == MoveEdges(c, edge, p)
  {
    var x1, y1, x2, y2 := c.x1, c.y1, c.x2, c.y2;
    if edge == Some(Left) {
      x1 := p.x;
    } else if edge == Some(Right) {
      x2 := p.x;
    } else if edge == Some(Top) {
      y1 := p.y;
    } else if edge == Some(Bottom) {
      y2 := p.y;
    } else if edge == Some(TopLeft) {
      x1, y1 := p.x, p.y;
    } else if edge == Some(TopRight) {
      x2, y1 := p.x, p.y;
    } else if edge == Some(BottomLeft) {
      x1, y2 := p.x, p.y;
    } else if edge == Some(BottomRight) {
      x2, y2 := p.x, p.y;
    }
    m := Coords(x1, y1, x2, y2);
  }

  /** One axis of `resize_box` after the dispatch, on an image `n` pixels
      long: keep both ends inside, sort them, and give the pair at least
      one pixel. */
  method FitPair(a: int, b: int, n: int) returns (lo: int, hi: int)
    ensures (lo, hi) == FitAxis(a, b, n)
  {
    lo := Max(0, Min(a, n - 1));
    hi := Max(0, Min(b, n - 1));
    if lo > hi {
      lo, hi := hi, lo;
    }
    if Abs(hi - lo) < 1 {
      hi := lo + 1;
      if hi >= n {
        lo, hi := n - 2, n - 1;
      }
    }
  }
}

=== FILE: box_operations.dfy ===
/** The start / move / finish steps of the three mouse gestures: drawing a
    new box, resizing a box by a handle, and dragging a box. Each step
    updates the annotator's gesture fields and the box store. */
module BoxOperations {
  import opened Basics
  import opened BoundingBoxManager
  import opened TableManager
  import opened LabelAnnotator
  import opened FreshIds

  /** The box spanned by two corner points, each axis sorted. */
  function Spanned(p: Point, q: Point): (c: Coords)
    ensures c.x1 <= c.x2 && c.y1 <= c.y2
    ensures (c.x1, c.x2) == (p.x, q.x) || (c.x1, c.x2) == (q.x, p.x)
    ensures (c.y1, c.y2) == (p.y, q.y) || (c.y1, c.y2) == (q.y, p.y)
  {
    Coords(Min(p.x, q.x), Min(p.y, q.y), Max(p.x, q.x), Max(p.y, q.y))
  }

  /** A drawn box narrower or lower than two pixels is refused. */
  predicate TooSmall(c: Coords)
  {
    Abs(c.x2 - c.x1) < 2 || Abs(c.y2 - c.y1) < 2
  }

  /** The label every drawn box starts with. */
  const DrawnLabel := "Anomaly"

  /** `start_drawing`: remember the start point, enter drawing, drop the selection. */
  method StartDrawing(a: Annotator, pos: Point)
    requires a.Valid()
    modifies a, a.store
    ensures a.Valid()
    ensures a.Gesture() == old(a.Gesture()).(drawing := true, startPoint := Some(pos))
    ensures a.store.boxes == old(a.store.boxes) && a.store.selected == -1
    ensures a.View() == old(a.View()) && a.cursor == old(a.cursor)
    ensures a.warnings == old(a.warnings) && a.dbUpdates == old(a.dbUpdates)
  {
    a.startPoint := Some(pos);
    a.drawing := true;
    a.store.selected := -1;
  }

  /** `handle_drawing_move`: the end point follows the mouse. */
  method HandleDrawingMove(a: Annotator, pos: Point)
    requires a.Valid()
    modifies a
    ensures a.Valid()
    ensures a.Gesture() == old(a.Gesture()).(endPoint := Some(pos))
    ensures a.View() == old(a.View()) && a.cursor == old(a.cursor)
    ensures a.warnings == old(a.warnings) && a.dbUpdates == old(a.dbUpdates)
  {
    a.endPoint := Some(pos);
  }

  /** `finish_drawing`: a large enough rectangle becomes a new box with a
      fresh id and the label "Anomaly" and is selected; a small one only
      warns. The drawing gesture ends either way. */
  method FinishDrawing(a: Annotator, pos: Point, ids: IdOracle)
    requires a.Valid() && a.image.Some? && ids.Valid()
    // only the drawing gesture, the warnings, the store, the table and the
    // id generator change
    modifies a`drawing, a`startPoint, a`endPoint, a`warnings, a.store, a.table, ids
    ensures a.Valid() && ids.Valid()
    ensures !a.drawing && a.startPoint.None? && a.endPoint.None?
    ensures old(a.startPoint).None? ==>
              a.store.boxes == old(a.store.boxes) && a.store.selected == old(a.store.selected) &&
              a.warnings == old(a.warnings)
    ensures old(a.startPoint).Some? && TooSmall(Spanned(old(a.startPoint).value, pos)) ==>
              a.store.boxes == old(a.store.boxes) && a.store.selected == old(a.store.selected) &&
              a.warnings == old(a.warnings) + [BoxTooSmall]
    ensures old(a.startPoint).Some? && !TooSmall(Spanned(old(a.startPoint).value, pos)) ==>
              |a.store.boxes| == |old(a.store.boxes)| + 1 &&
              a.store.boxes[..|old(a.store.boxes)|] == old(a.store.boxes) &&
              // stored exactly as drawn, under a new id, and selected
              a.store.boxes[|old(a.store.boxes)|].coords == Spanned(old(a.startPoint).value, pos) &&
              a.store.boxes[|old(a.store.boxes)|].id !in old(ids.issued) &&
              a.store.boxes[|old(a.store.boxes)|].classLabel == DrawnLabel &&
              a.store.selected == |old(a.store.boxes)| &&
              a.warnings == old(a.warnings)
    // a stored box rebuilds the table; otherwise the table is untouched
    ensures old(a.startPoint).Some? && !TooSmall(Spanned(old(a.startPoint).value, pos)) ==>
              ShowsBoxes(a.table.rows, old(a.table.rows), a.store.boxes, a.image.value) &&
              ShowsSelection(a.table.selectedRow, a.table.currentRow, old(a.table.currentRow), a.store.selected, |a.store.boxes|)
    ensures !(old(a.startPoint).Some? && !TooSmall(Spanned(old(a.startPoint).value, pos))) ==>
              a.table.rows == old(a.table.rows) && a.table.selectedRow == old(a.table.selectedRow) &&
              a.table.currentRow == old(a.table.currentRow)
  {
    a.endPoint := Some(pos);
    var start := a.startPoint;
    // the rectangle part reads none of the gesture fields, so the gesture
    // may end before it runs
    a.drawing := false;
    a.startPoint := None;
    a.endPoint := None;
    if start.Some? {
      FinishRectangle(a, Spanned(start.value, pos), ids);
    }
  }

  /** The rectangle part of `finish_drawing` for the drawn rectangle `c`: a
      small one only warns; otherwise it is normalized and converted back,
      stored under a fresh id with the label "Anomaly", selected, and the
      table refreshed. */
  method FinishRectangle(a: Annotator, c: Coords, ids: IdOracle)
    requires a.Valid() && a.image.Some? && ids.Valid()
    modifies a`warnings, a.store, a.table, ids
    ensures a.Valid() && ids.Valid()
    ensures TooSmall(c) ==>
              a.store.boxes == old(a.store.boxes) && a.store.selected == old(a.store.selected) &&
              a.warnings == old(a.warnings) + [BoxTooSmall]
    ensures !TooSmall(c) ==>
              |a.store.boxes| == |old(a.store.boxes)| + 1 &&
              a.store.boxes[..|old(a.store.boxes)|] == old(a.store.boxes) &&
              // the round trip through normalized form gives the drawn rectangle back
              a.store.boxes[|old(a.store.boxes)|].coords == c &&
              a.store.boxes[|old(a.store.boxes)|].id !in old(ids.issued) &&
              a.store.boxes[|old(a.store.boxes)|].classLabel == DrawnLabel &&
              a.store.selected == |old(a.store.boxes)| &&
              a.warnings == old(a.warnings)
    ensures TooSmall(c) ==>
              a.table.rows == old(a.table.rows) && a.table.selectedRow == old(a.table.selectedRow) &&
              a.table.currentRow == old(a.table.currentRow)
    ensures !TooSmall(c) ==>
              ShowsBoxes(a.table.rows, old(a.table.rows), a.store.boxes, a.image.value) &&
              ShowsSelection(a.table.selectedRow, a.table.currentRow, old(a.table.currentRow), a.store.selected, |a.store.boxes|)
  {
    if TooSmall(c) {
      a.warnings := a.warnings + [BoxTooSmall];
      return;
    }
    var w, h := a.image.value.width, a.image.value.height;
    // normalize, then convert back for storage
    var n := Norm((c.x1 + c.x2) as real / (2 * w) as real, (c.y1 + c.y2) as real / (2 * h) as real,
                  (c.x2 - c.x1) as real / w as real, (c.y2 - c.y1) as real / h as real);
    assert n == ToNormalized(c, w, h);
    NormalizedRoundTrip(c, w, h);
    var stored := FromNormalized(n, w, h);
    var id := ids.New();
    a.store.boxes := a.store.boxes + [Box(stored, id, DrawnLabel)];
    a.store.selected := |a.store.boxes| - 1;
    UpdateTable(a.store, a.table, a.image);
  }

  /** `start_resizing`: enter resizing on box `index` by handle `edge` and select it. */
  method StartResizing(a: Annotator, index: nat, edge: Edge)
    requires a.Valid() && index < |a.store.boxes|
    modifies a, a.store
    ensures a.Valid()
    ensures a.Gesture() == old(a.Gesture()).(resizing := true, resizeIndex := Some(index), resizeEdge := Some(edge))
    ensures a.store.boxes == old(a.store.boxes) && a.store.selected == index
    ensures a.View() == old(a.View()) && a.cursor == old(a.cursor)
    ensures a.warnings == old(a.warnings) && a.dbUpdates == old(a.dbUpdates)
  {
    a.resizing := true;
    a.resizeIndex := Some(index);
    a.resizeEdge := Some(edge);
    a.store.selected := index;
  }

  /** `handle_resizing_move`: resize the box under resize to the mouse. */
  method HandleResizingMove(a: Annotator, pos: Point)
    requires a.Valid() && a.image.Some?
    modifies a, a.store, a.table
    ensures a.Valid() && a.store.selected == old(a.store.selected)
    ensures a.Gesture() == old(a.Gesture()) && a.View() == old(a.View())
    ensures a.store.boxes ==
              AfterResize(old(a.store.boxes), a.resizeIndex, a.resizeEdge, pos, a.image.value.width, a.image.value.height)
    ensures a.resizeIndex.Some? && a.resizeIndex.value < |old(a.store.boxes)| ==>
              ShowsBoxes(a.table.rows, old(a.table.rows), a.store.boxes, a.image.value) &&
              ShowsSelection(a.table.selectedRow, a.table.currentRow, old(a.table.currentRow), a.store.selected, |a.store.boxes|)
    ensures !(a.resizeIndex.Some? && a.resizeIndex.value < |old(a.store.boxes)|) ==>
              a.table.rows == old(a.table.rows) && a.table.selectedRow == old(a.table.selectedRow) &&
              a.table.currentRow == old(a.table.currentRow)
    ensures a.cursor == old(a.cursor) && a.warnings == old(a.warnings) && a.dbUpdates == old(a.dbUpdates)
  {
    a.ResizeBox(pos);
  }

  /** The store after one resize step on box `index` (unchanged without a
      valid index). */
  function AfterResize(boxes: seq<Box>, index: Option<nat>, edge: Option<Edge>, p: Point, w: int, h: int)
    : (r: seq<Box>)
    ensures |r| == |boxes|
    ensures forall j :: 0 <= j < |boxes| && Some(j as nat) != index ==> r[j] == boxes[j]
    ensures forall j :: 0 <= j < |boxes| ==> r[j].id == boxes[j].id && r[j].classLabel == boxes[j].classLabel
    ensures w >= 2 && h >= 2 && index.Some? && index.value < |boxes| ==> InImage(r[index.value].coords, w, h)
  {
    if index.Some? && index.value < |boxes| then
      boxes[index.value := boxes[index.value].(coords := ResizedCoords(boxes[index.value].coords, edge, p, w, h))]
    else
      boxes
  }

  /** `finish_resizing` and `finish_dragging` share their tail: rebuild the
      table and write the selected box, when there is one, to the database. */
  method PushSelected(a: Annotator)
    requires a.Valid()
    modifies a`dbUpdates, a.table
    ensures a.Valid()
    ensures a.Gesture() == old(a.Gesture()) && a.View() == old(a.View())
    ensures a.cursor == old(a.cursor) && a.warnings == old(a.warnings)
    ensures 0 <= a.store.selected < |a.store.boxes| ==>
              a.dbUpdates == old(a.dbUpdates) + [a.store.boxes[a.store.selected]]
    ensures a.store.selected == -1 ==> a.dbUpdates == old(a.dbUpdates)
    ensures a.image.Some? ==>
              ShowsBoxes(a.table.rows, old(a.table.rows), a.store.boxes, a.image.value) &&
              ShowsSelection(a.table.selectedRow, a.table.currentRow, old(a.table.currentRow), a.store.selected, |a.store.boxes|)
    ensures a.image.None? ==>
              a.table.rows == old(a.table.rows) && a.table.selectedRow == old(a.table.selectedRow) &&
              a.table.currentRow == old(a.table.currentRow)
  {
    UpdateTable(a.store, a.table, a.image);
    var idx := a.store.selected;
    if 0 <= idx < |a.store.boxes| {
      a.dbUpdates := a.dbUpdates + [a.store.boxes[idx]];
    }
  }

  /** `finish_resizing`: leave resizing and clear its fields, then push the selection. */
  method FinishResizing(a: Annotator)
    requires a.Valid()
    modifies a`resizing, a`resizeIndex, a`resizeEdge, a`dbUpdates, a.table
    ensures a.Valid()
    ensures a.Gesture() == old(a.Gesture()).(resizing := false, resizeIndex := None, resizeEdge := None)
    ensures a.store.boxes == old(a.store.boxes) && a.store.selected == old(a.store.selected)
    ensures a.View() == old(a.View()) && a.cursor == old(a.cursor) && a.warnings == old(a.warnings)
    ensures 0 <= a.store.selected < |a.store.boxes| ==>
              a.dbUpdates == old(a.dbUpdates) + [a.store.boxes[a.store.selected]]
    ensures a.store.selected == -1 ==> a.dbUpdates == old(a.dbUpdates)
    ensures a.image.Some? ==>
              ShowsBoxes(a.table.rows, old(a.table.rows), a.store.boxes, a.image.value) &&
              ShowsSelection(a.table.selectedRow, a.table.currentRow, old(a.table.currentRow), a.store.selected, |a.store.boxes|)
    ensures a.image.None? ==>
              a.table.rows == old(a.table.rows) && a.table.selectedRow == old(a.table.selectedRow) &&
              a.table.currentRow == old(a.table.currentRow)
  {
    a.resizing := false;
    a.resizeIndex := None;
    a.resizeEdge := None;
    PushSelected(a);
  }

  /** `start_dragging`: select box `index` and start dragging it from `pos`. */
  method StartDragging(a: Annotator, index: nat, pos: Point)
    requires a.Valid() && index < |a.store.boxes|
    modifies a, a.store
    ensures a.Valid()
    ensures a.Gesture() == old(a.Gesture()).(dragging := true, dragIndex := Some(index as int), dragStart := Some(pos))
    ensures a.store.boxes == old(a.store.boxes) && a.store.selected == index
    ensures a.View() == old(a.View()) && a.cursor == old(a.cursor)
    ensures a.warnings == old(a.warnings) && a.dbUpdates == old(a.dbUpdates)
  {
    a.store.selected := index;
    a.dragging := true;
    a.dragIndex := Some(index);
    a.dragStart := Some(pos);
  }

  /** The box moved by `(dx, dy)` and clamped so that it stays inside an
      image `W` x `H` (its far side may reach `W` and `H`). */
  function Dragged(c: Coords, dx: int, dy: int, W: int, H: int): (r: Coords)
    // the size never changes
    ensures r.x2 - r.x1 == c.x2 - c.x1 && r.y2 - r.y1 == c.y2 - c.y1
    ensures 0 <= r.x1 && 0 <= r.y1
    // a box no larger than the image stays inside it
    ensures c.x2 - c.x1 <= W ==> r.x2 <= W
    ensures c.y2 - c.y1 <= H ==> r.y2 <= H
    // a move that keeps the box inside is taken as is
    ensures 0 <= c.x1 + dx <= W - (c.x2 - c.x1) ==> r.x1 == c.x1 + dx
    ensures 0 <= c.y1 + dy <= H - (c.y2 - c.y1) ==> r.y1 == c.y1 + dy
  {
    var bw, bh := c.x2 - c.x1, c.y2 - c.y1;
    var nx1 := Max(0, Min(c.x1 + dx, W - bw));
    var ny1 := Max(0, Min(c.y1 + dy, H - bh));
    Coords(nx1, ny1, nx1 + bw, ny1 + bh)
  }

  /** The dragging gesture keeps boxes on the image: a box inside
      `[0, W] x [0, H]` is still inside after any move. */
  lemma DraggedStaysInside(c: Coords, dx: int, dy: int, W: int, H: int)
    requires 0 <= c.x1 <= c.x2 <= W && 0 <= c.y1 <= c.y2 <= H
    ensures var r := Dragged(c, dx, dy, W, H);
            0 <= r.x1 <= r.x2 <= W && 0 <= r.y1 <= r.y2 <= H
  {
  }

  /** The image size the drag clamps against: 0 without an image. */
  function DragWidth(image: Option<Dims>): int
  {
    if image.Some? then image.value.width else 0
  }

  function DragHeight(image: Option<Dims>): int
  {
    if image.Some? then image.value.height else 0
  }

  /** The store after one drag step of box `index` from `start` to `p`
      (unchanged when `index` names no box). */
  function AfterDrag(boxes: seq<Box>, index: int, start: Point, p: Point, W: int, H: int): (r: seq<Box>)
    ensures |r| == |boxes|
    ensures forall j :: 0 <= j < |boxes| && j != index ==> r[j] == boxes[j]
    ensures forall j :: 0 <= j < |boxes| ==> r[j].id == boxes[j].id && r[j].classLabel == boxes[j].classLabel
  {
    if 0 <= index < |boxes| then
      boxes[index := boxes[index].(coords := Dragged(boxes[index].coords, p.x - start.x, p.y - start.y, W, H))]
    else
      boxes
  }

  /** `handle_dragging_move`: move the dragged box by the mouse's motion
      since the last move, clamped to the image, and make the mouse the new
      reference. A drag index outside the store changes nothing. */
  method HandleDraggingMove(a: Annotator, pos: Point)
    requires a.Valid() && a.dragging
    modifies a, a.store, a.table
    ensures a.Valid() && a.store.selected == old(a.store.selected)
    ensures a.View() == old(a.View()) && a.cursor == old(a.cursor)
    ensures a.warnings == old(a.warnings) && a.dbUpdates == old(a.dbUpdates)
    ensures a.store.boxes == AfterDrag(old(a.store.boxes), old(a.dragIndex).value, old(a.dragStart).value, pos,
                                       DragWidth(a.image), DragHeight(a.image))
    ensures 0 <= old(a.dragIndex).value < |old(a.store.boxes)| ==>
              a.Gesture() == old(a.Gesture()).(dragStart := Some(pos))
    ensures !(0 <= old(a.dragIndex).value < |old(a.store.boxes)|) ==>
              a.Gesture() == old(a.Gesture())
    // a moved box rebuilds the table
    ensures 0 <= old(a.dragIndex).value < |old(a.store.boxes)| && a.image.Some? ==>
              ShowsBoxes(a.table.rows, old(a.table.rows), a.store.boxes, a.image.value) &&
              ShowsSelection(a.table.selectedRow, a.table.currentRow, old(a.table.currentRow), a.store.selected, |a.store.boxes|)
    ensures !(0 <= old(a.dragIndex).value < |old(a.store.boxes)|) || a.image.None? ==>
              a.table.rows == old(a.table.rows) && a.table.selectedRow == old(a.table.selectedRow) &&
              a.table.currentRow == old(a.table.currentRow)
  {
    var dx := pos.x - a.dragStart.value.x;
    var dy := pos.y - a.dragStart.value.y;
    var i := a.dragIndex.value;
    if !(0 <= i < |a.store.boxes|) {
      return;
    }
    var b := a.store.boxes[i];
    var W, H := DragWidth(a.image), DragHeight(a.image);
    a.store.boxes := a.store.boxes[i := Box(Dragged(b.coords, dx, dy, W, H), b.id, b.classLabel)];
    a.dragStart := Some(pos);
    UpdateTable(a.store, a.table, a.image);
  }

  /** `finish_dragging`: leave dragging and clear its fields, then push the selection. */
  method FinishDragging(a: Annotator)
    requires a.Valid()
    modifies a`dragging, a`dragIndex, a`dragStart, a`dbUpdates, a.table
    ensures a.Valid()
    ensures a.Gesture() == old(a.Gesture()).(dragging := false, dragIndex := None, dragStart := None)
    ensures a.store.boxes == old(a.store.boxes) && a.store.selected == old(a.store.selected)
    ensures a.View() == old(a.View()) && a.cursor == old(a.cursor) && a.warnings == old(a.warnings)
    ensures 0 <= a.store.selected < |a.store.boxes| ==>
              a.dbUpdates == old(a.dbUpdates) + [a.store.boxes[a.store.selected]]
    ensures a.store.selected == -1 ==> a.dbUpdates == old(a.dbUpdates)
    ensures a.image.Some? ==>
              ShowsBoxes(a.table.rows, old(a.table.rows), a.store.boxes, a.image.value) &&
              ShowsSelection(a.table.selectedRow, a.table.currentRow, old(a.table.currentRow), a.store.selected, |a.store.boxes|)
    ensures a.image.None? ==>
              a.table.rows == old(a.table.rows) && a.table.selectedRow == old(a.table.selectedRow) &&
              a.table.currentRow == old(a.table.currentRow)
  {
    a.dragging := false;
    a.dragIndex := None;
    a.dragStart := None;
    PushSelected(a);
  }
}

=== FILE: cursor_handler.dfy ===
/** The mouse-cursor shape shown over a resize handle. */
module CursorHandler {
  import opened Basics
  import opened BoundingBoxManager

  /** The Qt cursor shapes the annotator uses. */
  datatype Cursor = Arrow | PointingHand | SizeHor | SizeVer | SizeFDiag | SizeBDiag

  /** A handle that moves only a vertical side (`x1` or `x2`). */
  predicate MovesOnlyX(e: Edge)
  {
    (ControlsX1(e) || ControlsX2(e)) && !(ControlsY1(e) || ControlsY2(e))
  }

  /** A handle that moves only a horizontal side (`y1` or `y2`). */
  predicate MovesOnlyY(e: Edge)
  {
    (ControlsY1(e) || ControlsY2(e)) && !(ControlsX1(e) || ControlsX2(e))
  }

  /** A corner moving `(x1, y1)` or `(x2, y2)`: top-left or bottom-right. */
  predicate OnForwardDiagonal(e: Edge)
  {
    (ControlsX1(e) && ControlsY1(e)) || (ControlsX2(e) && ControlsY2(e))
  }

  /** A corner moving `(x2, y1)` or `(x1, y2)`: top-right or bottom-left. */
  predicate OnBackwardDiagonal(e: Edge)
  {
    (ControlsX2(e) && ControlsY1(e)) || (ControlsX1(e) && ControlsY2(e))
  }

  /** `get_cursor_for_edge`: the cursor for a handle tag; no tag gives the arrow.
      The cursor's direction is the direction in which the handle moves the box:
      the diagonal cursors go to the corners on the same diagonal. */
  function CursorFor(edge: Option<Edge>): (r: Cursor)
    ensures edge.None? <==> r == Arrow
    ensures r == SizeHor <==> edge.Some? && MovesOnlyX(edge.value)
    ensures r == SizeVer <==> edge.Some? && MovesOnlyY(edge.value)
    ensures r == SizeFDiag <==> edge.Some? && OnForwardDiagonal(edge.value)
    ensures r == SizeBDiag <==> edge.Some? && OnBackwardDiagonal(edge.value)
    ensures r != PointingHand
  {
    match edge
    case None => Arrow
    case Some(Left) => SizeHor
    case Some(Right) => SizeHor
    case Some(Top) => SizeVer
    case Some(Bottom) => SizeVer
    case Some(TopLeft) => SizeFDiag
    case Some(BottomRight) => SizeFDiag
    case Some(TopRight) => SizeBDiag
    case Some(BottomLeft) => SizeBDiag
  }
}

=== FILE: detections.dfy ===
/** What the detection pages share: a detector output in the detector's
    640 x 640 input space, its normalized form, the choice of the leftmost
    detection, and the detection table that lists the outputs of a frame
    sorted by horizontal centre. */
module Detections {
  import opened Basics
  import opened BoundingBoxManager
  import opened FreshIds

  /** One detector output: class index and name, confidence in percent, and
      the corners truncated to integers in the 640 x 640 input space. */
  datatype Detection = Detection(classId: int, className: string, confidence: real,
                                 x0: int, y0: int, x1: int, y1: int)

  /** Side of the square image the detector is given. */
  const ModelSide := 640

  /** The normalized centre and size of a detection: `(x0 + x1) / 2 / 640`
      and `(x1 - x0) / 640`. The centre plus or minus half the size gives the
      corners back, and a detection inside the input space is normalized
      into `[0, 1]`. */
  function Normalize640(d: Detection): (n: Norm)
    ensures n.xCenter - n.width / 2.0 == d.x0 as real / 640.0
    ensures n.xCenter + n.width / 2.0 == d.x1 as real / 640.0
    ensures n.yCenter - n.height / 2.0 == d.y0 as real / 640.0
    ensures n.yCenter + n.height / 2.0 == d.y1 as real / 640.0
    ensures 0 <= d.x0 <= d.x1 <= ModelSide ==> 0.0 <= n.xCenter <= 1.0 && 0.0 <= n.width <= 1.0
    ensures 0 <= d.y0 <= d.y1 <= ModelSide ==> 0.0 <= n.yCenter <= 1.0 && 0.0 <= n.height <= 1.0
  {
    Norm((d.x0 + d.x1) as real / 2.0 / 640.0, (d.y0 + d.y1) as real / 2.0 / 640.0,
         (d.x1 - d.x0) as real / 640.0, (d.y1 - d.y0) as real / 640.0)
  }

  /** The detection pages normalize exactly as the annotator does for a
      640 x 640 image, so the annotator's conversion back to pixels gives the
      detection's corners again. */
  lemma Normalize640RoundTrip(d: Detection)
    ensures Normalize640(d) == ToNormalized(Coords(d.x0, d.y0, d.x1, d.y1), ModelSide, ModelSide)
    ensures FromNormalized(Normalize640(d), ModelSide, ModelSide) == Coords(d.x0, d.y0, d.x1, d.y1)
  {
    var c := Coords(d.x0, d.y0, d.x1, d.y1);
    assert Normalize640(d).xCenter == AxisCenter(c.x1, c.x2, ModelSide);
    assert Normalize640(d).yCenter == AxisCenter(c.y1, c.y2, ModelSide);
    NormalizedRoundTrip(c, ModelSide, ModelSide);
  }

  /** `min(detections, key=x0)`: the index of the detection with the
      smallest `x0`, the first one among equals, or None for no detection. */
  function Leftmost(ds: seq<Detection>): (r: Option<nat>)
    ensures r.None? <==> |ds| == 0
    ensures r.Some? ==> r.value < |ds|
    ensures r.Some? ==> forall j :: 0 <= j < |ds| ==> ds[r.value].x0 <= ds[j].x0
    ensures r.Some? ==> forall j :: 0 <= j < r.value ==> ds[r.value].x0 < ds[j].x0
    decreases |ds|
  {
    if |ds| == 0 then None
    else
      var last := |ds| - 1;
      match Leftmost(ds[..last])
      case None => Some(last)
      case Some(k) => if ds[last].x0 < ds[k].x0 then Some(last) else Some(k)
  }

  /** The table's sort key, `(x0 + x1) / (2 * 640)`. */
  function XCenter(d: Detection): real
  {
    (d.x0 + d.x1) as real / (2.0 * 640.0)
  }

  predicate SortedByCenter(ds: seq<Detection>)
  {
    forall i, j :: 0 <= i < j < |ds| ==> XCenter(ds[i]) <= XCenter(ds[j])
  }

  /** Inserts `d` after every element whose key is not larger. */
  function InsertByCenter(d: Detection, s: seq<Detection>): (r: seq<Detection>)
    requires SortedByCenter(s)
    ensures SortedByCenter(r)
    ensures multiset(r) == multiset(s) + multiset{d}
    ensures |r| == |s| + 1
    ensures XCenter(r[0]) == if |s| == 0 then XCenter(d) else RMin(XCenter(d), XCenter(s[0]))
  {
    if |s| == 0 then [d]
    else if XCenter(d) < XCenter(s[0]) then [d] + s
    else
      var rest := InsertByCenter(d, s[1..]);
      ConsSorted(s[0], rest);
      assert s == [s[0]] + s[1..];
      [s[0]] + rest
  }

  /** Putting a key no larger than the head's in front keeps a sequence sorted. */
  lemma ConsSorted(x: Detection, s: seq<Detection>)
    requires SortedByCenter(s)
    requires |s| > 0 ==> XCenter(x) <= XCenter(s[0])
    ensures SortedByCenter([x] + s)
  {
    var r := [x] + s;
    forall i, j | 0 <= i < j < |r|
      ensures XCenter(r[i]) <= XCenter(r[j])
    {
      if i == 0 && j > 1 {
        assert XCenter(s[0]) <= XCenter(s[j - 1]);
      }
    }
  }

  /** `sorted(detections, key=x_center)`: the same detections, in
      non-decreasing order of horizontal centre. */
  function SortByCenter(ds: seq<Detection>): (r: seq<Detection>)
    ensures SortedByCenter(r)
    ensures multiset(r) == multiset(ds)
    ensures |r| == |ds|
    decreases |ds|
  {
    if |ds| == 0 then []
    else
      var last := |ds| - 1;
      assert ds == ds[..last] + [ds[last]];
      InsertByCenter(ds[last], SortByCenter(ds[..last]))
  }

  /** One row of the detection table: 1-based number, a new identifier, the
      class name, the confidence and the normalized box. */
  datatype DetectionRow = DetectionRow(no: int, id: string, className: string,
                                       confidence: real, norm: Norm)

  /** `update_detection_table`: one row per detection, sorted by centre and
      numbered from 1, each with an identifier never handed out before; no
      detection gives an empty table. */
  method UpdateDetectionTable(dets: seq<Detection>, ids: IdOracle) returns (rows: seq<DetectionRow>)
    requires ids.Valid()
    modifies ids
    ensures ids.Valid()
    ensures |rows| == |dets|
    ensures forall k :: 0 <= k < |rows| ==> RowShows(rows[k], k, SortByCenter(dets)[k])
    ensures forall j, k :: 0 <= j < k < |rows| ==> rows[j].norm.xCenter <= rows[k].norm.xCenter
    ensures forall k :: 0 <= k < |rows| ==> rows[k].id in ids.issued && rows[k].id !in old(ids.issued)
    ensures forall j, k :: 0 <= j < k < |rows| ==> rows[j].id != rows[k].id
  {
    ghost var before := ids.issued;
    var sorted := SortByCenter(dets);
    rows := [];
    var row := 0;
    while row < |sorted|
      invariant 0 <= row <= |sorted| && |rows| == row
      invariant ids.Valid() && before <= ids.issued
      invariant forall k :: 0 <= k < row ==> RowShows(rows[k], k, sorted[k])
      invariant RowIdsFresh(rows, before, ids.issued)
    {
      var d := sorted[row];
      ghost var issued := ids.issued;
      var id := ids.New();
      var r := DetectionRow(row + 1, id, d.className, d.confidence, Normalize640(d));
      RowIdsFreshNext(rows, r, before, issued, ids.issued);
      rows := rows + [r];
      row := row + 1;
    }
    RowsFollowCentres(rows, sorted);
  }

  /** Every row's identifier was handed out after `before` and is in
      `issued`, and no two rows share one. */
  predicate RowIdsFresh(rows: seq<DetectionRow>, before: set<string>, issued: set<string>)
  {
    (forall k :: 0 <= k < |rows| ==> rows[k].id in issued && rows[k].id !in before) &&
    (forall j, k :: 0 <= j < k < |rows| ==> rows[j].id != rows[k].id)
  }

  /** A row under a newly issued identifier keeps the identifiers fresh. */
  lemma RowIdsFreshNext(rows: seq<DetectionRow>, r: DetectionRow, before: set<string>,
                        issued: set<string>, issued': set<string>)
    requires RowIdsFresh(rows, before, issued) && before <= issued
    requires r.id !in issued && issued' == issued + {r.id}
    ensures RowIdsFresh(rows + [r], before, issued')
  {
  }

  /** Rows showing detections sorted by centre list the centres in order. */
  lemma RowsFollowCentres(rows: seq<DetectionRow>, sorted: seq<Detection>)
    requires |rows| == |sorted| && SortedByCenter(sorted)
    requires forall k :: 0 <= k < |rows| ==> RowShows(rows[k], k, sorted[k])
    ensures forall j, k :: 0 <= j < k < |rows| ==> rows[j].norm.xCenter <= rows[k].norm.xCenter
  {
    forall j, k | 0 <= j < k < |rows|
      ensures rows[j].norm.xCenter <= rows[k].norm.xCenter
    {
      CenterKeyAgrees(sorted[j]);
      CenterKeyAgrees(sorted[k]);
    }
  }

  /** Row `k` (0-based) of the table shows detection `d`. */
  predicate RowShows(r: DetectionRow, k: int, d: Detection)
  {
    r.no == k + 1 && r.className == d.className && r.confidence == d.confidence &&
    r.norm == Normalize640(d)
  }

  /** The sort key and the displayed centre are the same number. */
  lemma CenterKeyAgrees(d: Detection)
    ensures XCenter(d) == Normalize640(d).xCenter
  {
  }
  /** One data row of an annotation CSV file: the image, the class index and
      name, the confidence in percent and the normalized box. */
  datatype AnnotationRow = AnnotationRow(imagePath: string, classId: int, className: string,
                                         confidence: real, norm: Norm)

  /** A line of an annotation CSV file: the column header or a data row. */
  datatype CsvLine = Header | Data(row: AnnotationRow)

  /** A file as written by the application: the header once, at the top,
      then data rows only. */
  predicate WellFormedCsv(lines: seq<CsvLine>)
  {
    |lines| > 0 && lines[0] == Header && forall i :: 1 <= i < |lines| ==> lines[i].Data?
  }

  /** The data rows of a well-formed file, in order. */
  function DataRows(lines: seq<CsvLine>): (r: seq<AnnotationRow>)
    requires WellFormedCsv(lines)
    ensures |r| == |lines| - 1
    ensures forall k :: 0 <= k < |r| ==> Data(r[k]) == lines[k + 1]
  {
    seq(|lines| - 1, k requires 0 <= k < |lines| - 1 => lines[k + 1].row)
  }

  /** The data lines of `rows`, in order. */
  function DataLines(rows: seq<AnnotationRow>): (r: seq<CsvLine>)
    ensures |r| == |rows|
    ensures forall k :: 0 <= k < |rows| ==> r[k] == Data(rows[k])
  {
    seq(|rows|, k requires 0 <= k < |rows| => Data(rows[k]))
  }

  /** Appending rows to an annotation file (`file` is None when it does not
      exist yet): the header is written only for a new file, what was there
      is kept, and the rows follow in order. */
  function AppendAnnotations(file: Option<seq<CsvLine>>, rows: seq<AnnotationRow>): (r: seq<CsvLine>)
    ensures file.None? ==> |r| == |rows| + 1 && r[0] == Header
    ensures file.Some? ==> |r| == |file.value| + |rows| && r[..|file.value|] == file.value
    ensures forall k :: 0 <= k < |rows| ==> r[|r| - |rows| + k] == Data(rows[k])
  {
    (if file.None? then [Header] else file.value) + DataLines(rows)
  }

  /** Appending keeps a file well formed, with the new rows after the old ones. */
  lemma AppendKeepsWellFormed(file: Option<seq<CsvLine>>, rows: seq<AnnotationRow>)
    requires file.Some? ==> WellFormedCsv(file.value)
    ensures WellFormedCsv(AppendAnnotations(file, rows))
    ensures DataRows(AppendAnnotations(file, rows)) ==
            (if file.Some? then DataRows(file.value) else []) + rows
  {
    var before := if file.Some? then file.value else [Header];
    assert DataRows([Header]) == [];
    DataLinesKeepWellFormed(before, rows);
    DataLinesAddRows(before, rows);
  }

  /** Data lines after a well-formed file keep it well formed. */
  lemma DataLinesKeepWellFormed(before: seq<CsvLine>, rows: seq<AnnotationRow>)
    requires WellFormedCsv(before)
    ensures WellFormedCsv(before + DataLines(rows))
  {
    var r := before + DataLines(rows);
    forall i | 1 <= i < |r|
      ensures r[i].Data?
    {
      if i >= |before| {
        assert r[i] == DataLines(rows)[i - |before|];
      }
    }
  }

  /** The data rows after appending are the old ones followed by `rows`. */
  lemma DataLinesAddRows(before: seq<CsvLine>, rows: seq<AnnotationRow>)
    requires WellFormedCsv(before) && WellFormedCsv(before + DataLines(rows))
    ensures DataRows(before + DataLines(rows)) == DataRows(before) + rows
  {
    var r := before + DataLines(rows);
    var want := DataRows(before) + rows;
    forall k | 0 <= k < |want|
      ensures DataRows(r)[k] == want[k]
    {
      if k + 1 >= |before| {
        assert r[k + 1] == DataLines(rows)[k + 1 - |before|];
      }
    }
  }

  /** The annotation row of a detection in `imagePath`, with its class index
      shifted by `classShift`. */
  function AnnotationOf(d: Detection, imagePath: string, classShift: int): (r: AnnotationRow)
    ensures r.classId - classShift == d.classId && r.className == d.className
    ensures r.confidence == d.confidence && r.imagePath == imagePath
    ensures r.norm == Normalize640(d)
  {
    AnnotationRow(imagePath, d.classId + classShift, d.className, d.confidence, Normalize640(d))
  }
}

=== FILE: dwell_capture.dfy ===
/** The detection page's dwell-time capture policy. Each processed frame
    looks at the leftmost detection: while waiting for a defect to reach the
    centre, the time it was first seen is remembered and a screenshot is
    taken once its centre is within 5% of the label's width of the label's
    middle; the page then waits twice the time the defect took to get
    there, and at the end of that wait takes one more screenshot if anything
    is detected. A screenshot stores every detection of a known class in the
    database table for that class. */
module DwellCapture {
  import opened Basics
  import opened FreshIds
  import opened Detections

  datatype Mode = WaitDefectCenter | WaitDelay

  /** The capture fields of the page: the mode, the end of the current
      wait, and when the current defect was first seen. */
  datatype DwellState = DwellState(mode: Mode, delayUntil: real, firstSeen: Option<real>)

  /** The state the page starts in. */
  const InitialDwell := DwellState(WaitDefectCenter, 0.0, None)

  /** What one frame does: the new state and whether a screenshot was taken. */
  datatype StepResult = StepResult(state: DwellState, captured: bool)

  /** The centring test for a detection on a label `labelW` pixels wide:
      the detection's horizontal centre scaled from 640 to the label and
      truncated, against half the label's width (floored), with a tolerance
      of strictly less than 5% of the width. */
  predicate Centred(d: Detection, labelW: Pos)
  {
    var xCenter := Trunc((d.x0 + d.x1) as real / 2.0 * (labelW as real / 640.0));
    Abs(xCenter - labelW / 2) as real < labelW as real * 0.05
  }

  /** One frame of the policy at time `now`, with the frame's detections. */
  function DwellStep(s: DwellState, now: real, dets: seq<Detection>, labelW: Pos): (r: StepResult)
    // a screenshot is only ever taken with something detected
    ensures r.captured ==> |dets| > 0
    // waiting for the centre with nothing detected forgets the first sighting
    ensures s.mode == WaitDefectCenter && |dets| == 0 ==> r == StepResult(s.(firstSeen := None), false)
    // waiting for the centre with a detection: capture exactly when the
    // leftmost one is centred; the wait is twice the time since first sighting
    ensures s.mode == WaitDefectCenter && |dets| > 0 ==>
              var fs := if s.firstSeen.Some? then s.firstSeen.value else now;
              (r.captured <==> Centred(dets[Leftmost(dets).value], labelW)) &&
              (r.captured ==> r.state == DwellState(WaitDelay, now + 2.0 * (now - fs), None)) &&
              (!r.captured ==> r.state == s.(firstSeen := Some(fs)))
    // during the wait nothing happens
    ensures s.mode == WaitDelay && now < s.delayUntil ==> r == StepResult(s, false)
    // at the end of the wait: back to waiting for the centre, capturing if
    // anything is detected
    ensures s.mode == WaitDelay && s.delayUntil <= now ==>
              r.state == s.(mode := WaitDefectCenter) && (r.captured <==> |dets| > 0)
  {
    var candidate := Leftmost(dets);
    match s.mode
    case WaitDefectCenter =>
      if candidate.None? then StepResult(s.(firstSeen := None), false)
      else
        var fs := if s.firstSeen.Some? then s.firstSeen.value else now;
        if Centred(dets[candidate.value], labelW) then
          StepResult(DwellState(WaitDelay, now + 2.0 * (now - fs), None), true)
        else
          StepResult(s.(firstSeen := Some(fs)), false)
    case WaitDelay =>
      if now >= s.delayUntil then StepResult(s.(mode := WaitDefectCenter), candidate.Some?)
      else StepResult(s, false)
  }

  /** One processed frame: when it happened, what was detected, and the
      width of the label it was shown on. */
  datatype Frame = Frame(now: real, dets: seq<Detection>, labelW: Pos)

  /** The state after a run of frames and the number of screenshots taken. */
  datatype RunResult = RunResult(state: DwellState, captures: nat)

  function Run(s: DwellState, frames: seq<Frame>): (r: RunResult)
    ensures r.captures <= |frames|
    // frames in which nothing was detected never give a screenshot
    ensures (forall i :: 0 <= i < |frames| ==> |frames[i].dets| == 0) ==> r.captures == 0
    decreases |frames|
  {
    if |frames| == 0 then RunResult(s, 0)
    else
      var step := DwellStep(s, frames[0].now, frames[0].dets, frames[0].labelW);
      var rest := Run(step.state, frames[1..]);
      RunResult(rest.state, rest.captures + if step.captured then 1 else 0)
  }

  /** While every frame comes before the end of the wait, a waiting page
      takes no screenshot and stays exactly as it is. */
  lemma {:induction false} DelayHoldsOff(s: DwellState, frames: seq<Frame>)
    requires s.mode == WaitDelay
    requires forall i :: 0 <= i < |frames| ==> frames[i].now < s.delayUntil
    ensures Run(s, frames) == RunResult(s, 0)
    decreases |frames|
  {
    if |frames| > 0 {
      DelayHoldsOff(s, frames[1..]);
    }
  }

  /** After a screenshot of a centred defect first seen at `fs`, no further
      screenshot is taken until `now + 2 * (now - fs)`; when the clock never
      goes backwards, that is no earlier than the screenshot itself. */
  lemma PauseAfterCentring(s: DwellState, now: real, dets: seq<Detection>, labelW: Pos, frames: seq<Frame>)
    requires s.mode == WaitDefectCenter && DwellStep(s, now, dets, labelW).captured
    requires s.firstSeen.Some? ==> s.firstSeen.value <= now
    requires forall i :: 0 <= i < |frames| ==>
               frames[i].now < now + 2.0 * (now - if s.firstSeen.Some? then s.firstSeen.value else now)
    ensures now <= DwellStep(s, now, dets, labelW).state.delayUntil
    ensures Run(DwellStep(s, now, dets, labelW).state, frames).captures == 0
  {
    DelayHoldsOff(DwellStep(s, now, dets, labelW).state, frames);
  }

  /** The database tables screenshots write to. */
  datatype Table = DefectTable | AnomalyTable

  /** The table a detection's class goes to: "dents" to the defect table,
      "anomaly" to the anomaly table, both compared case-insensitively;
      any other class is not stored. */
  function Route(className: string): (r: Option<Table>)
    ensures r == Some(DefectTable) <==> Lower(className) == "dents"
    ensures r == Some(AnomalyTable) <==> Lower(className) == "anomaly"
    ensures r.None? <==> Lower(className) != "dents" && Lower(className) != "anomaly"
  {
    var name := Lower(className);
    if name == "dents" then Some(DefectTable)
    else if name == "anomaly" then Some(AnomalyTable)
    else None
  }

  /** Routing does not depend on letter case. */
  lemma RouteIgnoresCase(className: string)
    ensures Route(Lower(className)) == Route(className)
  {
    LowerIdempotent(className);
  }

  /** The detections a screenshot stores, in their original order. */
  function Routed(ds: seq<Detection>): (r: seq<Detection>)
    ensures |r| <= |ds|
    ensures forall k :: 0 <= k < |r| ==> Route(r[k].className).Some?
    decreases |ds|
  {
    if |ds| == 0 then []
    else
      var last := |ds| - 1;
      Routed(ds[..last]) + if Route(ds[last].className).Some? then [ds[last]] else []
  }

  /** A screenshot stores only detections of the frame, and only those of
      a routed class. */
  lemma {:induction false} RoutedFromFrame(ds: seq<Detection>)
    ensures forall d :: d in Routed(ds) ==> d in ds && Route(d.className).Some?
    decreases |ds|
  {
    if |ds| > 0 {
      var last := |ds| - 1;
      RoutedFromFrame(ds[..last]);
      assert forall d :: d in ds[..last] ==> d in ds;
      assert Routed(ds) == Routed(ds[..last]) + if Route(ds[last].className).Some? then [ds[last]] else [];
    }
  }

  /** A frame whose detections all have a known class stores all of them. */
  lemma {:induction false} RoutedKeepsKnownClasses(ds: seq<Detection>)
    requires forall k :: 0 <= k < |ds| ==> Route(ds[k].className).Some?
    ensures Routed(ds) == ds
    decreases |ds|
  {
    if |ds| > 0 {
      var last := |ds| - 1;
      var front := ds[..last];
      assert forall k :: 0 <= k < |front| ==> front[k] == ds[k];
      RoutedKeepsKnownClasses(front);
      assert Routed(ds) == Routed(front) + [ds[last]];
      assert ds == front + [ds[last]];
    }
  }

  /** One inserted database row. */
  datatype StoredRow = StoredRow(table: Table, id: string, classId: int, imagePath: string,
                                 xCenter: real, yCenter: real, width: real, height: real, cl: real)

  /** The image path recorded in the database for a screenshot file. */
  function DbImagePath(fileName: string): string
  {
    "/steel-defect-pyside/screenshots/" + fileName
  }

  /** The row inserted for detection `d` into `table` under `id`. */
  function RowOf(d: Detection, table: Table, id: string, fileName: string): (r: StoredRow)
    ensures Route(d.className) == Some(table) ==> Stores(r, d, fileName)
    ensures r.id == id
  {
    var n := Normalize640(d);
    StoredRow(table, id, d.classId, DbImagePath(fileName),
              n.xCenter, n.yCenter, n.width, n.height, d.confidence / 100.0)
  }

  /** Row `r` stores detection `d` of the screenshot `fileName`: its class's
      table, its class index, the normalized box and the confidence as a
      fraction. */
  predicate Stores(r: StoredRow, d: Detection, fileName: string)
  {
    Route(d.className) == Some(r.table) && r.classId == d.classId &&
    r.imagePath == DbImagePath(fileName) &&
    r.xCenter == Normalize640(d).xCenter && r.yCenter == Normalize640(d).yCenter &&
    r.width == Normalize640(d).width && r.height == Normalize640(d).height &&
    r.cl == d.confidence / 100.0
  }

  /** `rows` are the rows a screenshot of `dets` inserts, one per routed
      detection and in order. */
  predicate StoresAll(rows: seq<StoredRow>, dets: seq<Detection>, fileName: string)
  {
    |rows| == |Routed(dets)| &&
    forall k :: 0 <= k < |rows| ==> Stores(rows[k], Routed(dets)[k], fileName)
  }

  /** The database part of `save_screenshot`: one row per detection of a
      known class, each under an identifier never handed out before. */
  method SaveScreenshot(dets: seq<Detection>, fileName: string, ids: IdOracle) returns (rows: seq<StoredRow>)
    requires ids.Valid()
    modifies ids
    ensures ids.Valid()
    ensures StoresAll(rows, dets, fileName)
    ensures IdsFresh(rows, old(ids.issued), ids.issued)
  {
    ghost var before := ids.issued;
    rows := [];
    var i := 0;
    while i < |dets|
      invariant 0 <= i <= |dets|
      invariant ids.Valid() && before <= ids.issued
      invariant StoresAll(rows, dets[..i], fileName)
      invariant IdsFresh(rows, before, ids.issued)
    {
      rows := StoreNext(rows, dets, i, fileName, ids, before);
      i := i + 1;
    }
    assert dets[..|dets|] == dets;
  }

  /** One iteration of the loop above: the row for detection `i`, if its
      class is routed. */
  method StoreNext(rows: seq<StoredRow>, dets: seq<Detection>, i: nat, fileName: string,
                   ids: IdOracle, ghost before: set<string>)
    returns (rows': seq<StoredRow>)
    requires i < |dets| && ids.Valid() && before <= ids.issued
    requires StoresAll(rows, dets[..i], fileName) && IdsFresh(rows, before, ids.issued)
    modifies ids
    ensures ids.Valid() && before <= ids.issued
    ensures StoresAll(rows', dets[..i + 1], fileName) && IdsFresh(rows', before, ids.issued)
  {
    var table := Route(dets[i].className);
    if table.Some? {
      ghost var issued := ids.issued;
      var id := ids.New();
      var row := RowOf(dets[i], table.value, id, fileName);
      StoresNext(rows, dets, i, fileName, [row]);
      IdsFreshNext(rows, row, before, issued, ids.issued);
      rows' := rows + [row];
    } else {
      StoresNext(rows, dets, i, fileName, []);
      assert rows + [] == rows;
      rows' := rows;
    }
  }

  /** Every row's identifier was handed out after `before` and is in
      `issued`, and no two rows share one. */
  predicate IdsFresh(rows: seq<StoredRow>, before: set<string>, issued: set<string>)
  {
    (forall k :: 0 <= k < |rows| ==> rows[k].id in issued && rows[k].id !in before) &&
    (forall j, k :: 0 <= j < k < |rows| ==> rows[j].id != rows[k].id)
  }

  /** A row under a newly issued identifier keeps the identifiers fresh. */
  lemma IdsFreshNext(rows: seq<StoredRow>, row: StoredRow, before: set<string>,
                     issued: set<string>, issued': set<string>)
    requires IdsFresh(rows, before, issued) && before <= issued
    requires row.id !in issued && issued' == issued + {row.id}
    ensures IdsFresh(rows + [row], before, issued')
  {
  }

  /** Going over detection `i` extends the stored rows by that detection's
      row when its class is routed, and by nothing otherwise. */
  lemma StoresNext(rows: seq<StoredRow>, dets: seq<Detection>, i: nat, fileName: string, extra: seq<StoredRow>)
    requires i < |dets| && StoresAll(rows, dets[..i], fileName)
    requires Route(dets[i].className).None? ==> extra == []
    requires Route(dets[i].className).Some? ==> |extra| == 1 && Stores(extra[0], dets[i], fileName)
    ensures StoresAll(rows + extra, dets[..i + 1], fileName)
  {
    assert dets[..i + 1][..i] == dets[..i];
    assert Routed(dets[..i + 1]) ==
           Routed(dets[..i]) + if Route(dets[i].className).Some? then [dets[i]] else [];
  }

  /** The detection page's capture fields and the rows its screenshots
      inserted into the database. */
  class DwellCapturePage {
    var mode: Mode
    var delayUntil: real
    var firstSeen: Option<real>
    /** Every row inserted so far, in insertion order. */
    var stored: seq<StoredRow>

    function State(): DwellState
      reads this
    {
      DwellState(mode, delayUntil, firstSeen)
    }

    /** The page starts waiting for a defect to reach the centre. */
    constructor ()
      ensures State() == InitialDwell && stored == []
    {
      mode := WaitDefectCenter;
      delayUntil := 0.0;
      firstSeen := None;
      stored := [];
    }

    /** The capture part of `process_video` for one frame at time `now`,
        taken on the label `labelW` pixels wide; a screenshot is saved as
        `fileName`. */
    method Step(now: real, dets: seq<Detection>, labelW: Pos, fileName: string, ids: IdOracle)
      returns (captured: bool)
      requires ids.Valid()
      modifies this, ids
      ensures ids.Valid()
      ensures StepResult(State(), captured) == DwellStep(old(State()), now, dets, labelW)
      ensures captured ==>
                |old(stored)| <= |stored| && stored[..|old(stored)|] == old(stored) &&
                StoresAll(stored[|old(stored)|..], dets, fileName)
      ensures !captured ==> stored == old(stored)
    {
      var candidate := Leftmost(dets);
      captured := false;
      if mode == WaitDefectCenter {
        if candidate.Some? {
          if firstSeen.None? {
            firstSeen := Some(now);
          }
          if Centred(dets[candidate.value], labelW) {
            var dwell := now - firstSeen.value;
            Save(dets, fileName, ids);
            delayUntil := now + 2.0 * dwell;
            mode := WaitDelay;
            firstSeen := None;
            captured := true;
          }
        } else {
          firstSeen := None;
        }
      } else if now >= delayUntil {
        if candidate.Some? {
          Save(dets, fileName, ids);
          captured := true;
        }
        mode := WaitDefectCenter;
      }
    }

    /** Appends the rows of one screenshot to the database. */
    method Save(dets: seq<Detection>, fileName: string, ids: IdOracle)
      requires ids.Valid()
      modifies this, ids
      ensures ids.Valid()
      ensures State() == old(State())
      ensures |old(stored)| <= |stored| && stored[..|old(stored)|] == old(stored)
      ensures StoresAll(stored[|old(stored)|..], dets, fileName)
    {
      var rows := SaveScreenshot(dets, fileName, ids);
      stored := stored + rows;
      assert stored[|old(stored)|..] == rows;
    }
  }
}

=== FILE: event_handlers.dfy ===
/** The annotator's event filter: the Delete key, mouse events on the
    image label (mapped from label pixels to image pixels), and window
    resizes that move the coordinates table. */
module EventHandlers {
  import opened Basics
  import opened BoundingBoxManager
  import opened TableManager
  import opened LabelAnnotator
  import opened CursorHandler
  import opened MouseHandler
  import opened FreshIds

  /** The widget an event was delivered to. */
  datatype Source = ImageLabel | MainWindow | CoordinatesTable | OtherWidget

  datatype Button = LeftButton | OtherButton

  datatype Key = DeleteKey | OtherKey

  /** The events the filter looks at; positions are in label pixels. */
  datatype Event =
    | KeyPress(key: Key)
    | MouseMove(px: real, py: real)
    | MousePress(button: Button, px: real, py: real)
    | MouseRelease(button: Button, px: real, py: real)
    | WindowResize
    | OtherEvent

  /** The fixed layout constants of the window. */
  datatype Layout = Layout(tableWidth: int, tableHeight: int, tableYOffset: int)

  /** Gap between the table's right side and the window's right side. */
  const TableRightMargin := 20

  /** `_get_scaled_position`: a label position mapped to image pixels
      (truncating toward zero) and, with an image, clamped onto it. */
  function ScaledPosition(px: real, py: real, offX: int, offY: int, scale: real, image: Option<Dims>)
    : (r: Point)
    requires scale > 0.0
    ensures image.Some? ==> 0 <= r.x <= image.value.width - 1 && 0 <= r.y <= image.value.height - 1
    ensures image.None? ==>
              r.x == Trunc((px - offX as real) / scale) && r.y == Trunc((py - offY as real) / scale)
    ensures image.Some? && 0 <= Trunc((px - offX as real) / scale) <= image.value.width - 1 ==>
              r.x == Trunc((px - offX as real) / scale)
    ensures image.Some? && 0 <= Trunc((py - offY as real) / scale) <= image.value.height - 1 ==>
              r.y == Trunc((py - offY as real) / scale)
  {
    var x := Trunc((px - offX as real) / scale);
    var y := Trunc((py - offY as real) / scale);
    if image.Some? then
      Point(Clamp(x, 0, image.value.width - 1), Clamp(y, 0, image.value.height - 1))
    else
      Point(x, y)
  }

  /** The mapping inverts the display: the label position where image pixel
      `(x, y)` is drawn maps back to that pixel. */
  lemma ScaledPositionOfDrawnPixel(x: int, y: int, offX: int, offY: int, scale: real, image: Option<Dims>)
    requires scale > 0.0
    requires image.Some? ==> 0 <= x < image.value.width && 0 <= y < image.value.height
    ensures ScaledPosition(offX as real + x as real * scale, offY as real + y as real * scale,
                           offX, offY, scale, image) == Point(x, y)
  {
    UnscaleExact(x, offX, scale);
    UnscaleExact(y, offY, scale);
  }

  lemma UnscaleExact(x: int, off: int, scale: real)
    requires scale > 0.0
    ensures Trunc((off as real + x as real * scale - off as real) / scale) == x
  {
    assert off as real + x as real * scale - off as real == x as real * scale;
    assert x as real * scale / scale == x as real;
    TruncOfInt(x);
  }

  /** The index `_handle_delete_key` deletes in state `s`: the table's
      current row when the key came to the table, the selected box when it
      came to the image or the window, and -1 (none) for any other widget. */
  function DeleteTarget(s: Snapshot, source: Source): int
  {
    if source == CoordinatesTable then s.currentRow
    else if source == ImageLabel || source == MainWindow then s.selected
    else -1
  }

  /** The effect of `_handle_delete_key` from state `s` to state `t`: the
      key is consumed exactly when there is a target. A target that names a
      box removes it, retargets the selection, rebuilds the table when an
      image is loaded and resets the cursor; any other target changes
      nothing. */
  predicate DeleteKeyEffect(s: Snapshot, t: Snapshot, source: Source, handled: bool)
  {
    var i := DeleteTarget(s, source);
    (handled <==> i != -1) &&
    if 0 <= i < |s.boxes| then
      t.boxes == Removed(s.boxes, i) && t.selected == Retarget(s.selected, i) && t.cursor == Arrow &&
      t.gesture == s.gesture && t.view == s.view && t.warnings == s.warnings && t.dbUpdates == s.dbUpdates &&
      (if s.view.image.Some? then TableRebuilt(s, t, s.view.image.value) else TableKept(s, t))
    else
      t == s
  }

  /** Deleting from the table with an image loaded leaves a current row the
      next Delete from the table can use: a box stays targeted while any
      box is left, and nothing once the table is empty. So repeated Deletes
      from the table empty it one box at a time. */
  lemma TableDeleteKeepsTarget(s: Snapshot, t: Snapshot)
    requires -1 <= s.selected < |s.boxes|
    requires s.view.image.Some? && 0 <= s.currentRow < |s.boxes|
    requires DeleteKeyEffect(s, t, CoordinatesTable, true)
    ensures |t.boxes| == |s.boxes| - 1
    ensures 0 < |t.boxes| ==> 0 <= DeleteTarget(t, CoordinatesTable) < |t.boxes|
    ensures |t.boxes| == 0 ==> DeleteTarget(t, CoordinatesTable) == -1
  {
  }

  /** `_handle_delete_key`. */
  method HandleDeleteKey(a: Annotator, source: Source) returns (handled: bool)
    requires a.Valid()
    modifies a, a.store, a.table
    ensures a.Valid()
    ensures DeleteKeyEffect(old(a.State()), a.State(), source, handled)
    ensures !handled ==> unchanged(a, a.store, a.table)
    // deleting the selected box leaves nothing selected
    ensures handled && source != CoordinatesTable ==> a.store.selected == -1
  {
    var target := -1;
    if source == CoordinatesTable {
      var current := a.table.currentRow;
      if current != -1 {
        target := current;
      }
    } else if source == ImageLabel || source == MainWindow {
      if a.store.selected != -1 {
        target := a.store.selected;
      }
    }
    if target != -1 {
      a.DeleteBox(target);
      return true;
    }
    return false;
  }

  /** `_handle_window_resize`: the table keeps its size and offset and is
      placed `TableRightMargin` pixels from the window's right side. */
  method HandleWindowResize(a: Annotator, windowWidth: int, layout: Layout) returns (handled: bool)
    modifies a.table
    ensures handled
    ensures a.table.geomX + a.table.geomW == windowWidth - TableRightMargin
    ensures a.table.geomY == layout.tableYOffset
    ensures a.table.geomW == layout.tableWidth && a.table.geomH == layout.tableHeight
    ensures a.table.rows == old(a.table.rows) && a.table.selectedRow == old(a.table.selectedRow)
    ensures a.table.currentRow == old(a.table.currentRow)
  {
    var tableX := windowWidth - layout.tableWidth - TableRightMargin;
    a.table.geomX, a.table.geomY := tableX, layout.tableYOffset;
    a.table.geomW, a.table.geomH := layout.tableWidth, layout.tableHeight;
    return true;
  }

  /** Whether an event is a mouse event on the image label. */
  predicate IsMouse(ev: Event)
  {
    ev.MouseMove? || ev.MousePress? || ev.MouseRelease?
  }

  /** `event_filter`. The Delete key is handled first, whatever widget it
      came to; mouse events count only on the image label with an image
      loaded, presses and releases only with the left button; a resize
      counts only on the main window; everything else is passed on. */
  method EventFilter(a: Annotator, source: Source, ev: Event, windowWidth: int, layout: Layout, ids: IdOracle)
    returns (handled: bool)
    requires a.Valid() && ids.Valid()
    modifies a, a.store, a.table, ids
    ensures a.Valid() && ids.Valid()
    ensures ev == KeyPress(DeleteKey) ==> DeleteKeyEffect(old(a.State()), a.State(), source, handled)
    // a mouse event on the label acts at its position in image pixels
    ensures source == ImageLabel && old(a.image).Some? && ev.MouseMove? ==>
              handled &&
              Moved(old(a.State()), a.State(),
                    ScaledPosition(ev.px, ev.py, old(a.offsetX), old(a.offsetY), old(a.scaleRatio), old(a.image)))
    ensures source == ImageLabel && old(a.image).Some? && ev.MousePress? && ev.button == LeftButton ==>
              handled &&
              Pressed(old(a.State()), a.State(),
                      ScaledPosition(ev.px, ev.py, old(a.offsetX), old(a.offsetY), old(a.scaleRatio), old(a.image)))
    ensures source == ImageLabel && old(a.image).Some? && ev.MouseRelease? && ev.button == LeftButton ==>
              handled &&
              Released(old(a.State()), a.State(),
                       ScaledPosition(ev.px, ev.py, old(a.offsetX), old(a.offsetY), old(a.scaleRatio), old(a.image)),
                       old(ids.issued))
    ensures source == ImageLabel && old(a.image).Some? && (ev.MousePress? || ev.MouseRelease?) ==>
              (handled <==> ev.button == LeftButton)
    // a resize of the window only moves the table
    ensures source == MainWindow && ev == WindowResize ==>
              handled && a.table.geomX + a.table.geomW == windowWidth - TableRightMargin &&
              a.State() == old(a.State())
    // everything else leaves the annotator as it was
    ensures !handled ==> unchanged(a, a.store, a.table, ids)
    ensures handled ==>
              ev == KeyPress(DeleteKey) || (source == ImageLabel && old(a.image).Some? && IsMouse(ev)) ||
              (source == MainWindow && ev == WindowResize)
  {
    if ev == KeyPress(DeleteKey) {
      handled := HandleDeleteKey(a, source);
      return;
    }
    if source == ImageLabel && a.image.Some? && IsMouse(ev) {
      var pos := ScaledPosition(ev.px, ev.py, a.offsetX, a.offsetY, a.scaleRatio, a.image);
      if ev.MouseMove? {
        handled := HandleMove(a, pos);
      } else if ev.MousePress? && ev.button == LeftButton {
        handled := HandlePress(a, pos);
      } else if ev.MouseRelease? && ev.button == LeftButton {
        handled := HandleRelease(a, pos, ids);
      } else {
        handled := false;
      }
      return;
    }
    if source == MainWindow && ev == WindowResize {
      handled := HandleWindowResize(a, windowWidth, layout);
      return;
    }
    return false;
  }
}

=== FILE: folder_annotator.dfy ===
/** The folder annotator: it runs the detector over every image of a chosen
    folder, keeping the files whose lower-cased name ends in an image
    extension, in sorted path order and skipping files that cannot be read;
    saving appends one CSV row per detection, under a header when the file
    is new. */
module FolderAnnotator {
  import opened Basics
  import opened Detections

  /** The image extensions the folder is filtered by. */
  const ImageExts: seq<string> := [".png", ".jpg", ".jpeg", ".bmp", ".tiff", ".webp"]

  predicate EndsWith(s: string, suffix: string)
  {
    |suffix| <= |s| && s[|s| - |suffix|..] == suffix
  }

  /** `f.lower().endswith(image_exts)`. */
  function HasImageExt(name: string): (r: bool)
    ensures r <==> exists i :: 0 <= i < |ImageExts| && EndsWith(Lower(name), ImageExts[i])
  {
    var n := Lower(name);
    var found := EndsWith(n, ".png") || EndsWith(n, ".jpg") || EndsWith(n, ".jpeg") ||
                 EndsWith(n, ".bmp") || EndsWith(n, ".tiff") || EndsWith(n, ".webp");
    assert found ==> exists i :: 0 <= i < |ImageExts| && EndsWith(n, ImageExts[i]) by {
      if EndsWith(n, ".png") { assert EndsWith(n, ImageExts[0]); }
      else if EndsWith(n, ".jpg") { assert EndsWith(n, ImageExts[1]); }
      else if EndsWith(n, ".jpeg") { assert EndsWith(n, ImageExts[2]); }
      else if EndsWith(n, ".bmp") { assert EndsWith(n, ImageExts[3]); }
      else if EndsWith(n, ".tiff") { assert EndsWith(n, ImageExts[4]); }
      else if EndsWith(n, ".webp") { assert EndsWith(n, ImageExts[5]); }
    }
    found
  }

  /** The filter does not depend on letter case. */
  lemma HasImageExtIgnoresCase(name: string)
    ensures HasImageExt(Lower(name)) == HasImageExt(name)
  {
    LowerIdempotent(name);
  }

  /** `os.path.join(folder, f)` for a folder path that does not end in a
      separator, as the folder dialog returns it; for a folder that does
      (such as "/"), `os.path.join` adds no second separator. */
  function Join(folder: string, name: string): string
  {
    folder + "/" + name
  }

  /** The names of a folder listing that pass the extension filter, in
      listing order. */
  function ImageNames(listing: seq<string>): (r: seq<string>)
    ensures |r| <= |listing|
    ensures forall k :: 0 <= k < |r| ==> HasImageExt(r[k]) && r[k] in listing
    ensures forall f :: f in listing && HasImageExt(f) ==> f in r
    decreases |listing|
  {
    if |listing| == 0 then []
    else
      var last := |listing| - 1;
      var front := ImageNames(listing[..last]);
      assert forall f :: f in listing ==> f in listing[..last] || f == listing[last];
      front + if HasImageExt(listing[last]) then [listing[last]] else []
  }

  /** The joined paths of the image files of a folder. */
  function ImageFiles(folder: string, listing: seq<string>): (r: seq<string>)
    ensures |r| == |ImageNames(listing)|
    ensures forall k :: 0 <= k < |r| ==> r[k] == Join(folder, ImageNames(listing)[k])
  {
    var names := ImageNames(listing);
    seq(|names|, k requires 0 <= k < |names| => Join(folder, names[k]))
  }

  /** Python's string order: lexicographic by character code. */
  predicate LexLeq(a: string, b: string)
    decreases |a|
  {
    |a| == 0 || (|b| > 0 && (a[0] < b[0] || (a[0] == b[0] && LexLeq(a[1..], b[1..]))))
  }

  lemma {:induction false} LexTotal(a: string, b: string)
    ensures LexLeq(a, b) || LexLeq(b, a)
    decreases |a|
  {
    if |a| > 0 && |b| > 0 && a[0] == b[0] {
      LexTotal(a[1..], b[1..]);
    }
  }

  lemma {:induction false} LexTrans(a: string, b: string, c: string)
    requires LexLeq(a, b) && LexLeq(b, c)
    ensures LexLeq(a, c)
    decreases |a|
  {
    if |a| > 0 && a[0] == b[0] && b[0] == c[0] {
      LexTrans(a[1..], b[1..], c[1..]);
    }
  }

  predicate SortedPaths(s: seq<string>)
  {
    forall i, j :: 0 <= i < j < |s| ==> LexLeq(s[i], s[j])
  }

  /** Putting a path no larger than the head's in front keeps paths sorted. */
  lemma ConsSortedPath(x: string, s: seq<string>)
    requires SortedPaths(s)
    requires |s| > 0 ==> LexLeq(x, s[0])
    ensures SortedPaths([x] + s)
  {
    var r := [x] + s;
    forall i, j | 0 <= i < j < |r|
      ensures LexLeq(r[i], r[j])
    {
      if i == 0 && j > 1 {
        LexTrans(x, s[0], s[j - 1]);
      }
    }
  }

  /** Inserts a path after every path not larger than it. */
  function InsertPath(p: string, s: seq<string>): (r: seq<string>)
    requires SortedPaths(s)
    ensures SortedPaths(r)
    ensures multiset(r) == multiset(s) + multiset{p}
    ensures |r| == |s| + 1
    ensures r[0] == p || (|s| > 0 && r[0] == s[0])
  {
    if |s| == 0 then [p]
    else if !LexLeq(s[0], p) then
      LexTotal(s[0], p);
      ConsSortedPath(p, s);
      [p] + s
    else
      var rest := InsertPath(p, s[1..]);
      assert |s| > 1 ==> LexLeq(s[0], s[1]);
      ConsSortedPath(s[0], rest);
      assert s == [s[0]] + s[1..];
      [s[0]] + rest
  }

  /** `sorted(paths)`: the same paths in non-decreasing string order. */
  function SortPaths(ps: seq<string>): (r: seq<string>)
    ensures SortedPaths(r)
    ensures multiset(r) == multiset(ps)
    ensures |r| == |ps|
    decreases |ps|
  {
    if |ps| == 0 then []
    else
      var last := |ps| - 1;
      assert ps == ps[..last] + [ps[last]];
      InsertPath(ps[last], SortPaths(ps[..last]))
  }

  /** A loaded image: its path and the detector's output on it. */
  datatype ImageInfo = ImageInfo(imgPath: string, detections: seq<Detection>)

  /** The images loaded from sorted paths: those that can be read (the keys
      of `images`, each mapped to what the detector finds on it), in order. */
  function Loaded(paths: seq<string>, images: map<string, seq<Detection>>): (r: seq<ImageInfo>)
    ensures |r| <= |paths|
    ensures forall k :: 0 <= k < |r| ==>
              r[k].imgPath in paths && r[k].imgPath in images && r[k].detections == images[r[k].imgPath]
    ensures forall p :: p in paths && p in images ==> ImageInfo(p, images[p]) in r
    decreases |paths|
  {
    if |paths| == 0 then []
    else
      var last := |paths| - 1;
      var front := Loaded(paths[..last], images);
      assert forall p :: p in paths ==> p in paths[..last] || p == paths[last];
      front + if paths[last] in images then [ImageInfo(paths[last], images[paths[last]])] else []
  }

  /** Loading one more path appends that image when it can be read. */
  lemma LoadedNext(paths: seq<string>, i: nat, images: map<string, seq<Detection>>)
    requires i < |paths|
    ensures Loaded(paths[..i + 1], images) ==
            Loaded(paths[..i], images) +
            if paths[i] in images then [ImageInfo(paths[i], images[paths[i]])] else []
  {
    assert paths[..i + 1][..i] == paths[..i];
  }

  /** The messages shown instead of an image. */
  datatype Message = NoImagesFound | NoValidImages

  /** The name `save_annotations` gives to the copy of an image: the image's
      file name without its extension, an underscore and the time stamp. */
  function SavedImagePath(imgPath: string, timestamp: string): string
  {
    "screenshots/" + Stem(BaseName(imgPath)) + "_" + timestamp + ".png"
  }

  /** At one time stamp two images get the same saved copy exactly when
      their stems agree: `a.jpg` and `a.png` in one folder share a copy. */
  lemma SavedImagePathCollides(p: string, q: string, timestamp: string)
    ensures SavedImagePath(p, timestamp) == SavedImagePath(q, timestamp) <==>
            Stem(BaseName(p)) == Stem(BaseName(q))
  {
    var s, t := Stem(BaseName(p)), Stem(BaseName(q));
    var P, Q := SavedImagePath(p, timestamp), SavedImagePath(q, timestamp);
    var tail := "_" + timestamp + ".png";
    assert P == "screenshots/" + s + tail && Q == "screenshots/" + t + tail;
    if P == Q {
      // equal lengths, so the stems sit at the same place in equal strings
      assert s == P[12..12 + |s|];
      assert t == Q[12..12 + |t|];
    }
  }

  /** The index of the last `c` in `s`, or -1. */
  function LastIndexOf(s: string, c: char): (r: int)
    ensures -1 <= r < |s|
    ensures r >= 0 ==> s[r] == c
    ensures forall k :: r < k < |s| ==> s[k] != c
    decreases |s|
  {
    if |s| == 0 then -1
    else if s[|s| - 1] == c then |s| - 1
    else LastIndexOf(s[..|s| - 1], c)
  }

  /** `os.path.basename`: what follows the last `/`. */
  function BaseName(p: string): (r: string)
    ensures |r| <= |p| && r == p[|p| - |r|..]
    ensures forall k :: 0 <= k < |r| ==> r[k] != '/'
  {
    p[LastIndexOf(p, '/') + 1..]
  }

  /** The base name is the longest such suffix: it is the whole path, or a
      `/` comes right before it. */
  lemma BaseNameLongest(p: string)
    ensures var r := BaseName(p); |r| == |p| || p[|p| - |r| - 1] == '/'
  {
    var i := LastIndexOf(p, '/');
    assert |BaseName(p)| == |p| - i - 1;
  }

  /** `os.path.splitext(name)[0]`: the name without what follows its last
      dot, unless only dots precede that dot. */
  function Stem(name: string): (r: string)
    ensures |r| <= |name| && r == name[..|r|]
  {
    var i := LastIndexOf(name, '.');
    if i > 0 && exists k :: 0 <= k < i && name[k] != '.' then name[..i] else name
  }

  /** The stem drops an extension exactly when some dot has a non-dot
      before it, and then the name is cut at its last dot. */
  lemma StemDropsExtension(name: string)
    ensures var r := Stem(name);
            (|r| < |name| <==> exists j, k :: 0 <= k < j < |name| && name[k] != '.' && name[j] == '.') &&
            (|r| < |name| ==> name[|r|] == '.' && forall k :: |r| < k < |name| ==> name[k] != '.')
  {
    var i := LastIndexOf(name, '.');
    if exists j, k :: 0 <= k < j < |name| && name[k] != '.' && name[j] == '.' {
      var j, k :| 0 <= k < j < |name| && name[k] != '.' && name[j] == '.';
      // the last dot is at or after `j`, so `k` precedes it
      assert j <= i;
    }
  }

  /** The rows one loaded image contributes. */
  function ImageRows(info: ImageInfo, timestamp: string): (r: seq<AnnotationRow>)
    ensures |r| == |info.detections|
    ensures forall k :: 0 <= k < |r| ==>
              r[k] == AnnotationOf(info.detections[k], SavedImagePath(info.imgPath, timestamp), 0)
  {
    seq(|info.detections|, k requires 0 <= k < |info.detections| =>
      AnnotationOf(info.detections[k], SavedImagePath(info.imgPath, timestamp), 0))
  }

  /** All the rows of a save, image by image and detection by detection. */
  function FolderRows(infos: seq<ImageInfo>, timestamp: string): (r: seq<AnnotationRow>)
    decreases |infos|
  {
    if |infos| == 0 then []
    else FolderRows(infos[..|infos| - 1], timestamp) + ImageRows(infos[|infos| - 1], timestamp)
  }

  /** A save writes exactly one row per detection of the loaded images. */
  lemma {:induction false} FolderRowsCount(infos: seq<ImageInfo>, timestamp: string)
    ensures |FolderRows(infos, timestamp)| == DetectionCount(infos)
    decreases |infos|
  {
    if |infos| > 0 {
      FolderRowsCount(infos[..|infos| - 1], timestamp);
    }
  }

  /** Saving one more image appends that image's rows. */
  lemma FolderRowsNext(infos: seq<ImageInfo>, i: nat, timestamp: string)
    requires i < |infos|
    ensures FolderRows(infos[..i + 1], timestamp) ==
            FolderRows(infos[..i], timestamp) + ImageRows(infos[i], timestamp)
  {
    assert infos[..i + 1][..i] == infos[..i];
  }

  function DetectionCount(infos: seq<ImageInfo>): nat
    decreases |infos|
  {
    if |infos| == 0 then 0
    else DetectionCount(infos[..|infos| - 1]) + |infos[|infos| - 1].detections|
  }

  /** The loop of `load_folder` over the sorted paths: each readable image
      is loaded with the detector's output on it, in order. */
  method LoadImages(sorted: seq<string>, images: map<string, seq<Detection>>) returns (infos: seq<ImageInfo>)
    ensures infos == Loaded(sorted, images)
  {
    infos := [];
    for idx := 0 to |sorted|
      invariant infos == Loaded(sorted[..idx], images)
    {
      LoadedNext(sorted, idx, images);
      var imgPath := sorted[idx];
      if imgPath !in images {
        continue;
      }
      infos := infos + [ImageInfo(imgPath, images[imgPath])];
    }
    assert sorted[..|sorted|] == sorted;
  }

  /** The inner loop of `save_annotations`: one row per detection of the
      image, in order, each pointing to the image's saved copy. */
  method SavedRows(info: ImageInfo, timestamp: string) returns (rows: seq<AnnotationRow>)
    ensures rows == ImageRows(info, timestamp)
  {
    var imgSavePath := SavedImagePath(info.imgPath, timestamp);
    rows := [];
    for j := 0 to |info.detections|
      invariant |rows| == j
      invariant forall k :: 0 <= k < j ==> rows[k] == AnnotationOf(info.detections[k], imgSavePath, 0)
    {
      rows := rows + [AnnotationOf(info.detections[j], imgSavePath, 0)];
    }
  }

  /** The folder annotator window's state and the CSV files it wrote. */
  class FolderAnnotatorPage {
    var folderPath: Option<string>
    var imagesInfo: seq<ImageInfo>
    var saveEnabled: bool
    var message: Option<Message>
    var files: map<string, seq<CsvLine>>

    constructor ()
      ensures folderPath.None? && imagesInfo == [] && files == map[]
    {
      folderPath := None;
      imagesInfo := [];
      saveEnabled := false;
      message := None;
      files := map[];
    }

    /** `load_folder`. `chosen` is the folder the dialog returned, `listing`
        its directory listing, and `images` maps every readable image path
        to the detector's output on it. */
    method LoadFolder(chosen: Option<string>, listing: seq<string>, images: map<string, seq<Detection>>)
      modifies `folderPath, `imagesInfo, `saveEnabled, `message
      ensures chosen.None? ==>
                folderPath == old(folderPath) && imagesInfo == old(imagesInfo) &&
                saveEnabled == old(saveEnabled) && message == old(message)
      ensures chosen.Some? ==> folderPath == chosen
      ensures chosen.Some? && |ImageNames(listing)| == 0 ==>
                imagesInfo == [] && !saveEnabled && message == Some(NoImagesFound)
      ensures chosen.Some? && |ImageNames(listing)| > 0 ==>
                imagesInfo == Loaded(SortPaths(ImageFiles(chosen.value, listing)), images) &&
                (saveEnabled <==> |imagesInfo| > 0) &&
                (|imagesInfo| == 0 ==> message == Some(NoValidImages)) &&
                (|imagesInfo| > 0 ==> message == old(message))
      ensures files == old(files)
    {
      if chosen.None? {
        return;
      }
      folderPath := chosen;
      imagesInfo := [];
      var imgFiles := ImageFiles(chosen.value, listing);
      if |imgFiles| == 0 {
        message := Some(NoImagesFound);
        saveEnabled := false;
        return;
      }
      imagesInfo := LoadImages(SortPaths(imgFiles), images);
      if |imagesInfo| > 0 {
        saveEnabled := true;
      } else {
        message := Some(NoValidImages);
        saveEnabled := false;
      }
    }

    /** `save_annotations` at `timestamp` into `csvPath`: nothing without
        loaded images; otherwise every detection's row is appended to the
        file, under a header when the file is new. */
    method SaveAnnotations(csvPath: string, timestamp: string)
      modifies `files
      ensures imagesInfo == [] ==> files == old(files)
      ensures imagesInfo != [] ==>
                files == old(files)[csvPath :=
                  AppendAnnotations(if csvPath in old(files) then Some(old(files)[csvPath]) else None,
                                    FolderRows(imagesInfo, timestamp))]
      ensures imagesInfo == old(imagesInfo) && folderPath == old(folderPath)
      ensures saveEnabled == old(saveEnabled) && message == old(message)
    {
      if |imagesInfo| == 0 {
        return;
      }
      var rows := [];
      for i := 0 to |imagesInfo|
        invariant rows == FolderRows(imagesInfo[..i], timestamp)
        invariant files == old(files)
      {
        FolderRowsNext(imagesInfo, i, timestamp);
        var more := SavedRows(imagesInfo[i], timestamp);
        rows := rows + more;
      }
      assert imagesInfo[..|imagesInfo|] == imagesInfo;
      var file := if csvPath in files then Some(files[csvPath]) else None;
      files := files[csvPath := AppendAnnotations(file, rows)];
    }
  }
}

=== FILE: fresh_ids.dfy ===
/** The identifier generator. The application calls `ulid.new()` for every
    new box and every stored detection; all the model relies on is that an
    identifier is never handed out twice, which this oracle guarantees. */
module FreshIds {

  class IdOracle {
    /** Every identifier handed out so far. */
    ghost var issued: set<string>
    /** Length of the next identifier; longer than anything issued. */
    var next: nat

    ghost predicate Valid()
      reads this
    {
      forall s :: s in issued ==> |s| < next
    }

    constructor ()
      ensures Valid() && issued == {}
    {
      issued := {};
      next := 1;
    }

    method New() returns (id: string)
      requires Valid()
      modifies this
      ensures Valid()
      ensures id !in old(issued)
      ensures issued == old(issued) + {id}
    {
      id := seq(next, _ => 'u');
      issued := issued + {id};
      next := next + 1;
    }
  }
}

=== FILE: interval_capture.dfy ===
/** The video detection page's fixed-interval capture policy. Playback is
    kept in step with the wall clock by seeking forward; the first
    screenshot is taken once 4.96 seconds of playback have elapsed and every
    further one once at least 4.9 seconds have passed since the previous
    one, whatever was detected. Every processed frame is logged with a
    "yes" or "no" saying whether it was captured, and every screenshot
    appends the anomaly detections and the defect detections of that frame
    to the run's annotation file. */
module IntervalCapture {
  import opened Basics
  import opened Detections

  /** Elapsed playback time at or after which the first screenshot is taken. */
  const FirstCaptureAt := 4.96
  /** Least time between two screenshots. */
  const CaptureInterval := 4.9

  /** The capture fields: when the last screenshot was taken, and whether
      the first one has been. */
  datatype IntervalState = IntervalState(lastShot: Option<real>, firstTaken: bool)

  /** The state `start_detection` resets to. */
  const InitialInterval := IntervalState(None, false)

  /** The two fields are set together. */
  predicate Consistent(s: IntervalState)
  {
    s.firstTaken <==> s.lastShot.Some?
  }

  datatype IntervalResult = IntervalResult(state: IntervalState, captured: bool)

  /** The capture decision for a frame at `elapsed` seconds of playback. */
  function IntervalStep(s: IntervalState, elapsed: real): (r: IntervalResult)
    ensures Consistent(s) ==> Consistent(r.state)
    // before the first screenshot: capture exactly from 4.96 seconds on
    ensures !s.firstTaken ==> (r.captured <==> elapsed >= FirstCaptureAt)
    // afterwards: capture exactly when 4.9 seconds have passed since the last
    ensures s.firstTaken && s.lastShot.Some? ==>
              (r.captured <==> elapsed - s.lastShot.value >= CaptureInterval)
    // a capture records its time; no capture changes nothing
    ensures r.captured ==> r.state == IntervalState(Some(elapsed), true)
    ensures !r.captured ==> r.state == s
  {
    if !s.firstTaken then
      if elapsed >= FirstCaptureAt then IntervalResult(IntervalState(Some(elapsed), true), true)
      else IntervalResult(s, false)
    else if s.lastShot.Some? && elapsed - s.lastShot.value >= CaptureInterval then
      IntervalResult(IntervalState(Some(elapsed), true), true)
    else IntervalResult(s, false)
  }

  /** The times of the screenshots taken over frames at the given elapsed
      times, and the state after them. */
  datatype IntervalRun = IntervalRun(state: IntervalState, shots: seq<real>)

  function RunIntervals(s: IntervalState, times: seq<real>): (r: IntervalRun)
    ensures |r.shots| <= |times|
    // every screenshot is taken at the time of one of the frames
    ensures forall k :: 0 <= k < |r.shots| ==> r.shots[k] in times
    decreases |times|
  {
    if |times| == 0 then IntervalRun(s, [])
    else
      var step := IntervalStep(s, times[0]);
      var rest := RunIntervals(step.state, times[1..]);
      IntervalRun(rest.state, (if step.captured then [times[0]] else []) + rest.shots)
  }

  /** Over any sequence of frames, from a consistent state, the first
      screenshot comes no earlier than 4.96 seconds (or 4.9 seconds after
      the previous one) and consecutive screenshots are at least 4.9 seconds
      apart, whatever the frames' times. */
  lemma {:induction false} ScreenshotsSpaced(s: IntervalState, times: seq<real>)
    requires Consistent(s)
    ensures var shots := RunIntervals(s, times).shots;
            (|shots| > 0 && !s.firstTaken ==> shots[0] >= FirstCaptureAt) &&
            (|shots| > 0 && s.firstTaken ==> shots[0] - s.lastShot.value >= CaptureInterval) &&
            (forall i :: 0 <= i < |shots| - 1 ==> shots[i + 1] - shots[i] >= CaptureInterval)
    decreases |times|
  {
    if |times| > 0 {
      var step := IntervalStep(s, times[0]);
      ScreenshotsSpaced(step.state, times[1..]);
      var rest := RunIntervals(step.state, times[1..]).shots;
      var shots := RunIntervals(s, times).shots;
      if step.captured {
        assert shots == [times[0]] + rest;
        assert forall i :: 1 <= i < |shots| - 1 ==> shots[i + 1] - shots[i] >= CaptureInterval by {
          forall i | 1 <= i < |shots| - 1
            ensures shots[i + 1] - shots[i] >= CaptureInterval
          {
            assert shots[i] == rest[i - 1] && shots[i + 1] == rest[i];
          }
        }
      } else {
        assert shots == rest;
      }
    }
  }

  /** The seconds per frame: the reciprocal of the frame rate, or 0.033 when
      the video reports none. */
  function FrameDuration(fps: real): (r: real)
    ensures r > 0.0
    ensures fps > 0.0 ==> r * fps == 1.0
  {
    if fps > 0.0 then 1.0 / fps else 0.033
  }

  /** The playback position after syncing with the clock: the frame due at
      `elapsed`, truncated, but only if that is ahead of the current one. */
  function SeekTarget(elapsed: real, frameDuration: real, current: int): (r: int)
    requires frameDuration > 0.0
    ensures r >= current
    ensures r == current || r == Trunc(elapsed / frameDuration)
    ensures Trunc(elapsed / frameDuration) > current ==> r == Trunc(elapsed / frameDuration)
  {
    var expected := Trunc(elapsed / frameDuration);
    if expected > current then expected else current
  }

  /** The frame rate shown and logged: 1000 over the frame's processing time
      in milliseconds, or 0 when that time is missing or not positive. */
  function Fps(totalMs: Option<real>): (r: real)
    ensures totalMs.Some? && totalMs.value > 0.0 ==> r * totalMs.value == 1000.0
    ensures !(totalMs.Some? && totalMs.value > 0.0) ==> r == 0.0
  {
    if totalMs.Some? && totalMs.value > 0.0 then 1000.0 / totalMs.value else 0.0
  }

  /** One line of the FPS history file. */
  datatype FpsLogRow = FpsLogRow(time: real, fps: real, status: string)

  /** The status column: "yes" exactly for a frame that was captured. */
  function Status(captured: bool): (r: string)
    ensures r == "yes" <==> captured
    ensures r == "no" <==> !captured
  {
    if captured then "yes" else "no"
  }

  /** The rows `save_screenshot` appends: the anomaly detections of the frame
      in order, then the defect detections found on the screenshot, whose
      class index is shifted up by one (the name stays the one of the
      unshifted index). */
  function CombinedRows(anomalies: seq<Detection>, defects: seq<Detection>, imagePath: string)
    : (r: seq<AnnotationRow>)
    ensures |r| == |anomalies| + |defects|
    ensures forall k :: 0 <= k < |anomalies| ==> r[k] == AnnotationOf(anomalies[k], imagePath, 0)
    ensures forall k :: 0 <= k < |defects| ==> r[|anomalies| + k] == AnnotationOf(defects[k], imagePath, 1)
  {
    seq(|anomalies|, k requires 0 <= k < |anomalies| => AnnotationOf(anomalies[k], imagePath, 0)) +
    seq(|defects|, k requires 0 <= k < |defects| => AnnotationOf(defects[k], imagePath, 1))
  }

  /** The two loops of `save_screenshot` that assemble its rows. */
  method ScreenshotRows(anomalies: seq<Detection>, defects: seq<Detection>, imagePath: string)
    returns (rows: seq<AnnotationRow>)
    ensures rows == CombinedRows(anomalies, defects, imagePath)
  {
    rows := [];
    for i := 0 to |anomalies|
      invariant |rows| == i
      invariant forall k :: 0 <= k < i ==> rows[k] == AnnotationOf(anomalies[k], imagePath, 0)
    {
      rows := rows + [AnnotationOf(anomalies[i], imagePath, 0)];
    }
    for i := 0 to |defects|
      invariant |rows| == |anomalies| + i
      invariant forall k :: 0 <= k < |anomalies| ==> rows[k] == AnnotationOf(anomalies[k], imagePath, 0)
      invariant forall k :: 0 <= k < i ==> rows[|anomalies| + k] == AnnotationOf(defects[k], imagePath, 1)
    {
      rows := rows + [AnnotationOf(defects[i], imagePath, 1)];
    }
    var spec := CombinedRows(anomalies, defects, imagePath);
    assert forall k :: 0 <= k < |rows| ==> rows[k] == spec[k] by {
      forall k | 0 <= k < |rows|
        ensures rows[k] == spec[k]
      {
        if k >= |anomalies| {
          assert spec[|anomalies| + (k - |anomalies|)] == AnnotationOf(defects[k - |anomalies|], imagePath, 1);
        }
      }
    }
  }

  /** The contents of the file at `path`, or None when it does not exist. */
  function FileAt(files: map<string, seq<CsvLine>>, path: string): Option<seq<CsvLine>>
  {
    if path in files then Some(files[path]) else None
  }

  /** The page's playback and capture fields, its FPS history and the
      annotation files it has written. */
  class IntervalCapturePage {
    var selectedVideo: Option<string>
    var playing: bool
    var startTime: real
    var frameDuration: real
    /** The playback position, in frames. */
    var position: int
    var lastShot: Option<real>
    var firstTaken: bool
    var screenshotTaken: bool
    /** The FPS history of the current run. */
    var fpsLog: seq<FpsLogRow>
    /** Where the current run's annotations go. */
    var annotationPath: string
    /** The annotation files, by path. */
    var files: map<string, seq<CsvLine>>

    function State(): IntervalState
      reads this
    {
      IntervalState(lastShot, firstTaken)
    }

    ghost predicate Valid()
      reads this
    {
      Consistent(State()) && frameDuration > 0.0 && position >= 0
    }

    constructor ()
      ensures Valid() && selectedVideo.None? && !playing && State() == InitialInterval
      ensures fpsLog == [] && files == map[]
    {
      selectedVideo := None;
      playing := false;
      startTime := 0.0;
      frameDuration := 0.033;
      position := 0;
      lastShot := None;
      firstTaken := false;
      screenshotTaken := false;
      fpsLog := [];
      annotationPath := "";
      files := map[];
    }

    /** `start_detection` at time `now` on a video reporting `fps` frames per
        second; `annotationPath` is the run's new annotation file. Without a
        selected video nothing happens. */
    method StartDetection(now: real, fps: real, annotationPath': string)
      requires Valid()
      modifies this
      ensures Valid()
      ensures selectedVideo.None? ==>
                playing == old(playing) && State() == old(State()) && fpsLog == old(fpsLog) &&
                annotationPath == old(annotationPath)
      ensures selectedVideo.Some? ==>
                playing && startTime == now && frameDuration == FrameDuration(fps) && position == 0 &&
                State() == InitialInterval && fpsLog == [] && annotationPath == annotationPath'
      ensures selectedVideo == old(selectedVideo) && files == old(files)
    {
      if selectedVideo.None? {
        return;
      }
      frameDuration := FrameDuration(fps);
      playing := true;
      startTime := now;
      position := 0;
      fpsLog := [];
      annotationPath := annotationPath';
      lastShot := None;
      firstTaken := false;
    }

    /** One timer tick of `process_video` at time `now`. `frameRead` says
        whether a frame could be read at the synced position; `dets` are the
        anomaly detections on it, `totalMs` the detector's processing time
        when reported, `defects` the defect detections on the screenshot and
        `imagePath` the screenshot's file. Returns whether a screenshot was
        taken. */
    method ProcessFrame(now: real, frameRead: bool, dets: seq<Detection>, totalMs: Option<real>,
                        defects: seq<Detection>, imagePath: string)
      returns (captured: bool)
      requires Valid()
      modifies this
      ensures Valid()
      // nothing happens when stopped or paused
      ensures !old(playing) ==> !captured && State() == old(State()) && !playing &&
                                fpsLog == old(fpsLog) && files == old(files) && position == old(position)
      // playback only ever seeks forward
      ensures old(playing) ==> position >= old(position)
      // the end of the video stops playback without a capture
      ensures old(playing) && !frameRead ==>
                !captured && !playing && State() == old(State()) && fpsLog == old(fpsLog) && files == old(files)
      ensures old(playing) && frameRead ==>
                var elapsed := now - old(startTime);
                IntervalResult(State(), captured) == IntervalStep(old(State()), elapsed) &&
                playing && screenshotTaken == captured &&
                fpsLog == old(fpsLog) + [FpsLogRow(elapsed, Fps(totalMs), Status(captured))]
      // a screenshot appends its rows to the run's annotation file
      ensures old(playing) && captured ==>
                files == old(files)[annotationPath :=
                  AppendAnnotations(FileAt(old(files), annotationPath), CombinedRows(dets, defects, imagePath))]
      ensures !captured ==> files == old(files)
      ensures selectedVideo == old(selectedVideo) && annotationPath == old(annotationPath)
    {
      captured := false;
      if !playing {
        return;
      }
      var elapsed := now - startTime;
      position := SeekTarget(elapsed, frameDuration, position);
      if !frameRead {
        playing := false;
        return;
      }
      position := position + 1;
      CaptureIfDue(elapsed, dets, defects, imagePath);
      fpsLog := fpsLog + [FpsLogRow(elapsed, Fps(totalMs), Status(screenshotTaken))];
      captured := screenshotTaken;
    }

    /** The capture decision of `process_video` for a frame at `elapsed`
        seconds of playback: the first screenshot from 4.96 seconds on, each
        further one 4.9 seconds after the previous. */
    method CaptureIfDue(elapsed: real, dets: seq<Detection>, defects: seq<Detection>, imagePath: string)
      modifies `lastShot, `firstTaken, `screenshotTaken, `files
      ensures IntervalResult(State(), screenshotTaken) == IntervalStep(old(State()), elapsed)
      ensures screenshotTaken ==>
                files == old(files)[annotationPath :=
                  AppendAnnotations(FileAt(old(files), annotationPath), CombinedRows(dets, defects, imagePath))]
      ensures !screenshotTaken ==> files == old(files)
    {
      screenshotTaken := false;
      if !firstTaken {
        if elapsed >= FirstCaptureAt {
          SaveScreenshot(dets, defects, imagePath);
          lastShot := Some(elapsed);
          firstTaken := true;
          screenshotTaken := true;
        }
      } else if lastShot.Some? && elapsed - lastShot.value >= CaptureInterval {
        SaveScreenshot(dets, defects, imagePath);
        lastShot := Some(elapsed);
        screenshotTaken := true;
      }
    }

    /** The annotation part of `save_screenshot`: the rows go to the end of
        the run's annotation file, under a header when the file is new. */
    method SaveScreenshot(anomalies: seq<Detection>, defects: seq<Detection>, imagePath: string)
      modifies `files
      ensures files == old(files)[annotationPath :=
                AppendAnnotations(FileAt(old(files), annotationPath), CombinedRows(anomalies, defects, imagePath))]
    {
      var rows := ScreenshotRows(anomalies, defects, imagePath);
      var file := FileAt(files, annotationPath);
      files := files[annotationPath := AppendAnnotations(file, rows)];
    }
  }
}

=== FILE: login_page.dfy ===
/** The login gate. The entered credentials are stored first; a username
    shorter than 8 characters, then a password shorter than 8, is refused
    with a warning before any credential check; the authentication service
    is asked only about credentials that pass both, and a login succeeds
    only when it answers exactly `True`. A successful login looks up the
    user's id, then the role, records the session, looks up the operation
    id and opens the menu, in that order. */
module LoginPage {
  import opened Basics

  /** The warnings the gate shows. */
  datatype LoginWarning =
    | InvalidUsername   // "Please enter a valid username"
    | InvalidPassword   // "Please enter a valid password"
    | WrongCredentials  // "Please enter a correct username and password."

  /** What the authentication service answered: `True`, `False`, or any
      other value (which the gate does not accept as success). */
  datatype AuthAnswer = AuthTrue | AuthFalse | AuthOther

  /** The effects of a login attempt outside the page, in the order they
      happen. */
  datatype LoginEffect =
    | Authenticate(username: string, password: string)
    | LookUpUserId(username: string)
    | LookUpRole(userId: int)
    | LogSession(userId: int)
    | LookUpOperation(userId: int)
    | OpenMenu
    | Warn(warning: LoginWarning)

  /** Least length of an acceptable username or password. */
  const MinCredentialLength := 8

  /** The effects of one attempt with `username` and `password`, when the
      service answers `answer` and the database knows the user as `userId`. */
  function LoginEffects(username: string, password: string, answer: AuthAnswer, userId: int)
    : (r: seq<LoginEffect>)
    // a short username is refused before anything else is looked at
    ensures |username| < MinCredentialLength ==> r == [Warn(InvalidUsername)]
    // a short password is refused without asking the service
    ensures |username| >= MinCredentialLength && |password| < MinCredentialLength ==>
              r == [Warn(InvalidPassword)]
    // the service is asked exactly when both are long enough, and first
    ensures (|r| > 0 && r[0] == Authenticate(username, password)) <==>
              |username| >= MinCredentialLength && |password| >= MinCredentialLength
    // the menu opens exactly when the service answered True
    ensures OpenMenu in r <==>
              |username| >= MinCredentialLength && |password| >= MinCredentialLength && answer == AuthTrue
    // any other answer is a warning, and nothing about the user is recorded
    ensures |username| >= MinCredentialLength && |password| >= MinCredentialLength && answer != AuthTrue ==>
              r == [Authenticate(username, password), Warn(WrongCredentials)]
    // a successful login looks up the user id, then the role, records the
    // session, looks up the operation id and opens the menu last
    ensures OpenMenu in r ==>
              r == [Authenticate(username, password), LookUpUserId(username), LookUpRole(userId),
                    LogSession(userId), LookUpOperation(userId), OpenMenu]
    // every attempt either opens the menu or ends in exactly one warning
    ensures OpenMenu !in r <==> exists w :: r[|r| - 1] == Warn(w)
  {
    if |username| >= MinCredentialLength then
      if |password| >= MinCredentialLength then
        if answer == AuthTrue then
          [Authenticate(username, password), LookUpUserId(username), LookUpRole(userId),
           LogSession(userId), LookUpOperation(userId), OpenMenu]
        else
          [Authenticate(username, password), Warn(WrongCredentials)]
      else
        [Warn(InvalidPassword)]
    else
      [Warn(InvalidUsername)]
  }

  /** The login window's stored credentials and session fields, and the
      effects of all attempts so far. */
  class LoginWindow {
    var username: string
    var password: string
    /** The session fields, absent until a login succeeds. */
    var userId: Option<int>
    var role: Option<string>
    var operationId: Option<int>
    ghost var effects: seq<LoginEffect>

    constructor ()
      ensures username == "" && password == "" && effects == []
      ensures userId.None? && role.None? && operationId.None?
    {
      username := "";
      password := "";
      userId := None;
      role := None;
      operationId := None;
      effects := [];
    }

    /** `handle_login` with the texts of the two inputs. `answer` is what
        the service says about them, and `dbUserId`, `dbRole` and
        `dbOperation` what the database returns for this user. */
    method HandleLogin(usernameInput: string, passwordInput: string, answer: AuthAnswer,
                       dbUserId: int, dbRole: string, dbOperation: int)
      returns (success: bool)
      modifies this
      // the credentials are stored whatever happens next
      ensures username == usernameInput && password == passwordInput
      ensures effects == old(effects) + LoginEffects(usernameInput, passwordInput, answer, dbUserId)
      ensures success <==> OpenMenu in LoginEffects(usernameInput, passwordInput, answer, dbUserId)
      ensures success ==> userId == Some(dbUserId) && role == Some(dbRole) && operationId == Some(dbOperation)
      ensures !success ==> userId == old(userId) && role == old(role) && operationId == old(operationId)
    {
      username := usernameInput;
      password := passwordInput;
      success := false;
      if |username| >= MinCredentialLength {
        if |password| >= MinCredentialLength {
          effects := effects + [Authenticate(username, password)];
          if answer == AuthTrue {
            effects := effects + [LookUpUserId(username)];
            userId := Some(dbUserId);
            effects := effects + [LookUpRole(dbUserId)];
            role := Some(dbRole);
            effects := effects + [LogSession(dbUserId)];
            effects := effects + [LookUpOperation(dbUserId)];
            operationId := Some(dbOperation);
            effects := effects + [OpenMenu];
            success := true;
          } else {
            effects := effects + [Warn(WrongCredentials)];
          }
        } else {
          effects := effects + [Warn(InvalidPassword)];
        }
      } else {
        effects := effects + [Warn(InvalidUsername)];
      }
    }
  }
}

=== FILE: mouse_handler.dfy ===
/** Mouse handling on the image: the handle hit test, the hover cursor,
    and the press / move / release dispatch to the gesture steps. */
module MouseHandler {
  import opened Basics
  import opened BoundingBoxManager
  import opened CursorHandler
  import opened LabelAnnotator
  import opened BoxOperations
  import opened FreshIds

  /** Whether handle `e` of box `c` is within `t` pixels of `p`: a corner
      within `t` on both axes, a side within `t` across it and inside its
      closed span along it. */
  predicate EdgeHit(c: Coords, e: Edge, p: Point, t: int)
  {
    match e
    case TopLeft => Abs(p.x - c.x1) <= t && Abs(p.y - c.y1) <= t
    case TopRight => Abs(p.x - c.x2) <= t && Abs(p.y - c.y1) <= t
    case BottomLeft => Abs(p.x - c.x1) <= t && Abs(p.y - c.y2) <= t
    case BottomRight => Abs(p.x - c.x2) <= t && Abs(p.y - c.y2) <= t
    case Left => Abs(p.x - c.x1) <= t && c.y1 <= p.y <= c.y2
    case Right => Abs(p.x - c.x2) <= t && c.y1 <= p.y <= c.y2
    case Top => Abs(p.y - c.y1) <= t && c.x1 <= p.x <= c.x2
    case Bottom => Abs(p.y - c.y2) <= t && c.x1 <= p.x <= c.x2
  }

  /** The order in which the handles of one box are tested: corners first. */
  const TagOrder: seq<Edge> := [TopLeft, TopRight, BottomLeft, BottomRight, Left, Right, Top, Bottom]

  predicate IsCorner(e: Edge)
  {
    e == TopLeft || e == TopRight || e == BottomLeft || e == BottomRight
  }

  lemma AllTagsListed()
    ensures forall e: Edge :: e in TagOrder
  {
    forall e: Edge
      ensures e in TagOrder
    {
      match e
      case TopLeft => assert TagOrder[0] == e;
      case TopRight => assert TagOrder[1] == e;
      case BottomLeft => assert TagOrder[2] == e;
      case BottomRight => assert TagOrder[3] == e;
      case Left => assert TagOrder[4] == e;
      case Right => assert TagOrder[5] == e;
      case Top => assert TagOrder[6] == e;
      case Bottom => assert TagOrder[7] == e;
    }
  }

  /** Index of the first tag of `tags` that `p` hits on box `c`. */
  function FirstHit(c: Coords, p: Point, tags: seq<Edge>): (r: Option<nat>)
    ensures r.Some? ==> r.value < |tags| && EdgeHit(c, tags[r.value], p, EdgeThreshold)
    ensures r.Some? ==> forall j :: 0 <= j < r.value ==> !EdgeHit(c, tags[j], p, EdgeThreshold)
    ensures r.None? ==> forall j :: 0 <= j < |tags| ==> !EdgeHit(c, tags[j], p, EdgeThreshold)
    decreases |tags|
  {
    if |tags| == 0 then None
    else if EdgeHit(c, tags[0], p, EdgeThreshold) then Some(0)
    else match FirstHit(c, p, tags[1..])
      case None => None
      case Some(k) => Some(k + 1)
  }

  /** Some handle of box `c` is within the threshold of `p`. */
  predicate NearHandle(c: Coords, p: Point)
  {
    exists e: Edge :: EdgeHit(c, e, p, EdgeThreshold)
  }

  /** The handle of box `c` under `p`, testing the tags in `TagOrder`. */
  function FirstTag(c: Coords, p: Point): Option<Edge>
  {
    match FirstHit(c, p, TagOrder)
    case None => None
    case Some(k) => Some(TagOrder[k])
  }

  /** A handle is reported exactly when some handle is within the
      threshold, and the reported handle is hit. */
  lemma FirstTagMeaning(c: Coords, p: Point)
    ensures FirstTag(c, p).None? <==> !NearHandle(c, p)
    ensures FirstTag(c, p).Some? ==> EdgeHit(c, FirstTag(c, p).value, p, EdgeThreshold)
  {
    AllTagsListed();
  }

  /** Corners beat sides: a side is reported only when no corner is hit. */
  lemma CornerBeatsSide(c: Coords, p: Point)
    ensures FirstTag(c, p).Some? && !IsCorner(FirstTag(c, p).value) ==>
              forall e :: IsCorner(e) ==> !EdgeHit(c, e, p, EdgeThreshold)
    ensures (exists e :: IsCorner(e) && EdgeHit(c, e, p, EdgeThreshold)) ==>
              FirstTag(c, p).Some? && IsCorner(FirstTag(c, p).value)
  {
    var r := FirstHit(c, p, TagOrder);
    if r.Some? && !IsCorner(TagOrder[r.value]) {
      assert 4 <= r.value;
      assert forall e :: IsCorner(e) ==> e == TagOrder[0] || e == TagOrder[1] || e == TagOrder[2] || e == TagOrder[3];
    }
  }

  /** `_check_box_edge`: the first box, from index 0 up, with a handle
      under `p`, and that handle. */
  function CheckBoxEdge(boxes: seq<Box>, p: Point): (r: Option<(nat, Edge)>)
    ensures r.Some? ==> r.value.0 < |boxes| && FirstTag(boxes[r.value.0].coords, p) == Some(r.value.1)
    ensures r.Some? ==> forall j :: 0 <= j < r.value.0 ==> FirstTag(boxes[j].coords, p).None?
    ensures r.None? <==> forall j :: 0 <= j < |boxes| ==> FirstTag(boxes[j].coords, p).None?
  {
    var hs := HandlesUnder(boxes, p);
    CheckFrom(hs, 0)
  }

  /** The handle under `p` of every box, in store order. */
  function HandlesUnder(boxes: seq<Box>, p: Point): (hs: seq<Option<Edge>>)
    ensures |hs| == |boxes|
    ensures forall j :: 0 <= j < |boxes| ==> hs[j] == FirstTag(boxes[j].coords, p)
  {
    seq(|boxes|, j requires 0 <= j < |boxes| => FirstTag(boxes[j].coords, p))
  }

  /** The scan of `_check_box_edge` over the boxes' handles from index
      `from` on: the first box that has one. */
  function CheckFrom(hs: seq<Option<Edge>>, from: nat): (r: Option<(nat, Edge)>)
    requires from <= |hs|
    ensures r.Some? ==> from <= r.value.0 < |hs| && hs[r.value.0] == Some(r.value.1)
    ensures r.Some? ==> forall j :: from <= j < r.value.0 ==> hs[j].None?
    ensures r.None? <==> forall j :: from <= j < |hs| ==> hs[j].None?
    decreases |hs| - from
  {
    if from == |hs| then None
    else match hs[from]
      case Some(e) => Some((from, e))
      case None => CheckFrom(hs, from + 1)
  }

  /** The handle test favours the lowest index while the interior test
      favours the highest: with handles of two boxes under the mouse, the
      earlier box is picked. */
  lemma EarliestBoxWins(boxes: seq<Box>, p: Point, i: nat)
    requires i < |boxes| && FirstTag(boxes[i].coords, p).Some?
    ensures CheckBoxEdge(boxes, p).Some? && CheckBoxEdge(boxes, p).value.0 <= i
  {
  }

  /** `_update_cursor_style`'s choice: the handle's cursor over a handle,
      the pointing hand inside a box, the arrow elsewhere. */
  function HoverCursor(boxes: seq<Box>, p: Point): Cursor
  {
    match CheckBoxEdge(boxes, p)
    case Some(hit) => CursorFor(Some(hit.1))
    case None => if TopmostContaining(boxes, p) != -1 then PointingHand else Arrow
  }

  /** The arrow shows exactly when the mouse is over no handle and no box,
      and the pointing hand exactly when it is over a box but no handle. */
  lemma HoverCursorMeaning(boxes: seq<Box>, p: Point)
    ensures HoverCursor(boxes, p) == Arrow <==>
              (forall j :: 0 <= j < |boxes| ==> FirstTag(boxes[j].coords, p).None? && !Contains(boxes[j].coords, p))
    ensures HoverCursor(boxes, p) == PointingHand <==>
              (forall j :: 0 <= j < |boxes| ==> FirstTag(boxes[j].coords, p).None?) &&
              (exists j :: 0 <= j < |boxes| && Contains(boxes[j].coords, p))
  {
  }

  /** `_update_cursor_style`. */
  method UpdateCursorStyle(a: Annotator, pos: Point)
    modifies a`cursor
    ensures a.cursor == HoverCursor(a.store.boxes, pos)
    ensures a.Gesture() == old(a.Gesture()) && a.View() == old(a.View())
    ensures a.warnings == old(a.warnings) && a.dbUpdates == old(a.dbUpdates)
  {
    var hit := CheckBoxEdge(a.store.boxes, pos);
    if hit.Some? {
      a.cursor := CursorFor(Some(hit.value.1));
    } else {
      var index := a.store.GetBoxContaining(pos);
      a.cursor := if index != -1 then PointingHand else Arrow;
    }
  }

  /** The effect of `handle_press` at `pos`, from state `s` to state `t`: a
      handle under the mouse starts resizing its box; otherwise the topmost
      box under it starts dragging; otherwise drawing starts. The box that
      the gesture is about becomes the selection (none for drawing), and
      nothing else changes. */
  predicate Pressed(s: Snapshot, t: Snapshot, pos: Point)
  {
    t.boxes == s.boxes && t.view == s.view && t.cursor == s.cursor &&
    t.warnings == s.warnings && t.dbUpdates == s.dbUpdates && TableKept(s, t) &&
    var hit := CheckBoxEdge(s.boxes, pos);
    var i := TopmostContaining(s.boxes, pos);
    if hit.Some? then
      t.gesture == s.gesture.(resizing := true, resizeIndex := Some(hit.value.0), resizeEdge := Some(hit.value.1)) &&
      t.selected == hit.value.0
    else if i != -1 then
      t.gesture == s.gesture.(dragging := true, dragIndex := Some(i), dragStart := Some(pos)) &&
      t.selected == i
    else
      t.gesture == s.gesture.(drawing := true, startPoint := Some(pos)) && t.selected == -1
  }

  /** The effect of `handle_move` at `pos` on an image `s.view.image`: at
      most one gesture advances, drawing before resizing before dragging,
      and the table is rebuilt exactly when a box changed; the cursor then
      follows the mouse. The view, the selection, the warnings and the
      database are untouched. */
  predicate Moved(s: Snapshot, t: Snapshot, pos: Point)
    requires s.view.image.Some?
  {
    var d := s.view.image.value;
    var g := s.gesture;
    t.view == s.view && t.selected == s.selected && t.warnings == s.warnings &&
    t.dbUpdates == s.dbUpdates && t.cursor == HoverCursor(t.boxes, pos) &&
    if g.drawing then
      t.gesture == g.(endPoint := Some(pos)) && t.boxes == s.boxes && TableKept(s, t)
    else if g.resizing then
      t.gesture == g &&
      t.boxes == AfterResize(s.boxes, g.resizeIndex, g.resizeEdge, pos, d.width, d.height) &&
      if g.resizeIndex.Some? && g.resizeIndex.value < |s.boxes| then TableRebuilt(s, t, d) else TableKept(s, t)
    else if g.dragging && g.dragIndex.Some? && g.dragStart.Some? then
      t.boxes == AfterDrag(s.boxes, g.dragIndex.value, g.dragStart.value, pos, d.width, d.height) &&
      // the mouse becomes the drag's reference only when a box moved
      if 0 <= g.dragIndex.value < |s.boxes| then
        t.gesture == g.(dragStart := Some(pos)) && TableRebuilt(s, t, d)
      else
        t.gesture == g && TableKept(s, t)
    else
      t.gesture == g && t.boxes == s.boxes && TableKept(s, t)
  }

  /** The shared tail of `finish_resizing` and `finish_dragging`: the table
      is rebuilt and the selected box, when there is one, is written to the
      database. */
  predicate Pushed(s: Snapshot, t: Snapshot, d: Dims)
  {
    TableRebuilt(s, t, d) &&
    if 0 <= t.selected < |t.boxes| then t.dbUpdates == s.dbUpdates + [t.boxes[t.selected]]
    else t.dbUpdates == s.dbUpdates
  }

  /** The rectangle part of `finish_drawing` for the drawn rectangle `c`: a
      small one only warns; otherwise it is stored as drawn under an id not
      in `issued`, labelled "Anomaly", selected, and the table rebuilt. */
  predicate Drawn(s: Snapshot, t: Snapshot, c: Coords, issued: set<string>, d: Dims)
  {
    if TooSmall(c) then
      t.boxes == s.boxes && t.selected == s.selected &&
      t.warnings == s.warnings + [BoxTooSmall] && TableKept(s, t)
    else
      |t.boxes| == |s.boxes| + 1 && t.boxes[..|s.boxes|] == s.boxes &&
      t.boxes[|s.boxes|].coords == c && t.boxes[|s.boxes|].id !in issued &&
      t.boxes[|s.boxes|].classLabel == DrawnLabel &&
      t.selected == |s.boxes| && t.warnings == s.warnings && TableRebuilt(s, t, d)
  }

  /** The effect of `handle_release` at `pos` on an image `s.view.image`,
      with `issued` the ids handed out before: at most one gesture finishes,
      resizing before dragging before drawing. A finished resize or drag
      pushes the selection; a finished drawing stores the spanned rectangle.
      The view and the cursor are untouched. */
  predicate Released(s: Snapshot, t: Snapshot, pos: Point, issued: set<string>)
    requires s.view.image.Some?
  {
    var d := s.view.image.value;
    var g := s.gesture;
    t.view == s.view && t.cursor == s.cursor &&
    if g.resizing then
      t.gesture == g.(resizing := false, resizeIndex := None, resizeEdge := None) &&
      t.boxes == s.boxes && t.selected == s.selected && t.warnings == s.warnings && Pushed(s, t, d)
    else if g.dragging then
      t.gesture == g.(dragging := false, dragIndex := None, dragStart := None) &&
      t.boxes == s.boxes && t.selected == s.selected && t.warnings == s.warnings && Pushed(s, t, d)
    else if g.drawing && g.startPoint.Some? then
      t.gesture == g.(drawing := false, startPoint := None, endPoint := None) &&
      t.dbUpdates == s.dbUpdates && Drawn(s, t, Spanned(g.startPoint.value, pos), issued, d)
    else
      t == s
  }

  /** `handle_press`. */
  method HandlePress(a: Annotator, pos: Point) returns (handled: bool)
    requires a.Valid()
    modifies a, a.store
    ensures a.Valid() && handled
    ensures Pressed(old(a.State()), a.State(), pos)
  {
    var hit := CheckBoxEdge(a.store.boxes, pos);
    if hit.Some? {
      StartResizing(a, hit.value.0, hit.value.1);
      return true;
    }
    var index := a.store.GetBoxContaining(pos);
    if index != -1 {
      StartDragging(a, index, pos);
      return true;
    }
    StartDrawing(a, pos);
    return true;
  }

  /** `handle_move`. */
  method HandleMove(a: Annotator, pos: Point) returns (handled: bool)
    requires a.Valid() && a.image.Some?
    modifies a, a.store, a.table
    ensures a.Valid() && handled
    ensures Moved(old(a.State()), a.State(), pos)
  {
    if a.drawing {
      HandleDrawingMove(a, pos);
    } else if a.resizing {
      HandleResizingMove(a, pos);
    } else if a.dragging {
      HandleDraggingMove(a, pos);
    }
    UpdateCursorStyle(a, pos);
    return true;
  }

  /** `handle_release`. */
  method HandleRelease(a: Annotator, pos: Point, ids: IdOracle) returns (handled: bool)
    requires a.Valid() && a.image.Some? && ids.Valid()
    modifies a`resizing, a`resizeIndex, a`resizeEdge, a`dragging, a`dragIndex, a`dragStart,
             a`drawing, a`startPoint, a`endPoint, a`warnings, a`dbUpdates, a.store, a.table, ids
    ensures a.Valid() && ids.Valid() && handled
    ensures Released(old(a.State()), a.State(), pos, old(ids.issued))
  {
    if a.resizing {
      FinishResizing(a);
    } else if a.dragging {
      FinishDragging(a);
    } else if a.drawing {
      FinishDrawing(a, pos, ids);
    }
    return true;
  }
}

=== FILE: table_manager.dfy ===
/** The coordinates table beside the image: one row per stored box showing
    its 1-based number, id, class label and normalized centre/size, kept in
    step with the box store in both directions. */
module TableManager {
  import opened Basics
  import opened BoundingBoxManager

  /** A coordinate cell: a number, or text that `float()` rejects. */
  type Cell = Option<real>

  /** One table row; `locked` holds the columns the user may not edit. */
  datatype Row = Row(no: int, id: string, classLabel: string,
                     xCenter: Cell, yCenter: Cell, width: Cell, height: Cell,
                     locked: set<int>)

  /** The columns: 0 number, 1 id, 2 label, 3-6 the normalized box. */
  const LabelColumn := 2
  const FirstCoordColumn := 3
  const LastCoordColumn := 6

  /** The table widget's state that the application reads and writes. */
  class TableWidget {
    var rows: seq<Row>
    /** Top row of the first selected range, if anything is selected. */
    var selectedRow: Option<int>
    /** The row holding the current index, -1 for none. */
    var currentRow: int
    /** Geometry `(x, y, width, height)` inside the window. */
    var geomX: int
    var geomY: int
    var geomW: int
    var geomH: int

    constructor ()
      ensures rows == [] && selectedRow == None && currentRow == -1
    {
      rows := [];
      selectedRow := None;
      currentRow := -1;
    }
  }

  /** The `existing_labels` dictionary: id cell -> label cell over the first
      `k` rows, a later row overwriting an earlier one with the same id. */
  function LabelsOf(rows: seq<Row>, k: nat): (m: map<string, string>)
    requires k <= |rows|
    ensures forall id :: id in m <==> exists j :: 0 <= j < k && rows[j].id == id
  {
    if k == 0 then map[] else LabelsOf(rows, k - 1)[rows[k - 1].id := rows[k - 1].classLabel]
  }

  /** With distinct ids, every one of the first `k` rows contributes its own label. */
  lemma {:induction false} LabelsOfDistinct(rows: seq<Row>, k: nat, j: nat)
    requires k <= |rows| && j < k
    requires forall a, b :: 0 <= a < b < k ==> rows[a].id != rows[b].id
    ensures rows[j].id in LabelsOf(rows, k)
    ensures LabelsOf(rows, k)[rows[j].id] == rows[j].classLabel
  {
    var last := rows[k - 1];
    var m := LabelsOf(rows, k - 1);
    assert LabelsOf(rows, k) == m[last.id := last.classLabel];
    if j < k - 1 {
      // a later row with another id does not overwrite row j's label
      assert rows[j].id != last.id;
      LabelsOfDistinct(rows, k - 1, j);
      assert m[last.id := last.classLabel][rows[j].id] == m[rows[j].id];
    }
  }

  /** The label a rebuilt row shows: the one previously shown for the same
      id, otherwise the box's stored label. */
  function ShownLabel(b: Box, labels: map<string, string>): string
  {
    if b.id in labels then labels[b.id] else b.classLabel
  }

  /** The row `update_table` writes for the box at index `k`. */
  function RowFor(k: int, b: Box, labels: map<string, string>, w: Pos, h: Pos): (r: Row)
    ensures r.no == k + 1 && r.id == b.id && r.classLabel == ShownLabel(b, labels)
    ensures r.locked == {0, 1}
    ensures r.xCenter.Some? && r.yCenter.Some? && r.width.Some? && r.height.Some?
    ensures InImage(b.coords, w, h) ==>
              0.0 <= r.xCenter.value <= 1.0 && 0.0 <= r.yCenter.value <= 1.0 &&
              0.0 < r.width.value <= 1.0 && 0.0 < r.height.value <= 1.0
  {
    var n := ToNormalized(b.coords, w, h);
    Row(k + 1, b.id, ShownLabel(b, labels),
        Some(n.xCenter), Some(n.yCenter), Some(n.width), Some(n.height), {0, 1})
  }

  /** The rows `update_table` writes for `boxes` over an image of shape `d`,
      `before` being the rows shown until then: one row per box, in order,
      each showing its box with the label the table last showed for its id. */
  predicate ShowsBoxes(rows: seq<Row>, before: seq<Row>, boxes: seq<Box>, d: Dims)
  {
    |rows| == |boxes| &&
    forall k :: 0 <= k < |boxes| ==>
      rows[k] == RowFor(k, boxes[k], LabelsOf(before, Min(|before|, |boxes|)), d.width, d.height)
  }

  /** The current row after `setRowCount(count)`: rows are removed from
      the end, and Qt moves a current index on a removed row to the row
      just above the removed range, the new last row, or to none (-1) when
      no row is left. A current row that survives is kept; no current row
      stays none. */
  function CurrentAfterRowCount(current: int, count: nat): (r: int)
    ensures -1 <= r < count
    ensures 0 <= current < count ==> r == current
    ensures count <= current ==> r == count - 1
    ensures current < 0 || count == 0 ==> r == -1
  {
    if current < 0 then -1 else if current < count then current else count - 1
  }

  /** The selection `update_table` leaves on a table of `count` rows whose
      current row was `current`: the selected box's row is selected and
      current; with no selected box nothing is selected and the current row
      is what the row-count change left of `current`. */
  predicate ShowsSelection(selectedRow: Option<int>, currentRow: int, current: int, selected: int, count: nat)
  {
    (selected != -1 ==> selectedRow == Some(selected) && currentRow == selected) &&
    (selected == -1 ==> selectedRow == None && currentRow == CurrentAfterRowCount(current, count))
  }

  /** The four coordinate cells of a row, when all four parse. */
  function ParsedNorm(r: Row): (n: Option<Norm>)
    ensures n.Some? <==> r.xCenter.Some? && r.yCenter.Some? && r.width.Some? && r.height.Some?
  {
    if r.xCenter.Some? && r.yCenter.Some? && r.width.Some? && r.height.Some? then
      Some(Norm(r.xCenter.value, r.yCenter.value, r.width.value, r.height.value))
    else
      None
  }

  /** A rebuilt row shows exactly the box: its cells convert back to the
      stored coordinates (in exact arithmetic). */
  lemma {:induction false} RowShowsBox(k: int, b: Box, labels: map<string, string>, w: Pos, h: Pos)
    ensures ParsedNorm(RowFor(k, b, labels, w, h)).Some?
    ensures FromNormalized(ParsedNorm(RowFor(k, b, labels, w, h)).value, w, h) == b.coords
  {
    NormalizedRoundTrip(b.coords, w, h);
  }

  /** A table that shows the boxes numbers them from 1, lists their ids in
      store order, and its cells give every box's coordinates back. */
  lemma {:induction false} ShownTableGivesBoxes(rows: seq<Row>, before: seq<Row>, boxes: seq<Box>, d: Dims)
    requires ShowsBoxes(rows, before, boxes, d)
    ensures |rows| == |boxes|
    ensures forall k :: 0 <= k < |rows| ==>
              rows[k].no == k + 1 && rows[k].id == boxes[k].id && ParsedNorm(rows[k]).Some? &&
              FromNormalized(ParsedNorm(rows[k]).value, d.width, d.height) == boxes[k].coords
  {
    var labels := LabelsOf(before, Min(|before|, |boxes|));
    forall k | 0 <= k < |rows|
      ensures rows[k].no == k + 1 && rows[k].id == boxes[k].id && ParsedNorm(rows[k]).Some? &&
              FromNormalized(ParsedNorm(rows[k]).value, d.width, d.height) == boxes[k].coords
    {
      RowShowsBox(k, boxes[k], labels, d.width, d.height);
    }
  }

  /** The clamping of an edited row: centres into `[0, 1]`, sizes into `[0.01, 1]`. */
  function ClampNorm(n: Norm): (r: Norm)
    ensures 0.0 <= r.xCenter <= 1.0 && 0.0 <= r.yCenter <= 1.0
    ensures 0.01 <= r.width <= 1.0 && 0.01 <= r.height <= 1.0
    ensures 0.0 <= n.xCenter <= 1.0 ==> r.xCenter == n.xCenter
    ensures 0.0 <= n.yCenter <= 1.0 ==> r.yCenter == n.yCenter
    ensures 0.01 <= n.width <= 1.0 ==> r.width == n.width
    ensures 0.01 <= n.height <= 1.0 ==> r.height == n.height
  {
    Norm(RClamp(n.xCenter, 0.0, 1.0), RClamp(n.yCenter, 0.0, 1.0),
         RClamp(n.width, 0.01, 1.0), RClamp(n.height, 0.01, 1.0))
  }

  /** Rebuilds every row from the store (`update_table`). Without an image
      nothing happens. */
  method UpdateTable(store: BoxManager, table: TableWidget, image: Option<Dims>)
    requires store.Valid()
    modifies table
    ensures image.None? ==>
              table.rows == old(table.rows) && table.selectedRow == old(table.selectedRow) &&
              table.currentRow == old(table.currentRow)
    ensures image.Some? ==> ShowsBoxes(table.rows, old(table.rows), store.boxes, image.value)
    ensures image.Some? ==>
              ShowsSelection(table.selectedRow, table.currentRow, old(table.currentRow), store.selected, |store.boxes|)
    ensures table.geomX == old(table.geomX) && table.geomY == old(table.geomY)
    ensures table.geomW == old(table.geomW) && table.geomH == old(table.geomH)
  {
    if image.None? {
      return;
    }
    var w, h := image.value.width, image.value.height;
    // remember the labels currently shown, keyed by box id, then rewrite every row
    var labels := ShownLabels(table.rows, |store.boxes|);
    var newRows := BuildRows(store.boxes, labels, w, h);
    table.rows := newRows;
    // setRowCount drops the rows past the boxes, and the current index with them
    table.currentRow := CurrentAfterRowCount(table.currentRow, |newRows|);
    if 0 <= store.selected < |store.boxes| {
      table.selectedRow := Some(store.selected);
      table.currentRow := store.selected;
    } else {
      table.selectedRow := None;
    }
  }

  /** The first loop of `update_table`: the label of every row that still
      has a box, keyed by the row's id. */
  method ShownLabels(rows: seq<Row>, boxCount: nat) returns (labels: map<string, string>)
    ensures labels == LabelsOf(rows, Min(|rows|, boxCount))
  {
    labels := map[];
    var row := 0;
    while row < |rows|
      invariant 0 <= row <= |rows|
      invariant labels == LabelsOf(rows, Min(row, boxCount))
    {
      if row < boxCount {
        labels := labels[rows[row].id := rows[row].classLabel];
      }
      row := row + 1;
    }
  }

  /** The second loop of `update_table`: row `k` shows box `k` numbered from
      1, its remembered label and its normalized box. */
  method BuildRows(boxes: seq<Box>, labels: map<string, string>, w: Pos, h: Pos) returns (rows: seq<Row>)
    ensures |rows| == |boxes|
    ensures forall j :: 0 <= j < |boxes| ==> rows[j] == RowFor(j, boxes[j], labels, w, h)
  {
    rows := [];
    var k := 0;
    while k < |boxes|
      invariant 0 <= k <= |boxes|
      invariant |rows| == k
      invariant forall j :: 0 <= j < k ==> rows[j] == RowFor(j, boxes[j], labels, w, h)
    {
      var n := ToNormalized(boxes[k].coords, w, h);
      var shown := if boxes[k].id in labels then labels[boxes[k].id] else boxes[k].classLabel;
      rows := rows + [Row(k + 1, boxes[k].id, shown,
                          Some(n.xCenter), Some(n.yCenter), Some(n.width), Some(n.height), {0, 1})];
      k := k + 1;
    }
  }

  /** A rebuild keeps a label the user typed: when the table showed the
      boxes in order before and ids are distinct, each box that already had
      a row keeps that row's label, and a new box shows its stored label. */
  lemma {:induction false} RebuildKeepsTypedLabels(old_rows: seq<Row>, boxes: seq<Box>, k: nat)
    requires k < |boxes|
    requires forall j :: 0 <= j < |old_rows| && j < |boxes| ==> old_rows[j].id == boxes[j].id
    requires forall a, b :: 0 <= a < b < |boxes| ==> boxes[a].id != boxes[b].id
    ensures k < |old_rows| ==>
              ShownLabel(boxes[k], LabelsOf(old_rows, Min(|old_rows|, |boxes|))) == old_rows[k].classLabel
    ensures |old_rows| <= k ==>
              ShownLabel(boxes[k], LabelsOf(old_rows, Min(|old_rows|, |boxes|))) == boxes[k].classLabel
  {
    var m := Min(|old_rows|, |boxes|);
    if k < |old_rows| {
      LabelsOfDistinct(old_rows, m, k);
    }
  }

  /** `on_table_cell_changed`: a label edit (column 2) renames the box; a
      coordinate edit (columns 3-6) clamps the four values, stores the box
      they describe and shows the clamped values; text that is not a number
      warns and rebuilds the table instead. Other rows and columns, no image,
      or a row the table does not have, change nothing. */
  method OnTableCellChanged(store: BoxManager, table: TableWidget, image: Option<Dims>, row: int, col: int)
    returns (warning: Option<Warning>)
    requires store.Valid()
    modifies store, table
    ensures store.Valid() && store.selected == old(store.selected)
    ensures |store.boxes| == |old(store.boxes)|
    ensures warning.Some? ==> warning == Some(InvalidCoordinates)
    ensures !(0 <= row < |old(store.boxes)| && LabelColumn <= col <= LastCoordColumn &&
              image.Some? && row < |old(table.rows)|) ==>
              warning.None? && store.boxes == old(store.boxes) && table.rows == old(table.rows)
    ensures 0 <= row < |old(store.boxes)| && row < |old(table.rows)| && image.Some? && col == LabelColumn ==>
              warning.None? && table.rows == old(table.rows) &&
              store.boxes == old(store.boxes)[row := old(store.boxes)[row].(classLabel := old(table.rows)[row].classLabel)]
    ensures 0 <= row < |old(store.boxes)| && row < |old(table.rows)| && image.Some? &&
            FirstCoordColumn <= col <= LastCoordColumn && ParsedNorm(old(table.rows)[row]).Some? ==>
              var n := ClampNorm(ParsedNorm(old(table.rows)[row]).value);
              warning.None? &&
              store.boxes == old(store.boxes)[row := old(store.boxes)[row].(
                coords := FromNormalized(n, image.value.width, image.value.height))] &&
              table.rows == old(table.rows)[row := old(table.rows)[row].(
                xCenter := Some(n.xCenter), yCenter := Some(n.yCenter),
                width := Some(n.width), height := Some(n.height))]
    ensures warning.Some? <==>
              0 <= row < |old(store.boxes)| && row < |old(table.rows)| && image.Some? &&
              FirstCoordColumn <= col <= LastCoordColumn && ParsedNorm(old(table.rows)[row]).None?
    // only the warning path touches the table's selection
    ensures warning.None? ==>
              table.selectedRow == old(table.selectedRow) && table.currentRow == old(table.currentRow)
    ensures warning.Some? ==>
              store.boxes == old(store.boxes) &&
              ShowsBoxes(table.rows, old(table.rows), store.boxes, image.value) &&
              ShowsSelection(table.selectedRow, table.currentRow, old(table.currentRow), store.selected, |store.boxes|)
  {
    warning := None;
    if !(0 <= row < |store.boxes| && LabelColumn <= col <= LastCoordColumn) {
      return;
    }
    if image.None? || row >= |table.rows| {
      return;
    }
    var w, h := image.value.width, image.value.height;
    var b := store.boxes[row];
    if col == LabelColumn {
      store.boxes := store.boxes[row := Box(b.coords, b.id, table.rows[row].classLabel)];
    } else {
      var parsed := ParsedNorm(table.rows[row]);
      if parsed.Some? {
        var n := ClampNorm(parsed.value);
        store.boxes := store.boxes[row := Box(FromNormalized(n, w, h), b.id, b.classLabel)];
        table.rows := table.rows[row := table.rows[row].(
          xCenter := Some(n.xCenter), yCenter := Some(n.yCenter),
          width := Some(n.width), height := Some(n.height))];
      } else {
        warning := Some(InvalidCoordinates);
        UpdateTable(store, table, image);
      }
    }
  }

  /** Re-committing the values a rebuilt row shows leaves the box where it
      was, provided it is at least 1% of the image on both axes (a smaller
      box is widened by the clamp). */
  lemma {:induction false} CellEditKeepsBox(k: int, b: Box, labels: map<string, string>, w: Pos, h: Pos)
    requires InImage(b.coords, w, h)
    requires 0.01 <= AxisSize(b.coords.x1, b.coords.x2, w)
    requires 0.01 <= AxisSize(b.coords.y1, b.coords.y2, h)
    ensures FromNormalized(ClampNorm(ParsedNorm(RowFor(k, b, labels, w, h)).value), w, h) == b.coords
  {
    RowShowsBox(k, b, labels, w, h);
  }

  /** `on_table_selection_changed`: the top selected row becomes the
      selection when it names a box; an empty selection clears it; a row
      past the boxes changes nothing. */
  method OnTableSelectionChanged(store: BoxManager, table: TableWidget)
    requires store.Valid()
    modifies store
    ensures store.Valid() && store.boxes == old(store.boxes)
    ensures table.selectedRow.None? ==> store.selected == -1
    ensures table.selectedRow.Some? && 0 <= table.selectedRow.value < |store.boxes| ==>
              store.selected == table.selectedRow.value
    ensures table.selectedRow.Some? && !(0 <= table.selectedRow.value < |store.boxes|) ==>
              store.selected == old(store.selected)
  {
    match table.selectedRow
    case Some(top) =>
      if 0 <= top < |store.boxes| && store.selected != top {
        store.selected := top;
      }
    case None =>
      if store.selected != -1 {
        store.selected := -1;
      }
  }

  /** The box `handle_item_changed` builds from a row: the unclamped cells
      converted to pixels, with the row's id and label. */
  function ItemBox(r: Row, w: Pos, h: Pos): (b: Option<Box>)
    ensures b.Some? <==> ParsedNorm(r).Some?
    ensures b.Some? ==> b.value.id == r.id && b.value.classLabel == r.classLabel
  {
    match ParsedNorm(r)
    case None => None
    case Some(n) => Some(Box(FromNormalized(n, w, h), r.id, r.classLabel))
  }

  /** Pushing a freshly rebuilt row back gives the box it shows. */
  lemma {:induction false} ItemBoxOfRebuiltRow(k: int, b: Box, labels: map<string, string>, w: Pos, h: Pos)
    ensures ItemBox(RowFor(k, b, labels, w, h), w, h) ==
              Some(Box(b.coords, b.id, ShownLabel(b, labels)))
  {
    RowShowsBox(k, b, labels, w, h);
  }

  /** `handle_item_changed`: an edit in a column from 2 on rewrites the box
      at that row from the row's cells, without clamping, and returns the box
      to be written to the database. An edit of the number or id column, a
      cell that is not a number, no image, or a row the table or the store
      does not have, changes nothing. */
  method HandleItemChanged(store: BoxManager, table: TableWidget, image: Option<Dims>, row: nat, col: int)
    returns (pushed: Option<Box>)
    requires store.Valid()
    modifies store
    ensures store.Valid() && store.selected == old(store.selected)
    ensures pushed.Some? <==>
              col >= LabelColumn && row < |table.rows| && row < |old(store.boxes)| && image.Some? &&
              ParsedNorm(table.rows[row]).Some?
    ensures pushed.None? ==> store.boxes == old(store.boxes)
    ensures pushed.Some? ==>
              pushed == ItemBox(table.rows[row], image.value.width, image.value.height) &&
              store.boxes == old(store.boxes)[row := pushed.value]
  {
    if col < LabelColumn || row >= |table.rows| || image.None? {
      return None;
    }
    pushed := ItemBox(table.rows[row], image.value.width, image.value.height);
    if pushed.None? || row >= |store.boxes| {
      return None;
    }
    store.boxes := store.boxes[row := pushed.value];
  }
}
